=== FILE: README.md ===
# gokl in Dafny

gokl turns the Binary Kitchen journal ("Kuechenlog") into gopher month pages. Each
journal entry is a text file with a header of `KEY: value` lines, one blank line, and a
free-form body. `parseFile` reads an entry. `formatEntry` turns it into what a page
shows:

- dates in the layout "Monday, 2. January 2006";
- an end date only when the entry ends after it begins;
- wiki links `[[target|name]]` rewritten by `convertlink` into numbered references and
  footnote menu items;
- media files listed as numbered "[BILD n]" picture items.

`generateGopherDir` walks the entries sorted by `ByBegin.Less`. It starts a new page
whenever the month key (`Format("01-January")`) of the begin date changes. On that
change it writes out the page being filled, and both numbering counters start again at 1.

The project models that core as pure functions:

| file | module | what it models |
|---|---|---|
| `results.dfy` | `Results` | `Option` and `Result` |
| `text.dfy` | `Text` | the Go `strings`/`strconv` operations the core uses: `Contains`, `HasPrefix`, `SplitN(…, 2)`, `SplitAfterN(…, 2)`, `Split`, `Replace(…, -1)`, `Itoa`, zero padding |
| `dates.dfy` | `Dates` | midnight `time.Time` values and their order; the layouts "2006-01-02", "01-January", "2006" and "Monday, 2. January 2006" |
| `entries.dfy` | `Entries` | `parseFile` on the contents of a file, with a writer that is its inverse |
| `links.dfy` | `Links` | `convertlink`, the link loop of `formatEntry` as written, and the loop as intended |
| `format.dfy` | `Format` | `formatEntry` |
| `pages.dfy` | `Pages` | `ByBegin.Less` and the page loop of `generateGopherDir` |
| `grouping.dfy` | `Grouping` | the page loop as its `year/month` output paths suggest it is meant: the corrected counterpart of the loop in `Pages` |

Every operation is paired with something it can be checked against:

- an inverse: `Serialize` for the parser, `FormatIso` for the date parser, `Join` for `Split`;
- an independent reading: `Expected` for the link loop, `Target`/`Shown`/`Url` for
  `convertlink`, `DayNumber` for the date order;
- a recursive characterisation: `ReplaceAll` is the text before the first occurrence, the
  replacement, and `ReplaceAll` of the rest;
- or the invariant the loop keeps: `Inv` for the page loop.

A *plain* body, in the lemmas about the link loop, is text and links in turn. Its links
have a target and an optional caption without brackets or '|'. In its text every '[' is
followed by another character, so that text such as "see [1]" or "[sic]" is plain while
"[[" is not.

## Model

| member | source | states |
|---|---|---|
| Text.Find | gokl.go:236 | The index found is an occurrence of the pattern and no earlier index is one; `None` only when the pattern occurs nowhere (`strings.Contains`). |
| Text.SplitOnce | gokl.go:110 | `strings.SplitN(s, sep, 2)`: two parts exactly when `sep` occurs. They rebuild `s` around the first occurrence. Otherwise the one part is `s`. |
| Text.Split | gokl.go:100 | `strings.Split` gives at least one piece, and exactly one when the separator does not occur. With more pieces, the first ends at the first occurrence of the separator, and the rest are the pieces of what follows it. So "\n\n\n" splits at "\n\n" into "" and "\n". `SplitJoinsBack` and `SplitPiecesFree` add that the pieces join back and hold no separator. |
| Text.SplitAfterOnce | gokl.go:241 | `strings.SplitAfterN(s, sep, 2)`: two parts exactly when `sep` occurs. They rebuild `s`, and the first part ends with the first occurrence. |
| Text.SplitJoinsBack | gokl.go:100 | Joining the pieces of `strings.Split` with the separator gives the text back. |
| Text.SplitPiecesFree | gokl.go:100 | No piece of `strings.Split` contains the separator. |
| Text.SplitJoin | gokl.go:107 | Splitting a joined list of separator-free pieces on a one-character separator gives the list back. |
| Text.ReplaceAll | gokl.go:188 | `strings.Replace(s, pat, rep, -1)`: text without `pat` is unchanged. Otherwise the result is the text before the first occurrence, then `rep`, then the same replacement applied to the text after that occurrence. |
| Text.Itoa | gokl.go:187 | `strconv.Itoa` writes digits only, with no leading zero. |
| Text.ItoaValue | gokl.go:187 | Reading the digits of `Itoa(n)` back gives `n`. |
| Text.PadDecimal | gokl.go:270-272 | The zero-padded numeral of the layouts "01" and "2006": digits only, at least `width` long, and it denotes `n`. |
| Dates.BeforeIsStrictTotal | gokl.go:52 | `Time.Before` on midnights is irreflexive, transitive, total and asymmetric. |
| Dates.BeforeIsDayOrder | gokl.go:52 | `Before`, the model of `Time.Before` on midnights, holds between real days exactly when the day count since January 1 of year 1 is smaller. |
| Dates.ParseDate | gokl.go:113-116 | `time.Parse("2006-01-02", …)` accepts only real days with a four-digit year, and what it accepts is that day's own rendering. |
| Dates.ParseFormat | gokl.go:113-116 | Every real day with a four-digit year is read back from its rendering, so the parser accepts exactly the renderings. |
| Dates.MonthKeyMatchesMonth | gokl.go:270-271 | Two month keys are equal exactly when the months are, whatever the years. |
| Dates.JanuaryKey | gokl.go:274 | The key is "01-January" exactly for dates in January. |
| Dates.YearLabelMatchesYear | gokl.go:272 | Two year labels are equal exactly when the years are. |
| Dates.ReferenceDay | gokl.go:20 | The layout's reference day, January 2 2006, renders as "Monday, 2. January 2006". |
| Entries.BeforeComma | gokl.go:132-133 | A MEDIA value keeps its text up to the first comma: a prefix without a comma, followed by a comma or the end. |
| Entries.ApplyLine | gokl.go:108-135 | A header line is accepted exactly when `LineAccepted` holds. Comment and unknown-key lines leave the record. A known key without ": " fails with `MissingValue`. The body is never touched. |
| Entries.LineEffect | gokl.go:111-134 | Field by field: TOPIC and APPENDIX store their value; BEGIN stores its date; END stores its date unless it is "None"; MEDIA appends the name before the first comma. No other field moves. |
| Entries.ValueEffect | gokl.go:112-134 | `ApplyValue`, the dispatch on a known key once its value is cut out: field by field, the key's own field takes the value (END only when it is not "None", MEDIA appending the part before the first comma), and every other field keeps its value. |
| Entries.ApplyLines | gokl.go:107-136 | The header loop succeeds exactly when every line is accepted, and leaves the body alone. |
| Entries.HeaderFields | gokl.go:107-136 | After the header loop: the last TOPIC, APPENDIX and BEGIN value; the last END value other than "None"; one media name per MEDIA line, in order. Unset fields keep their value. |
| Entries.ParseContent | gokl.go:99-139 | Contents without a blank line are `InvalidFormat(1)`. On success the body is what follows the only "\n\n", and neither the header nor the body holds another one. |
| Entries.TwoSeparatorsRejected | gokl.go:100-103 | Contents with two blank lines are rejected as `InvalidFormat`, whatever lies around them. |
| Entries.OneSeparator | gokl.go:100-139 | With one blank line the parse succeeds exactly when every header line is accepted, and the body comes back verbatim. |
| Entries.MissingBeginIsZero | gokl.go:93-117 | Without a BEGIN line the begin date stays Go's zero time. |
| Entries.SerializeRoundTrip | gokl.go:92-139 | Writing an entry out and parsing it again gives the same entry. |
| Links.Numbered | gokl.go:211-219 | The reference is "[" + name + "][LINK:n]". The footnote starts "[h\|[LINK n]: " + name + "\|URL:" and ends with the gopher host. |
| Links.NumberedPointsAt | gokl.go:211-219 | The address a footnote points at can be read back from between its name and the gopher host. |
| Links.PlainSpan | gokl.go:184-222 | `ConvertLink`, the model of `convertlink`: for bracket-free text `x`, the span `x + "]]"` shows `Shown(x)` and points at `Url(x)`, which are read off `x` independently. |
| Links.LeadingColonKept | gokl.go:190-192 | A span ":y" keeps its ':' in the reference shown. The strip fires only when the span itself holds "[[:" (`ColonSpanIsWiki`). |
| Links.ColonSpanIsWiki | gokl.go:190-192 | A span starting with "[[:" is a wiki link even when it names a web address. |
| Links.Step | gokl.go:236-244 | One pass finds no "[[" exactly when the body has none. |
| Links.StepIsSplitN | gokl.go:236-244 | One pass is the two Go splits: `SplitN` at "[[", then `SplitAfterN` at "]]". |
| Links.StepFound | gokl.go:237-247 | A span found is cut out of the body: before, "[[", the span ending in "]]", after. |
| Links.RewriteLinks | gokl.go:236-251 | When the loop finishes, no "[[" is left and the footnotes are numbered on from `count`. The next number is `count` plus the number of footnotes. A body without "[[" is unchanged. |
| Links.RewritePlain | gokl.go:236-251 | On a plain body, with fuel for one rewrite per link, the loop gives exactly the segment-by-segment reading `Expected`. |
| Links.UnterminatedHangs | gokl.go:236-251 | A "[[" with no "]]" after it makes the loop spin: no result for any fuel. |
| Links.BracketedTextHangs | gokl.go:236-251 | Link text starting with '[' makes the loop spin: no result for any fuel. |
| Links.ScanLinks | gokl.go:236-251 | The corrected loop always ends. It numbers footnotes on from `count`, and the next number is `count` plus their number. A body without "[[" is unchanged. |
| Links.ScanPlain | gokl.go:236-251 | On a plain body the corrected loop gives exactly `Expected`. |
| Links.ScanAgreesOnPlain | gokl.go:236-251 | Wherever the Go loop finishes on a plain body, the corrected loop gives the same result. |
| Links.ScanLeavesUnterminated | gokl.go:236-251 | The corrected loop leaves an unterminated "[[" in the body and lists nothing. |
| Links.ScanBracketed | gokl.go:236-251 | The corrected loop gives bracketed link text one reference and one footnote. |
| Format.ListMedia | gokl.go:252-259 | The media loop: the k-th media file gets the label `MediaLabel(mediacount+k)`, "[BILD mediacount+k]", and the item `MediaItem` linking that label to `imageurl` + name. The counter ends at mediacount + n. |
| Format.MediaLabelNumber | gokl.go:253 | The picture number can be read back off its label, so different numbers give different labels. |
| Format.EndLine | gokl.go:230-232 | The end line is non-empty exactly when the end is after the begin, and then starts with "bis ". |
| Format.OpenEndedShowsNoEnd | gokl.go:119-126 | An "END: None" entry keeps the zero end date. It shows no end line exactly when it begins in year 1 or later. A begin in year 0, which the date layout accepts, lies before the zero time, so its end line is shown. |
| Format.FormatEntry | gokl.go:224-262 | The begin date is shown in the long layout, with an end line exactly when the end is later. Topic and appendix are kept. The shown body, the footnotes and the next link number are what the link loop gives, unchanged by the media loop. The body has no "[[" left, and the footnotes are numbered on from `linkcount`. The media labels and items are numbered on from `mediacount`, and both counters are handed back. |
| Format.FormatPlainBody | gokl.go:236-251 | On a plain body `formatEntry` shows and lists exactly what `Expected` says. |
| Pages.LessIsStrictWeak | gokl.go:52 | `Less`, the model of `ByBegin.Less`, is a strict weak order. Two entries are unordered exactly when they begin on the same day. |
| Pages.SortedDaysAscend | gokl.go:336 | In a log sorted by `ByBegin`, begin days never go down. |
| Pages.PageYear | gokl.go:272-277 | The year is that of the new entry, or of the entry before when the new key is January's. It fails exactly for a first entry in January. `PageYearRule` states it in months, page by page. |
| Pages.KeysMatchMonths | gokl.go:270 | Two entries share a month key exactly when they begin in the same month, whatever the years. The key is "01-January" exactly for entries that begin in January. |
| Pages.PaginateShape | gokl.go:264-311 | `Paginate`, the loop of `generateGopherDir` (and `GopherDir`, the loop with `formatEntry`): the pages written are exactly one per opening, each as `PageOk` describes (the loop invariant `Inv`). |
| Pages.FillEntryAt | gokl.go:302-307 | The k-th entry on a page is that entry formatted with the counters the entries before it handed back. Its footnotes and pictures follow theirs. |
| Pages.FillCounted | gokl.go:297-307 | A page filled from fresh counters numbers its footnotes and pictures 1, 2, 3, …, and the counters stay one past them. |
| Pages.EntryFormatterNumbers | gokl.go:224-262 | `formatEntry` numbers on from the counters it is given and hands back the next free ones. |
| Pages.PageSize | gokl.go:264-311 | Page j holds the entries from the opening before it up to its own opening. |
| Pages.PageContents | gokl.go:264-311 | Page j is filled from fresh counters, under the key of the entry before its opening. Its year follows the January rule. |
| Pages.PagesNumbered | gokl.go:297-307 | Every page written numbers its footnotes and pictures from 1. |
| Pages.GopherDirNumbered | gokl.go:264-311 | The same for `generateGopherDir` itself. |
| Pages.FirstPageEmpty | gokl.go:265-277 | The first page written is empty, with an empty month. |
| Pages.PageHoldsOneMonth | gokl.go:269-271 | Every entry on a page has the month key the page is filed under. |
| Pages.TotalUpTo | gokl.go:264-311 | The first n pages hold exactly the entries before the n-th opening. |
| Pages.LastMonthDropped | gokl.go:264-311 | The pages hold the entries before the last opening and no more. The entries of the last month key are on none of them. |
| Pages.LaterPassesNeverPanic | gokl.go:274-275 | After the first entry, the loop can only fail in the link loop. |
| Pages.FirstKeyPanics | gokl.go:274-275 | The loop fails on `entries[index-1]` exactly when the first key is January's. |
| Pages.JanuaryFirstFails | gokl.go:274-275 | The same in dates: it fails exactly when the first entry begins in January. |
| Pages.PaginateFinishes | gokl.go:264-311 | When every entry formats and the first key is not January's, the loop writes its pages without error. |
| Pages.GopherDirFinishes | gokl.go:264-311 | On real days whose bodies hold no "[[", `generateGopherDir` fails exactly when the first entry begins in January. |
| Pages.PageYearRule | gokl.go:272-277 | A page is filed under the year of the entry that opens the next page, or of the entry before when that entry is in January. |
| Pages.TwoRunsOpenings | gokl.go:270-271 | Keys that change once, after the second of three entries, open pages at 0 and 2. |
| Pages.TwoRunsPages | gokl.go:264-311 | With such keys, the second page holds the first two entries, under their key and the third entry's year. |
| Pages.DecembersShareAPage | gokl.go:264-277 | `generateGopherDir` on entries of December 2023, December 2024 and February 2025 succeeds. It puts both Decembers on one page, filed under 2025. |
| Grouping.RunLengthMonth | gokl.go:269-271 | The run at the front is all in the first entry's month of its year, and the next entry is not. |
| Grouping.Groups | gokl.go:269-308 | The runs concatenate to the entries, and none is empty. |
| Grouping.GroupsOneMonth | gokl.go:269-271 | Each run is in one month of one year, and neighbouring runs differ. |
| Grouping.GroupPagesAt | gokl.go:302-307 | Page j is the page of run j. |
| Grouping.FixedPagesShape | gokl.go:269-308 | Each intended page holds its run, under the run's own month key and year. |
| Grouping.FixedPagesCover | gokl.go:269-308 | The intended pages hold every entry, the last month's too, and none is empty. |
| Grouping.FixedPagesFinish | gokl.go:274-275 | When every entry of the log formats, every intended page is written, a first entry in January included: only the link loop can stop the intended pages. |
| Grouping.FixedPagesFormatEntry | gokl.go:224-311 | With `formatEntry` on real days whose bodies hold no "[[", the intended pages are all written, even when the first entry is in January, where `generateGopherDir` fails. |
| Grouping.GroupsAscend | gokl.go:269-271 | The runs of a sorted log come in strictly ascending months. |
| Grouping.OnePagePerMonth | gokl.go:269-287 | No two intended pages are filed under the same month key and year label, so no page overwrites another at its `year/month` path. No two runs share a month and a year. |

## Left out

- `getRepo`, `generateLogEntries`, `main` and the `flag` handling are left out. They clone the repository, walk the directory tree and read files.
- In `generateGopherDir`, directory creation, template parsing, file creation and template execution are left out: the model returns the pages in the order they are written. The I/O errors are dropped with them.
- `sort.Sort(ByBegin(les))` is not modelled as an algorithm. Its result enters the model only through `SortedByBegin`. The sort is not stable, so the order of entries that begin on the same day is not fixed.
- `Entries.ParseContent`: on an error it returns only the error, where `parseFile` also returns the partly filled record. Callers drop that record.
- The Go run-time panics become error values:
  - `split[1]` on a known key without ": " becomes `MissingValue`;
  - `entries[index-1]` at index 0 becomes `NoPreviousEntry`.
- Strings are `seq<char>`, so invalid UTF-8 cannot be represented. The core only compares and cuts at ASCII markers.
- Dates.ParseDate: `time.Parse` is reduced to a validator of the layout "2006-01-02", with four, two and two digits. Go's handling of other inputs (out-of-range errors, its error texts) is not modelled.
- Dates are kept as (year, month, day) at midnight UTC, which is what `time.Parse` gives for that layout. Time zones and clock times are left out.
- Links.RewriteLinks: the Go loop has no bound. The model allows at most `fuel` rewrites and returns `None` when they run out. `RewritePlain` shows that one rewrite per link is enough on plain bodies, and `UnterminatedHangs` and `BracketedTextHangs` show that no fuel is enough where Go spins.
- Pages.EntryFormatter: returns `None` for an entry whose dates are not real days. Every Go `time.Time` is a real day, and `GopherDir` asks for `AllValid`, so that branch is never taken there.
- The page loop takes the month keys as an argument (`Paginate(entries, keys, format)`, with `Keyed` relating them to the entries). `GopherDir` passes `Keys(entries)`. The formatter is also an argument; `GopherDir` passes `formatEntry`.
- The counters are `nat`. Go's `int` starts at 1 and only grows, and a page has far fewer links than would overflow it.

## Findings

| source | as written | input that shows it | evidently intended | confidence | as-written member | corrected member |
|---|---|---|---|---|---|---|
| gokl.go:270-271 | Pages are keyed by `Format("01-January")` alone, which has no year, so months of different years run together | Entries on 2023-12-10, 2024-12-03 and 2025-02-01 (`DecemberLog`) | One page per month of each year, as the output path `year/month` (gokl.go:278) suggests | not executed | Pages.DecembersShareAPage | Grouping.OnePagePerMonth |
| gokl.go:272-277 | A page is filed under the year of the entry that opens the next page, or of the entry before when that one is in January | The same three entries: the page of the two Decembers is filed under 2025 | The year of the page's own entries | not executed | Pages.PageYearRule | Grouping.FixedPagesShape |
| gokl.go:274-275 | `entries[index-1]` is read at index 0 when the first entry is in January, which is a run-time panic | Any sorted log whose first entry begins in January | The first page is written like any other | not executed | Pages.JanuaryFirstFails | Grouping.FixedPagesFormatEntry |
| gokl.go:269-308 | A page is written only when the key changes. The first write is an empty page with no month, and the page being filled when the entries run out is never written | Any non-empty log: its last month appears on no page | Every entry on some page, and no empty page | not executed | Pages.LastMonthDropped | Grouping.FixedPagesCover |
| gokl.go:236-251 | The loop scans again from the start of the body. The reference for link text starting with '[' starts with "[[" again, with no "]]" after it | Body "[[[a]]" | Each link is rewritten once, and the loop ends | not executed | Links.BracketedTextHangs | Links.ScanBracketed |
| gokl.go:236-251 | A "[[" with no "]]" after it keeps the loop condition true, while the body never changes | Body "a [[b" | The rest is left unscanned, and the loop ends | not executed | Links.UnterminatedHangs | Links.ScanLeavesUnterminated |

## Notes on the code

- Leading ':' in a link. The test for "[[:" at gokl.go:190 looks inside the span that the
  loop passes. The loop has already cut off the "[[" that opened the link. So a link
  "[[:y]]" reaches `convertlink` as ":y]]" and keeps its ':' (`Links.LeadingColonKept`).
  The strip fires only for a span that itself holds "[[:", as in the body "[[[[:ns]]"
  (`Links.ColonSpanIsWiki`).
- The `sort.Sort` at gokl.go:336 is not stable. Entries that begin on the same day may
  come in either order, and the model assumes only `SortedByBegin`.
- The key at gokl.go:270-271 carries no year, while the output path at gokl.go:278 does.
  That is the first finding above.

=== FILE: dates.dfy ===
/** Calendar dates as the journal entries carry them: the `begin` and `end` of an entry are
    Go `time.Time` values parsed from "YYYY-MM-DD", so they always fall at midnight UTC
    and comparing them reduces to comparing year, month and day. */
module Dates {
  import opened Results
  import opened Text

  datatype Date = Date(year: nat, month: nat, day: nat)

  /** Go's zero `time.Time`, January 1 of year 1: the value of a field no header line set. */
  const Zero := Date(1, 1, 1)

  predicate IsLeapYear(y: nat) {
    y % 4 == 0 && (y % 100 != 0 || y % 400 == 0)
  }

  function DaysIn(year: nat, month: nat): nat
    requires 1 <= month <= 12
  {
    if month == 2 then (if IsLeapYear(year) then 29 else 28)
    else if month == 4 || month == 6 || month == 9 || month == 11 then 30
    else 31
  }

  /** A day that exists in the proleptic Gregorian calendar Go uses. */
  predicate Valid(d: Date) {
    1 <= d.month <= 12 && 1 <= d.day <= DaysIn(d.year, d.month)
  }

  /** Go's `Time.Before` for two midnights: the calendar order of the dates. */
  predicate Before(a: Date, b: Date) {
    || a.year < b.year
    || (a.year == b.year && a.month < b.month)
    || (a.year == b.year && a.month == b.month && a.day < b.day)
  }

  /** Go's `Time.After`. */
  predicate After(a: Date, b: Date) {
    Before(b, a)
  }

  /** `Before` is a strict total order on dates. */
  lemma BeforeIsStrictTotal(a: Date, b: Date, c: Date)
    ensures !Before(a, a)
    ensures Before(a, b) && Before(b, c) ==> Before(a, c)
    ensures a == b || Before(a, b) || Before(b, a)
    ensures Before(a, b) ==> !Before(b, a)
  {
  }

  /** The date in the layout "2006-01-02": four-digit year, two-digit month and day. */
  function FormatIso(d: Date): string {
    PadDecimal(d.year, 4) + "-" + PadDecimal(d.month, 2) + "-" + PadDecimal(d.day, 2)
  }

  /** `time.Parse("2006-01-02", s)` reduced to a validator: exactly four, two and two
      digits separated by '-', a month from 1 to 12 and a day that exists in that month. */
  function ParseDate(s: string): (r: Option<Date>)
    ensures r.Some? ==> Valid(r.value) && r.value.year <= 9999
    ensures r.Some? ==> FormatIso(r.value) == s
  {
    if |s| == 10 && s[4] == '-' && s[7] == '-'
       && AllDigits(s[..4]) && AllDigits(s[5..7]) && AllDigits(s[8..])
    then
      var d := Date(DecimalValue(s[..4]), DecimalValue(s[5..7]), DecimalValue(s[8..]));
      if 1 <= d.month <= 12 && 1 <= d.day <= DaysIn(d.year, d.month) then
        YearFits(s[..4]);
        IsoFields(s);
        Some(d)
      else None
    else None
  }

  /** A string of the "2006-01-02" shape is the rendering of the numbers in its fields. */
  lemma IsoFields(s: string)
    requires |s| == 10 && s[4] == '-' && s[7] == '-'
    requires AllDigits(s[..4]) && AllDigits(s[5..7]) && AllDigits(s[8..])
    ensures FormatIso(Date(DecimalValue(s[..4]), DecimalValue(s[5..7]), DecimalValue(s[8..]))) == s
  {
    var y, m, d := s[..4], s[5..7], s[8..];
    assert PadDecimal(DecimalValue(y), 4) == y by { PadDecimalOfDigits(y); }
    assert PadDecimal(DecimalValue(m), 2) == m by { PadDecimalOfDigits(m); }
    assert PadDecimal(DecimalValue(d), 2) == d by { PadDecimalOfDigits(d); }
    IsoShape(s);
  }

  /** Four digits denote a year of at most four digits. */
  lemma YearFits(y: string)
    requires |y| == 4 && AllDigits(y)
    ensures DecimalValue(y) <= 9999
  {
    DecimalValueBound(y);
    assert Pow10(4) == 10000;
  }

  /** A text of the "2006-01-02" shape is its three fields joined by '-'. */
  lemma IsoShape(s: string)
    requires |s| == 10 && s[4] == '-' && s[7] == '-'
    ensures s == s[..4] + "-" + s[5..7] + "-" + s[8..]
  {
  }

  /** Every valid date with a four-digit year is read back from its own rendering, so
      together with the contract of `ParseDate` the parser accepts exactly these renderings. */
  lemma ParseFormat(d: Date)
    requires Valid(d) && d.year <= 9999
    ensures ParseDate(FormatIso(d)) == Some(d)
  {
    FieldWidths(d);
    IsoSlices(PadDecimal(d.year, 4), PadDecimal(d.month, 2), PadDecimal(d.day, 2));
    ParseFields(FormatIso(d), d);
  }

  /** The fields of a valid date with a four-digit year fill the widths of the layout. */
  lemma FieldWidths(d: Date)
    requires Valid(d) && d.year <= 9999
    ensures |PadDecimal(d.year, 4)| == 4 && |PadDecimal(d.month, 2)| == 2
    ensures |PadDecimal(d.day, 2)| == 2
  {
    assert Pow10(4) == 10000 && Pow10(2) == 100;
    PadWidth(d.year, 4);
    PadWidth(d.month, 2);
    PadWidth(d.day, 2);
  }

  /** A text of the "2006-01-02" shape whose fields denote a valid date parses as it. */
  lemma ParseFields(s: string, d: Date)
    requires |s| == 10 && s[4] == '-' && s[7] == '-'
    requires AllDigits(s[..4]) && AllDigits(s[5..7]) && AllDigits(s[8..])
    requires DecimalValue(s[..4]) == d.year && DecimalValue(s[5..7]) == d.month
    requires DecimalValue(s[8..]) == d.day && Valid(d)
    ensures ParseDate(s) == Some(d)
  {
  }

  lemma IsoSlices(y: string, m: string, d: string)
    requires |y| == 4 && |m| == 2 && |d| == 2
    ensures var s := y + "-" + m + "-" + d;
      |s| == 10 && s[4] == '-' && s[7] == '-' && s[..4] == y && s[5..7] == m && s[8..] == d
  {
  }

  /** Go's `Month.String()`: the English month name, or "%!Month(n)" outside 1..12. */
  function MonthName(m: nat): string {
    match m
    case 1 => "January"
    case 2 => "February"
    case 3 => "March"
    case 4 => "April"
    case 5 => "May"
    case 6 => "June"
    case 7 => "July"
    case 8 => "August"
    case 9 => "September"
    case 10 => "October"
    case 11 => "November"
    case 12 => "December"
    case _ => "%!Month(" + Itoa(m) + ")"
  }

  /** The date in the layout "01-January": the key the pagination groups entries by. */
  function MonthKey(d: Date): string {
    PadDecimal(d.month, 2) + "-" + MonthName(d.month)
  }

  /** The date in the layout "2006": the year label of a page. */
  function YearLabel(d: Date): string {
    PadDecimal(d.year, 4)
  }

  /** The year label tells the years of two dates apart, as the four digits read back. */
  lemma YearLabelMatchesYear(a: Date, b: Date)
    ensures YearLabel(a) == YearLabel(b) <==> a.year == b.year
  {
    assert DecimalValue(YearLabel(a)) == a.year && DecimalValue(YearLabel(b)) == b.year;
  }

  /** The month key tells the months of two dates apart, and it ignores the year. */
  lemma MonthKeyMatchesMonth(a: Date, b: Date)
    requires 1 <= a.month <= 12 && 1 <= b.month <= 12
    ensures MonthKey(a) == MonthKey(b) <==> a.month == b.month
  {
    assert Pow10(2) == 100;
    ItoaShort(a.month, 2);
    ItoaShort(b.month, 2);
    if MonthKey(a) == MonthKey(b) {
      assert MonthKey(a)[..2] == PadDecimal(a.month, 2);
      assert MonthKey(b)[..2] == PadDecimal(b.month, 2);
    }
  }

  /** The key "01-January" that the pagination singles out belongs to exactly the
      January dates. */
  lemma JanuaryKey(d: Date)
    requires 1 <= d.month <= 12
    ensures MonthKey(d) == "01-January" <==> d.month == 1
  {
    assert Itoa(1) == "1";
    assert PadDecimal(1, 2) == "01";
    assert MonthKey(Date(d.year, 1, 1)) == "01-January";
    MonthKeyMatchesMonth(d, Date(d.year, 1, 1));
  }

  // ---------------------------------------------------------------------------------
  // The layout "Monday, 2. January 2006"

  /** The days of the months before `month` in `year`. */
  function DaysBeforeMonth(year: nat, month: nat): nat
    requires 1 <= month <= 12
  {
    if month == 1 then 0 else DaysBeforeMonth(year, month - 1) + DaysIn(year, month - 1)
  }

  /** The days from January 1 of year 1 to `d` in the proleptic Gregorian calendar. */
  function DayNumber(d: Date): int
    requires 1 <= d.month <= 12
  {
    var p := d.year - 1;
    365 * p + p / 4 - p / 100 + p / 400 + DaysBeforeMonth(d.year, d.month) + d.day - 1
  }

  /** The day of the week, 0 for Monday: January 1 of year 1 was a Monday. */
  function Weekday(d: Date): (w: nat)
    requires 1 <= d.month <= 12
    ensures w < 7
  {
    DayNumber(d) % 7
  }

  /** Go's `Weekday.String()` for a day counted from Monday. */
  function WeekdayName(w: nat): string
    requires w < 7
  {
    ["Monday", "Tuesday", "Wednesday", "Thursday", "Friday", "Saturday", "Sunday"][w]
  }

  /** The date in the layout "Monday, 2. January 2006": weekday, unpadded day, month
      name and four-digit year. */
  function LongDate(d: Date): string
    requires 1 <= d.month <= 12
  {
    WeekdayName(Weekday(d)) + ", " + Itoa(d.day) + ". " + MonthName(d.month) + " " + YearLabel(d)
  }

  /** The layout's own reference day renders as the layout. */
  lemma ReferenceDay()
    ensures LongDate(Date(2006, 1, 2)) == "Monday, 2. January 2006"
  {
    var d := Date(2006, 1, 2);
    assert DayNumber(d) == 732312;
    assert Weekday(d) == 0;
    assert Itoa(2) == "2";
    assert YearLabel(d) == "2006" by { Year2006(); }
  }

  lemma Year2006()
    ensures PadDecimal(2006, 4) == "2006"
  {
    assert Itoa(2) == "2";
    assert Itoa(20) == "20";
    assert Itoa(200) == "200";
    assert Itoa(2006) == "2006";
  }

  /** A year has 366 days when it is a leap year and 365 otherwise. */
  lemma YearLength(y: nat)
    ensures DaysBeforeMonth(y, 12) + DaysIn(y, 12) == if IsLeapYear(y) then 366 else 365
  {
    assert DaysBeforeMonth(y, 2) == 31;
    assert DaysBeforeMonth(y, 3) == 31 + DaysIn(y, 2);
    assert DaysBeforeMonth(y, 4) == DaysBeforeMonth(y, 3) + 31;
    assert DaysBeforeMonth(y, 5) == DaysBeforeMonth(y, 3) + 61;
    assert DaysBeforeMonth(y, 6) == DaysBeforeMonth(y, 3) + 92;
    assert DaysBeforeMonth(y, 7) == DaysBeforeMonth(y, 3) + 122;
    assert DaysBeforeMonth(y, 8) == DaysBeforeMonth(y, 3) + 153;
    assert DaysBeforeMonth(y, 9) == DaysBeforeMonth(y, 3) + 184;
    assert DaysBeforeMonth(y, 10) == DaysBeforeMonth(y, 3) + 214;
    assert DaysBeforeMonth(y, 11) == DaysBeforeMonth(y, 3) + 245;
    assert DaysBeforeMonth(y, 12) == DaysBeforeMonth(y, 3) + 275;
  }

  /** Stepping a number up by one adds one multiple of `k` exactly when it lands on one. */
  lemma MultiplesStep(y: int, k: int)
    requires k == 4 || k == 100 || k == 400
    ensures y / k - (y - 1) / k == if y % k == 0 then 1 else 0
  {
    var q, r := y / k, y % k;
    assert y == k * q + r && 0 <= r < k;
    if r == 0 {
      assert y - 1 == k * (q - 1) + (k - 1);
    } else {
      assert y - 1 == k * q + (r - 1);
    }
  }

  /** January 1 of the next year comes one year length later. */
  lemma NextYearStart(y: nat)
    ensures DayNumber(Date(y + 1, 1, 1)) == DayNumber(Date(y, 1, 1)) + DaysBeforeMonth(y, 12) + DaysIn(y, 12)
  {
    NewYearsDay(y);
    NewYearsDay(y + 1);
    LeapDay(y);
    YearLength(y);
  }

  /** January 1 comes after 365 days for every earlier year and one more for each leap
      year among them. */
  lemma NewYearsDay(y: nat)
    ensures DayNumber(Date(y, 1, 1)) == 365 * (y - 1) + (y - 1) / 4 - (y - 1) / 100 + (y - 1) / 400
  {
  }

  /** Counting leap years up to `y` instead of up to `y - 1` adds one exactly when `y`
      is a leap year. */
  lemma LeapDay(y: nat)
    ensures (y / 4 - (y - 1) / 4) - (y / 100 - (y - 1) / 100) + (y / 400 - (y - 1) / 400)
      == if IsLeapYear(y) then 1 else 0
  {
    var a, b, c := y / 4 - (y - 1) / 4, y / 100 - (y - 1) / 100, y / 400 - (y - 1) / 400;
    MultiplesStep(y, 4);
    MultiplesStep(y, 100);
    MultiplesStep(y, 400);
    DivisorsOfYear(y);
    if y % 400 == 0 {
      assert a == 1 && b == 1 && c == 1;
    } else if y % 100 == 0 {
      assert a == 1 && b == 1 && c == 0;
    } else if y % 4 == 0 {
      assert a == 1 && b == 0 && c == 0;
    } else {
      assert a == 0 && b == 0 && c == 0;
    }
  }

  /** A multiple of 400 is one of 100, and a multiple of 100 is one of 4. */
  lemma DivisorsOfYear(y: nat)
    ensures y % 400 == 0 ==> y % 100 == 0
    ensures y % 100 == 0 ==> y % 4 == 0
  {
    if y % 400 == 0 {
      var q := y / 400;
      assert y == 100 * (4 * q);
    }
    if y % 100 == 0 {
      var q := y / 100;
      assert y == 4 * (25 * q);
    }
  }

  /** Later months start after every day of earlier ones. */
  lemma {:induction false} MonthsAscend(y: nat, m1: nat, m2: nat)
    requires 1 <= m1 < m2 <= 12
    ensures DaysBeforeMonth(y, m1) + DaysIn(y, m1) <= DaysBeforeMonth(y, m2)
    decreases m2
  {
    if m1 < m2 - 1 {
      MonthsAscend(y, m1, m2 - 1);
    }
  }

  /** Every day of a year comes before January 1 of a later year. */
  lemma {:induction false} YearsAscend(d: Date, y: nat)
    requires Valid(d) && d.year < y
    ensures DayNumber(d) < DayNumber(Date(y, 1, 1))
    decreases y - d.year
  {
    NextYearStart(d.year);
    if d.month < 12 {
      MonthsAscend(d.year, d.month, 12);
    }
    if d.year + 1 < y {
      YearsAscend(Date(d.year + 1, 1, 1), y);
    }
  }

  /** `Before` is the order of the day count: the calendar comparison of year, month and
      day is the comparison of the instants Go compares. */
  lemma BeforeIsDayOrder(a: Date, b: Date)
    requires Valid(a) && Valid(b)
    ensures Before(a, b) <==> DayNumber(a) < DayNumber(b)
  {
    if a.year < b.year {
      YearsAscend(a, b.year);
    } else if b.year < a.year {
      YearsAscend(b, a.year);
    } else if a.month < b.month {
      MonthsAscend(a.year, a.month, b.month);
    } else if b.month < a.month {
      MonthsAscend(a.year, b.month, a.month);
    }
  }
}

=== FILE: entries.dfy ===
/** The entry parser (`parseFile` in gokl.go) applied to the contents of one entry file.
    A file is a header of `KEY: value` lines, one blank line, and a free-form body. */
module Entries {
  import opened Results
  import opened Text
  import opened Dates

  /** One journal entry, as `parseFile` fills in Go's `logentry`. */
  datatype LogEntry = LogEntry(
    begin: Date,
    end: Date,
    topic: string,
    appendix: string,
    media: seq<string>,
    body: string)

  /** The record before any header line is applied: Go's zero `logentry`. */
  const Blank := LogEntry(Zero, Zero, "", "", [], "")

  datatype ParseError =
    /** Splitting the contents on "\n\n" gave `parts` pieces instead of two. */
    | InvalidFormat(parts: nat)
    /** A BEGIN or END value is not a date in the layout "2006-01-02". */
    | BadDate(value: string)
    /** A recognised key without ": ": Go indexes past the end of the split line there,
        which is a run-time panic. */
    | MissingValue(key: string)

  /** The separator between header and body. */
  const BlankLine := "\n\n"

  predicate IsComment(line: string) {
    StartsWith(line, "#")
  }

  predicate IsKnownKey(key: string) {
    key == "BEGIN" || key == "END" || key == "TOPIC" || key == "APPENDIX" || key == "MEDIA"
  }

  /** The key of a header line: the text before its first ": ", or the whole line. */
  function KeyOf(line: string): (key: string)
    ensures StartsWith(line, key)
  {
    SplitOnce(line, ": ")[0]
  }

  /** The value that `line` gives `key`: the text after the first ": ", when the line is not
      a comment, has a ": " and its key is `key`. */
  function ValueFor(line: string, key: string): Option<string> {
    if IsComment(line) then None
    else
      var kv := SplitOnce(line, ": ");
      if |kv| == 2 && kv[0] == key then Some(kv[1]) else None
  }

  /** The text of a MEDIA value before its first comma: the one file name kept per line. */
  function BeforeComma(value: string): (name: string)
    ensures StartsWith(value, name) && !Contains(name, ",")
    ensures name == value || value[|name|] == ','
  {
    var parts := SplitOnce(value, ",");
    if |parts| == 2 then
      assert value == parts[0] + "," + parts[1];
      NothingBeforeFirst(value, ",", |parts[0]|);
      assert value[..|parts[0]|] == parts[0];
      parts[0]
    else
      parts[0]
  }

  /** The date a validated date value denotes (`Zero` if it does not parse). */
  function DateValue(value: string): Date {
    var d := ParseDate(value);
    if d.Some? then d.value else Zero
  }

  /** Whether a header line leaves the parse able to go on. This depends on the line alone,
      never on the lines before it. */
  predicate LineAccepted(line: string) {
    || IsComment(line)
    || !IsKnownKey(KeyOf(line))
    || (Contains(line, ": ")
        && (KeyOf(line) == "BEGIN" ==> ParseDate(ValueFor(line, "BEGIN").value).Some?)
        && (KeyOf(line) == "END" ==>
              ValueFor(line, "END").value == "None" || ParseDate(ValueFor(line, "END").value).Some?))
  }

  /** One pass of the header loop of `parseFile`. */
  function ApplyLine(e: LogEntry, line: string): (r: Result<LogEntry, ParseError>)
    ensures r.Ok? <==> LineAccepted(line)
    ensures IsComment(line) || !IsKnownKey(KeyOf(line)) ==> r == Ok(e)
    ensures r.Ok? ==> r.value.body == e.body
    ensures r.Err? && !Contains(line, ": ") ==> r.error == MissingValue(KeyOf(line))
  {
    if StartsWith(line, "#") then Ok(e)
    else
      var split := SplitOnce(line, ": ");
      var key := split[0];
      if !IsKnownKey(key) then Ok(e)
      else if |split| < 2 then Err(MissingValue(key))
      else ApplyValue(e, key, split[1])
  }

  /** The dispatch on a recognised key once its value is known. */
  function ApplyValue(e: LogEntry, key: string, value: string): Result<LogEntry, ParseError> {
    if key == "BEGIN" then
      var t := ParseDate(value);
      if t.None? then Err(BadDate(value)) else Ok(e.(begin := t.value))
    else if key == "END" then
      if value != "None" then
        var t := ParseDate(value);
        if t.None? then Err(BadDate(value)) else Ok(e.(end := t.value))
      else Ok(e)
    else if key == "TOPIC" then Ok(e.(topic := value))
    else if key == "APPENDIX" then Ok(e.(appendix := value))
    else Ok(e.(media := e.media + [Split(value, ",")[0]]))
  }

  /** The values one line gives a key, as a list of zero or one element. */
  function LineValues(line: string, key: string): seq<string> {
    var v := ValueFor(line, key);
    if v.Some? then [v.value] else []
  }

  lemma KeysDistinct()
    ensures "BEGIN" != "END" && "BEGIN" != "TOPIC" && "BEGIN" != "APPENDIX" && "BEGIN" != "MEDIA"
    ensures "END" != "TOPIC" && "END" != "APPENDIX" && "END" != "MEDIA"
    ensures "TOPIC" != "APPENDIX" && "TOPIC" != "MEDIA" && "APPENDIX" != "MEDIA"
  {
    assert "BEGIN"[0] == 'B' && "TOPIC"[0] == 'T' && "MEDIA"[0] == 'M';
  }

  /** The values a line with key `key` and value `value` gives the key `k`. */
  function Given(key: string, k: string, value: string): seq<string> {
    if key == k then [value] else []
  }

  /** What an accepted header line does to each field: a TOPIC or APPENDIX line stores the
      text after its first ": ", a BEGIN line or an END line other than "None" stores its
      date, a MEDIA line appends the text before its first comma, and nothing else moves. */
  lemma LineEffect(e: LogEntry, line: string)
    requires ApplyLine(e, line).Ok?
    ensures var r := ApplyLine(e, line).value;
      && r.topic == LastOr(LineValues(line, "TOPIC"), e.topic)
      && r.appendix == LastOr(LineValues(line, "APPENDIX"), e.appendix)
      && r.begin == LastDateOr(LineValues(line, "BEGIN"), e.begin)
      && r.end == LastDateOr(NotNone(LineValues(line, "END")), e.end)
      && r.media == e.media + FirstNames(LineValues(line, "MEDIA"))
  {
    if IsComment(line) || !IsKnownKey(KeyOf(line)) {
      assert ApplyLine(e, line) == Ok(e);
      assert LineValues(line, "TOPIC") == [] && LineValues(line, "APPENDIX") == [];
      assert LineValues(line, "BEGIN") == [] && LineValues(line, "END") == [];
      assert LineValues(line, "MEDIA") == [];
    } else {
      var key, value := KeyOf(line), SplitOnce(line, ": ")[1];
      assert ApplyLine(e, line) == ApplyValue(e, key, value);
      LineValuesAre(line);
      ValueEffect(e, key, value);
    }
  }

  /** An uncommented line with ": " gives its value to its own key and to no other. */
  lemma LineValuesAre(line: string)
    requires !IsComment(line) && Contains(line, ": ")
    ensures forall k :: LineValues(line, k) == Given(KeyOf(line), k, SplitOnce(line, ": ")[1])
  {
  }

  /** The field update of one recognised key, stated field by field. */
  lemma ValueEffect(e: LogEntry, key: string, value: string)
    requires IsKnownKey(key) && ApplyValue(e, key, value).Ok?
    ensures var r := ApplyValue(e, key, value).value;
      && r.topic == LastOr(Given(key, "TOPIC", value), e.topic)
      && r.appendix == LastOr(Given(key, "APPENDIX", value), e.appendix)
      && r.begin == LastDateOr(Given(key, "BEGIN", value), e.begin)
      && r.end == LastDateOr(NotNone(Given(key, "END", value)), e.end)
      && r.media == e.media + FirstNames(Given(key, "MEDIA", value))
  {
    TextEffect(e, key, value);
    DateEffect(e, key, value);
    MediaEffect(e, key, value);
  }

  lemma TextEffect(e: LogEntry, key: string, value: string)
    requires IsKnownKey(key) && ApplyValue(e, key, value).Ok?
    ensures var r := ApplyValue(e, key, value).value;
      && r.topic == LastOr(Given(key, "TOPIC", value), e.topic)
      && r.appendix == LastOr(Given(key, "APPENDIX", value), e.appendix)
  {
    KeysDistinct();
  }

  lemma DateEffect(e: LogEntry, key: string, value: string)
    requires IsKnownKey(key) && ApplyValue(e, key, value).Ok?
    ensures var r := ApplyValue(e, key, value).value;
      && r.begin == LastDateOr(Given(key, "BEGIN", value), e.begin)
      && r.end == LastDateOr(NotNone(Given(key, "END", value)), e.end)
  {
    KeysDistinct();
  }

  lemma MediaEffect(e: LogEntry, key: string, value: string)
    requires IsKnownKey(key) && ApplyValue(e, key, value).Ok?
    ensures ApplyValue(e, key, value).value.media == e.media + FirstNames(Given(key, "MEDIA", value))
  {
    KeysDistinct();
    if key == "MEDIA" {
      SplitFirstPieces(value, ",");
      assert FirstNames([value]) == [BeforeComma(value)];
    }
  }

  /** The header loop of `parseFile`: the lines in order, stopping at the first error. */
  function ApplyLines(e: LogEntry, lines: seq<string>): (r: Result<LogEntry, ParseError>)
    ensures r.Ok? <==> forall k :: 0 <= k < |lines| ==> LineAccepted(lines[k])
    ensures r.Ok? ==> r.value.body == e.body
    decreases |lines|
  {
    if |lines| == 0 then Ok(e)
    else
      var step := ApplyLine(e, lines[0]);
      if step.Err? then Err(step.error)
      else
        var r := ApplyLines(step.value, lines[1..]);
        assert forall k :: 1 <= k < |lines| ==> lines[k] == lines[1..][k - 1];
        r
  }

  /** `parseFile` after the file has been read: split off the body at the blank line, then
      apply the header lines to the zero record. */
  function ParseContent(content: string): (r: Result<LogEntry, ParseError>)
    ensures !Contains(content, BlankLine) ==> r == Err(InvalidFormat(1))
    ensures r.Ok? ==> |r.value.body| + 2 <= |content|
    ensures r.Ok? ==> content[|content| - |r.value.body| - 2..] == BlankLine + r.value.body
    ensures r.Ok? ==> !Contains(r.value.body, BlankLine)
    ensures r.Ok? ==> !Contains(content[..|content| - |r.value.body| - 2], BlankLine)
  {
    var split := Split(content, BlankLine);
    if |split| != 2 then Err(InvalidFormat(|split|))
    else
      SplitJoinsBack(content, BlankLine);
      SplitPiecesFree(content, BlankLine);
      var header := split[0];
      var body := split[1];
      assert content == header + BlankLine + body;
      assert content[|content| - |body| - 2..] == BlankLine + body;
      assert content[..|content| - |body| - 2] == header;
      var h := ApplyLines(Blank, Split(header, "\n"));
      if h.Err? then Err(h.error) else Ok(h.value.(body := body))
  }

  // ---------------------------------------------------------------------------------
  // The blank-line split

  /** Contents with two or more separators are rejected, whatever lies around them. */
  lemma TwoSeparatorsRejected(a: string, b: string, c: string)
    ensures ParseContent(a + BlankLine + b + BlankLine + c).Err?
    ensures ParseContent(a + BlankLine + b + BlankLine + c).error.InvalidFormat?
  {
    var s := a + BlankLine + b + BlankLine + c;
    var j := |a| + 2 + |b|;
    assert OccursAt(s, BlankLine, |a|) && OccursAt(s, BlankLine, j) by {
      SeparatorsAt(a, b, c);
    }
    assert Contains(s, BlankLine);
    var i := Find(s, BlankLine).value;
    assert Contains(s[i + 2..], BlankLine) by {
      OccursAfter(s, BlankLine, j, i + 2);
    }
    SplitTwice(s, BlankLine);
  }

  /** Where the two separators of `a + "\n\n" + b + "\n\n" + c` sit. */
  lemma SeparatorsAt(a: string, b: string, c: string)
    ensures OccursAt(a + BlankLine + b + BlankLine + c, BlankLine, |a|)
    ensures OccursAt(a + BlankLine + b + BlankLine + c, BlankLine, |a| + 2 + |b|)
  {
    var s := a + BlankLine + b + BlankLine + c;
    assert s[|a|..|a| + 2] == BlankLine;
    assert s[|a| + 2 + |b|..|a| + 2 + |b| + 2] == BlankLine;
  }

  /** An occurrence at or after `t` is still there once the first `t` characters go. */
  lemma OccursAfter(s: string, p: string, j: nat, t: nat)
    requires OccursAt(s, p, j) && t <= j
    ensures Contains(s[t..], p)
  {
    assert s[t..][j - t..j - t + |p|] == s[j..j + |p|];
    assert OccursAt(s[t..], p, j - t);
  }

  /** A text with a second separator after its first splits into three pieces or more. */
  lemma SplitTwice(s: string, sep: string)
    requires |sep| > 0 && Contains(s, sep)
    requires Find(s, sep).value + |sep| <= |s|
    requires Contains(s[Find(s, sep).value + |sep|..], sep)
    ensures |Split(s, sep)| >= 3
  {
  }

  /** Contents with one separator behind a header without a blank line or a trailing
      newline parse as the header lines applied to the zero record, with the body after
      the separator. */
  lemma ParseOneSeparator(header: string, body: string)
    requires Isolated(header, '\n')
    requires !Contains(body, BlankLine)
    ensures ParseContent(header + BlankLine + body) ==
      match ApplyLines(Blank, Split(header, "\n"))
      case Err(err) => Err(err)
      case Ok(h) => Ok(h.(body := body))
  {
    assert BlankLine == ['\n', '\n'];
    IsolatedThenPair(header, '\n', body);
    SplitJoinsBack(body, BlankLine);
    assert Split(body, BlankLine) == [body];
  }

  /** With exactly one separator, and a header that neither holds a blank line nor ends
      in a newline, the body is the text after the separator, kept verbatim, and the
      parse fails exactly when some header line is not accepted. */
  lemma OneSeparator(header: string, body: string)
    requires Isolated(header, '\n')
    requires !Contains(body, BlankLine)
    ensures ParseContent(header + BlankLine + body).Ok?
        <==> forall k :: 0 <= k < |Split(header, "\n")| ==> LineAccepted(Split(header, "\n")[k])
    ensures ParseContent(header + BlankLine + body).Ok? ==>
        ParseContent(header + BlankLine + body).value.body == body
  {
    ParseOneSeparator(header, body);
  }

  // ---------------------------------------------------------------------------------
  // The header fields

  /** The values `lines` give `key`, in line order. */
  function ValuesFor(lines: seq<string>, key: string): seq<string>
    decreases |lines|
  {
    if |lines| == 0 then []
    else
      LineValues(lines[0], key) + ValuesFor(lines[1..], key)
  }

  function LastOr(values: seq<string>, default: string): string {
    if |values| == 0 then default else values[|values| - 1]
  }

  function LastDateOr(values: seq<string>, default: Date): Date {
    if |values| == 0 then default else DateValue(values[|values| - 1])
  }

  /** The values other than the literal "None". */
  function NotNone(values: seq<string>): seq<string>
    decreases |values|
  {
    if |values| == 0 then []
    else (if values[0] == "None" then [] else [values[0]]) + NotNone(values[1..])
  }

  /** The file name each MEDIA value contributes, in order. */
  function FirstNames(values: seq<string>): seq<string>
    decreases |values|
  {
    if |values| == 0 then [] else [BeforeComma(values[0])] + FirstNames(values[1..])
  }

  lemma LastOrConcat(x: seq<string>, y: seq<string>, d: string)
    ensures LastOr(x + y, d) == LastOr(y, LastOr(x, d))
  {
    if |y| > 0 {
      assert (x + y)[|x + y| - 1] == y[|y| - 1];
    } else {
      assert x + y == x;
    }
  }

  lemma LastDateOrConcat(x: seq<string>, y: seq<string>, d: Date)
    ensures LastDateOr(x + y, d) == LastDateOr(y, LastDateOr(x, d))
  {
    if |y| > 0 {
      assert (x + y)[|x + y| - 1] == y[|y| - 1];
    } else {
      assert x + y == x;
    }
  }

  lemma {:induction false} NotNoneConcat(x: seq<string>, y: seq<string>)
    ensures NotNone(x + y) == NotNone(x) + NotNone(y)
    decreases |x|
  {
    if |x| == 0 {
      assert x + y == y;
    } else {
      assert (x + y)[1..] == x[1..] + y;
      NotNoneConcat(x[1..], y);
    }
  }

  /** What a successful header parse leaves in each field: the last TOPIC, APPENDIX and
      BEGIN value, the last END value other than "None", the first name of every MEDIA
      line in line order, and the body untouched. A field no line sets keeps its value. */
  lemma HeaderFields(e: LogEntry, lines: seq<string>, r: LogEntry)
    requires ApplyLines(e, lines) == Ok(r)
    ensures r.topic == LastOr(ValuesFor(lines, "TOPIC"), e.topic)
    ensures r.appendix == LastOr(ValuesFor(lines, "APPENDIX"), e.appendix)
    ensures r.begin == LastDateOr(ValuesFor(lines, "BEGIN"), e.begin)
    ensures r.end == LastDateOr(NotNone(ValuesFor(lines, "END")), e.end)
    ensures r.media == e.media + FirstNames(ValuesFor(lines, "MEDIA"))
    ensures r.body == e.body
  {
    HeaderTexts(e, lines, r);
    HeaderDates(e, lines, r);
    HeaderMedia(e, lines, r);
  }

  /** One header line peeled off the front of a successful parse. */
  lemma PeelLine(e: LogEntry, lines: seq<string>, r: LogEntry) returns (next: LogEntry)
    requires |lines| > 0 && ApplyLines(e, lines) == Ok(r)
    ensures ApplyLine(e, lines[0]) == Ok(next)
    ensures ApplyLines(next, lines[1..]) == Ok(r)
    ensures forall key :: ValuesFor(lines, key) == LineValues(lines[0], key) + ValuesFor(lines[1..], key)
  {
    next := ApplyLine(e, lines[0]).value;
  }

  lemma {:induction false} HeaderTexts(e: LogEntry, lines: seq<string>, r: LogEntry)
    requires ApplyLines(e, lines) == Ok(r)
    ensures r.topic == LastOr(ValuesFor(lines, "TOPIC"), e.topic)
    ensures r.appendix == LastOr(ValuesFor(lines, "APPENDIX"), e.appendix)
    decreases |lines|
  {
    if |lines| > 0 {
      var next := PeelLine(e, lines, r);
      HeaderTexts(next, lines[1..], r);
      LineEffect(e, lines[0]);
      LastOrConcat(LineValues(lines[0], "TOPIC"), ValuesFor(lines[1..], "TOPIC"), e.topic);
      LastOrConcat(LineValues(lines[0], "APPENDIX"), ValuesFor(lines[1..], "APPENDIX"), e.appendix);
    }
  }

  lemma {:induction false} HeaderDates(e: LogEntry, lines: seq<string>, r: LogEntry)
    requires ApplyLines(e, lines) == Ok(r)
    ensures r.begin == LastDateOr(ValuesFor(lines, "BEGIN"), e.begin)
    ensures r.end == LastDateOr(NotNone(ValuesFor(lines, "END")), e.end)
    decreases |lines|
  {
    if |lines| > 0 {
      var next := PeelLine(e, lines, r);
      HeaderDates(next, lines[1..], r);
      LineEffect(e, lines[0]);
      LastDateOrConcat(LineValues(lines[0], "BEGIN"), ValuesFor(lines[1..], "BEGIN"), e.begin);
      NotNoneConcat(LineValues(lines[0], "END"), ValuesFor(lines[1..], "END"));
      LastDateOrConcat(NotNone(LineValues(lines[0], "END")), NotNone(ValuesFor(lines[1..], "END")), e.end);
    }
  }

  lemma {:induction false} HeaderMedia(e: LogEntry, lines: seq<string>, r: LogEntry)
    requires ApplyLines(e, lines) == Ok(r)
    ensures r.media == e.media + FirstNames(ValuesFor(lines, "MEDIA"))
    decreases |lines|
  {
    if |lines| > 0 {
      var next := PeelLine(e, lines, r);
      var here, later := LineValues(lines[0], "MEDIA"), ValuesFor(lines[1..], "MEDIA");
      assert next.media == e.media + FirstNames(here) by {
        LineEffect(e, lines[0]);
      }
      assert r.media == next.media + FirstNames(later) by {
        HeaderMedia(next, lines[1..], r);
      }
      assert FirstNames(ValuesFor(lines, "MEDIA")) == FirstNames(here) + FirstNames(later) by {
        FirstNamesConcat(here, later);
      }
      ConcatAssoc(e.media, FirstNames(here), FirstNames(later));
    }
  }

  lemma {:induction false} FirstNamesConcat(x: seq<string>, y: seq<string>)
    ensures FirstNames(x + y) == FirstNames(x) + FirstNames(y)
    decreases |x|
  {
    if |x| == 0 {
      assert x + y == y;
    } else {
      assert (x + y)[1..] == x[1..] + y;
      FirstNamesConcat(x[1..], y);
    }
  }

  /** A header without a BEGIN line leaves the begin date at Go's zero time. */
  lemma MissingBeginIsZero(content: string)
    requires ParseContent(content).Ok?
    requires Contains(content, BlankLine)
    requires ValuesFor(Split(SplitOnce(content, BlankLine)[0], "\n"), "BEGIN") == []
    ensures ParseContent(content).value.begin == Zero
  {
    var split := Split(content, BlankLine);
    SplitFirstPieces(content, BlankLine);
    HeaderFields(Blank, Split(split[0], "\n"), ApplyLines(Blank, Split(split[0], "\n")).value);
  }

  // ---------------------------------------------------------------------------------
  // Writing an entry back

  /** A header line giving `key` the value `value`. */
  function KeyLine(key: string, value: string): string {
    key + ": " + value
  }

  /** One MEDIA line per file name. */
  function MediaLines(names: seq<string>): (lines: seq<string>)
    ensures |lines| == |names|
    decreases |names|
  {
    if |names| == 0 then [] else [KeyLine("MEDIA", names[0])] + MediaLines(names[1..])
  }

  /** How an END value is written: "None" for the zero date. */
  function EndText(d: Date): string {
    if d == Zero then "None" else FormatIso(d)
  }

  /** The header lines an entry file for `e` carries. */
  function HeaderLines(e: LogEntry): seq<string> {
    [KeyLine("BEGIN", FormatIso(e.begin))]
    + ([KeyLine("END", EndText(e.end))]
    + ([KeyLine("TOPIC", e.topic)]
    + ([KeyLine("APPENDIX", e.appendix)]
    + MediaLines(e.media))))
  }

  /** The text of an entry file for `e`. */
  function Serialize(e: LogEntry): string {
    Join(HeaderLines(e), "\n") + BlankLine + e.body
  }

  /** The entries the file format can express: dates the parser accepts, one-line texts,
      file names without a comma or newline, and a body without a blank line. */
  predicate Serializable(e: LogEntry) {
    && Valid(e.begin) && e.begin.year <= 9999
    && (e.end == Zero || (Valid(e.end) && e.end.year <= 9999))
    && '\n' !in e.topic && '\n' !in e.appendix
    && (forall k :: 0 <= k < |e.media| ==> '\n' !in e.media[k] && ',' !in e.media[k])
    && !Contains(e.body, BlankLine)
  }

  /** A written date is digits and dashes, so it has no newline and is not "None". */
  lemma IsoText(d: Date)
    ensures '\n' !in FormatIso(d) && FormatIso(d) != "None"
  {
    var y, m, dd := PadDecimal(d.year, 4), PadDecimal(d.month, 2), PadDecimal(d.day, 2);
    assert '\n' !in y && '\n' !in m && '\n' !in dd by {
      DigitsNoNewline(y);
      DigitsNoNewline(m);
      DigitsNoNewline(dd);
    }
    assert FormatIso(d) != "None" by {
      assert |y| >= 4 && IsDigit(y[0]);
      LeadOf(y, "-" + m + "-" + dd);
    }
  }

  /** Digits hold no newline. */
  lemma DigitsNoNewline(s: string)
    requires AllDigits(s)
    ensures '\n' !in s
  {
  }

  /** A text that starts with a digit is not "None". */
  lemma LeadOf(a: string, b: string)
    requires |a| > 0 && IsDigit(a[0])
    ensures a + b != "None"
  {
    assert (a + b)[0] == a[0];
  }

  /** A line for a recognised key reaches the value dispatch with exactly that value. */
  lemma ApplyKeyLine(x: LogEntry, key: string, value: string)
    requires IsKnownKey(key)
    ensures ApplyLine(x, KeyLine(key, value)) == ApplyValue(x, key, value)
  {
    KeyLineSplits(key, value);
  }

  /** A line for a recognised key is no comment, and its first ": " ends the key. */
  lemma KeyLineSplits(key: string, value: string)
    requires IsKnownKey(key)
    ensures !StartsWith(KeyLine(key, value), "#")
    ensures SplitOnce(KeyLine(key, value), ": ") == [key, value]
  {
    var s := KeyLine(key, value);
    assert key[0] != '#' && ':' !in key;
    assert s[..1] == [key[0]];
    HeadAbsent(key, ": ", value);
    SplitAt(key, ": ", value);
  }

  /** Applying a line that is accepted and then the rest is applying the rest to its result. */
  lemma ApplyLinesCons(x: LogEntry, line: string, rest: seq<string>, y: LogEntry)
    requires ApplyLine(x, line) == Ok(y)
    ensures ApplyLines(x, [line] + rest) == ApplyLines(y, rest)
  {
    assert ([line] + rest)[1..] == rest;
  }

  lemma {:induction false} ApplyMediaLines(x: LogEntry, names: seq<string>)
    requires forall k :: 0 <= k < |names| ==> ',' !in names[k]
    ensures ApplyLines(x, MediaLines(names)) == Ok(x.(media := x.media + names))
    decreases |names|
  {
    if |names| == 0 {
      assert x.media + names == x.media;
    } else {
      var next := x.(media := x.media + [names[0]]);
      var rest := names[1..];
      assert ApplyLines(x, MediaLines(names)) == ApplyLines(next, MediaLines(rest)) by {
        ApplyMediaLine(x, names[0]);
        ApplyLinesCons(x, KeyLine("MEDIA", names[0]), MediaLines(rest), next);
      }
      assert ApplyLines(next, MediaLines(rest)) == Ok(next.(media := next.media + rest)) by {
        assert forall k :: 0 <= k < |rest| ==> rest[k] == names[k + 1];
        ApplyMediaLines(next, rest);
      }
      assert next.media + rest == x.media + names by {
        ConcatAssoc(x.media, [names[0]], rest);
        assert [names[0]] + rest == names;
      }
    }
  }

  lemma ApplyMediaLine(x: LogEntry, name: string)
    requires ',' !in name
    ensures ApplyLine(x, KeyLine("MEDIA", name)) == Ok(x.(media := x.media + [name]))
  {
    ApplyKeyLine(x, "MEDIA", name);
    KeysDistinct();
    assert Split(name, ",") == [name] by {
      AbsentChar(name, ",");
      SplitJoinsBack(name, ",");
    }
  }

  lemma ApplyBeginLine(x: LogEntry, d: Date)
    requires Valid(d) && d.year <= 9999
    ensures ApplyLine(x, KeyLine("BEGIN", FormatIso(d))) == Ok(x.(begin := d))
  {
    ApplyKeyLine(x, "BEGIN", FormatIso(d));
    ParseFormat(d);
  }

  lemma ApplyEndLine(x: LogEntry, d: Date)
    requires d == Zero || (Valid(d) && d.year <= 9999)
    requires x.end == Zero
    ensures ApplyLine(x, KeyLine("END", EndText(d))) == Ok(x.(end := d))
  {
    ApplyKeyLine(x, "END", EndText(d));
    KeysDistinct();
    if d != Zero {
      ParseFormat(d);
      IsoText(d);
    }
  }

  lemma ApplyTextLines(x: LogEntry, topic: string, appendix: string)
    ensures ApplyLine(x, KeyLine("TOPIC", topic)) == Ok(x.(topic := topic))
    ensures ApplyLine(x.(topic := topic), KeyLine("APPENDIX", appendix))
      == Ok(x.(topic := topic, appendix := appendix))
  {
    KeysDistinct();
    ApplyKeyLine(x, "TOPIC", topic);
    ApplyKeyLine(x.(topic := topic), "APPENDIX", appendix);
  }

  /** Four accepted lines in a row carry the record from `x` to `x4`. */
  lemma ApplyFourLines(x: LogEntry, l1: string, l2: string, l3: string, l4: string, rest: seq<string>,
                       x1: LogEntry, x2: LogEntry, x3: LogEntry, x4: LogEntry)
    requires ApplyLine(x, l1) == Ok(x1) && ApplyLine(x1, l2) == Ok(x2)
    requires ApplyLine(x2, l3) == Ok(x3) && ApplyLine(x3, l4) == Ok(x4)
    ensures ApplyLines(x, [l1] + ([l2] + ([l3] + ([l4] + rest)))) == ApplyLines(x4, rest)
  {
    ApplyLinesCons(x, l1, [l2] + ([l3] + ([l4] + rest)), x1);
    ApplyLinesCons(x1, l2, [l3] + ([l4] + rest), x2);
    ApplyLinesCons(x2, l3, [l4] + rest, x3);
    ApplyLinesCons(x3, l4, rest, x4);
  }

  /** The record the four fixed header lines build from the zero record. */
  function FixedFields(e: LogEntry): LogEntry {
    Blank.(begin := e.begin, end := e.end, topic := e.topic, appendix := e.appendix)
  }

  /** The four fixed header lines restore the dates and texts of `e`. */
  lemma ApplyFixedLines(e: LogEntry)
    requires Serializable(e)
    ensures ApplyLines(Blank, HeaderLines(e)) == ApplyLines(FixedFields(e), MediaLines(e.media))
  {
    var x1 := Blank.(begin := e.begin);
    var x2 := x1.(end := e.end);
    var x3 := x2.(topic := e.topic);
    var x4 := x3.(appendix := e.appendix);
    var l1, l2 := KeyLine("BEGIN", FormatIso(e.begin)), KeyLine("END", EndText(e.end));
    var l3, l4 := KeyLine("TOPIC", e.topic), KeyLine("APPENDIX", e.appendix);
    assert ApplyLine(Blank, l1) == Ok(x1) by { ApplyBeginLine(Blank, e.begin); }
    assert ApplyLine(x1, l2) == Ok(x2) by { ApplyEndLine(x1, e.end); }
    assert ApplyLine(x2, l3) == Ok(x3) && ApplyLine(x3, l4) == Ok(x4) by {
      ApplyTextLines(x2, e.topic, e.appendix);
    }
    ApplyFourLines(Blank, l1, l2, l3, l4, MediaLines(e.media), x1, x2, x3, x4);
  }

  /** The header lines of `e` restore every field of `e` but the body. */
  lemma ApplyHeaderLines(e: LogEntry)
    requires Serializable(e)
    ensures ApplyLines(Blank, HeaderLines(e)) == Ok(e.(body := ""))
  {
    ApplyFixedLines(e);
    ApplyMediaLines(FixedFields(e), e.media);
    FixedFieldsThenMedia(e);
  }

  lemma FixedFieldsThenMedia(e: LogEntry)
    ensures FixedFields(e).(media := FixedFields(e).media + e.media) == e.(body := "")
  {
    assert FixedFields(e).media + e.media == e.media;
  }

  /** A non-empty text without a newline: what a header line must be to come back whole
      from the split on "\n". */
  predicate OneLine(s: string) {
    |s| > 0 && '\n' !in s
  }

  predicate AllOneLine(lines: seq<string>) {
    forall k :: 0 <= k < |lines| ==> OneLine(lines[k])
  }

  /** A line for a key without newline and a value without newline has no newline. */
  lemma KeyLineShape(key: string, value: string)
    requires |key| > 0 && '\n' !in key && '\n' !in value
    ensures OneLine(KeyLine(key, value))
  {
    assert '\n' !in ": ";
  }

  lemma ConsOneLine(x: string, rest: seq<string>)
    requires OneLine(x) && AllOneLine(rest)
    ensures AllOneLine([x] + rest)
  {
    forall k | 0 <= k < |[x] + rest|
      ensures OneLine(([x] + rest)[k])
    {
      if k > 0 { assert ([x] + rest)[k] == rest[k - 1]; }
    }
  }

  lemma {:induction false} MediaLinesOneLine(names: seq<string>)
    requires forall k :: 0 <= k < |names| ==> '\n' !in names[k]
    ensures AllOneLine(MediaLines(names))
    decreases |names|
  {
    if |names| > 0 {
      KeyLineShape("MEDIA", names[0]);
      assert forall k :: 0 <= k < |names[1..]| ==> names[1..][k] == names[k + 1];
      MediaLinesOneLine(names[1..]);
      ConsOneLine(KeyLine("MEDIA", names[0]), MediaLines(names[1..]));
    }
  }

  /** Every header line is non-empty and free of newlines. */
  lemma HeaderLinesShape(e: LogEntry)
    requires Serializable(e)
    ensures AllOneLine(HeaderLines(e))
  {
    FixedLinesShape(e);
    MediaLinesOneLine(e.media);
    ConsFour(KeyLine("BEGIN", FormatIso(e.begin)), KeyLine("END", EndText(e.end)),
      KeyLine("TOPIC", e.topic), KeyLine("APPENDIX", e.appendix), MediaLines(e.media));
  }

  /** The four lines for the fixed fields are single lines. */
  lemma FixedLinesShape(e: LogEntry)
    requires Serializable(e)
    ensures OneLine(KeyLine("BEGIN", FormatIso(e.begin))) && OneLine(KeyLine("END", EndText(e.end)))
    ensures OneLine(KeyLine("TOPIC", e.topic)) && OneLine(KeyLine("APPENDIX", e.appendix))
  {
    IsoText(e.begin);
    KeyLineShape("BEGIN", FormatIso(e.begin));
    if e.end != Zero { IsoText(e.end); }
    KeyLineShape("END", EndText(e.end));
    KeyLineShape("TOPIC", e.topic);
    KeyLineShape("APPENDIX", e.appendix);
  }

  lemma ConsFour(b: string, n: string, t: string, a: string, m: seq<string>)
    requires OneLine(b) && OneLine(n) && OneLine(t) && OneLine(a) && AllOneLine(m)
    ensures AllOneLine([b] + ([n] + ([t] + ([a] + m))))
  {
    ConsOneLine(a, m);
    ConsOneLine(t, [a] + m);
    ConsOneLine(n, [t] + ([a] + m));
    ConsOneLine(b, [n] + ([t] + ([a] + m)));
  }

  /** Writing an entry and parsing the text back gives the same entry: the header fields
      and the media list survive, and the body comes back verbatim. */
  lemma SerializeRoundTrip(e: LogEntry)
    requires Serializable(e)
    ensures ParseContent(Serialize(e)) == Ok(e)
  {
    var lines := HeaderLines(e);
    HeaderLinesShape(e);
    IsolatedJoin(lines, '\n');
    forall k | 0 <= k < |lines|
      ensures !Contains(lines[k], "\n")
    {
      AbsentChar(lines[k], "\n");
    }
    SplitJoin(lines, "\n");
    ParseOneSeparator(Join(lines, "\n"), e.body);
    ApplyHeaderLines(e);
  }
}

=== FILE: format.dfy ===
/** `formatEntry` in gokl.go: one parsed entry becomes the strings a month page shows,
    with its links rewritten into numbered references and its media files listed as
    numbered picture items. */
module Format {
  import opened Results
  import opened Text
  import opened Dates
  import opened Entries
  import opened Links

  /** Go's `outputentry`: what the page template shows of one entry. */
  datatype OutputEntry = OutputEntry(
    begin: string,
    end: string,
    topic: string,
    appendix: string,
    media: seq<string>,
    body: string)

  /** The five results of `formatEntry`: the shown entry, its link footnotes, its
      picture items, and the next free link and picture numbers. */
  datatype Formatted = Formatted(
    entry: OutputEntry,
    links: seq<string>,
    media: seq<string>,
    linkcount: nat,
    mediacount: nat)

  /** The reference a picture gets in the entry: "[BILD n]". */
  function MediaLabel(count: nat): string {
    "[BILD " + Itoa(count) + "]"
  }

  /** The menu item that links a picture reference to the image file. */
  function MediaItem(picture: string, imageurl: string, file: string): string {
    "[h|" + picture + "|URL:" + imageurl + file + GopherSuffix
  }

  /** The labels, the items and the next free number after the media loop. */
  datatype MediaOut = MediaOut(labels: seq<string>, items: seq<string>, next: nat)

  /** The media loop of `formatEntry`: the k-th file name gets the label numbered
      `count + k` and an item that points at the file under `imageurl`. */
  function ListMedia(names: seq<string>, imageurl: string, count: nat): (r: MediaOut)
    ensures |r.labels| == |names| && |r.items| == |names|
    ensures r.next == count + |names|
    ensures forall k :: 0 <= k < |names| ==> r.labels[k] == MediaLabel(count + k)
    ensures forall k :: 0 <= k < |names| ==>
      r.items[k] == MediaItem(MediaLabel(count + k), imageurl, names[k])
    decreases |names|
  {
    if |names| == 0 then MediaOut([], [], count)
    else
      var picture := MediaLabel(count);
      var rest := ListMedia(names[1..], imageurl, count + 1);
      MediaOut([picture] + rest.labels, [MediaItem(picture, imageurl, names[0])] + rest.items, rest.next)
  }

  /** `strconv.Itoa` never writes two numbers alike. */
  lemma ItoaInjective(a: nat, b: nat)
    requires Itoa(a) == Itoa(b)
    ensures a == b
  {
    ItoaValue(a);
    ItoaValue(b);
  }

  /** Pictures of one page are told apart: different numbers give different labels, and
      the number can be read back off the label. */
  lemma MediaLabelNumber(count: nat)
    ensures |MediaLabel(count)| >= 8
    ensures var l := MediaLabel(count); AllDigits(l[6..|l| - 1]) && DecimalValue(l[6..|l| - 1]) == count
    ensures forall other: nat :: MediaLabel(other) == MediaLabel(count) ==> other == count
  {
    var l := MediaLabel(count);
    assert l[6..|l| - 1] == Itoa(count);
    ItoaValue(count);
    forall other: nat | MediaLabel(other) == l
      ensures other == count
    {
      var m := MediaLabel(other);
      assert m[6..|m| - 1] == Itoa(other);
      ItoaInjective(other, count);
    }
  }

  /** The line under the start date: "bis " and the end date, shown only when the entry
      ends after the day it begins. */
  function EndLine(begin: Date, end: Date): (s: string)
    requires Valid(begin) && Valid(end)
    ensures s != "" <==> After(end, begin)
    ensures s != "" ==> StartsWith(s, "bis ")
  {
    if After(end, begin) then
      var s := "bis " + LongDate(end);
      assert s[..4] == "bis ";
      s
    else ""
  }

  /** An entry whose END line said "None" keeps the zero end date, so it shows no end
      line exactly when it begins in year 1 or later: a begin in year 0, which the date
      layout accepts, lies before the zero time. */
  lemma OpenEndedShowsNoEnd(begin: Date)
    requires Valid(begin)
    ensures EndLine(begin, Zero) == "" <==> begin.year >= 1
  {
    if begin.year >= 1 {
      BeforeIsDayOrder(begin, Zero);
      assert DayNumber(Zero) == 0;
    }
  }

  /** `formatEntry`: the dates in the long layout, topic and appendix as they are, the
      body after the link loop (given at most `fuel` rewrites; `None` where the Go loop
      does not finish), and the media loop. Link footnotes are numbered on from
      `linkcount`, pictures from `mediacount`. */
  function FormatEntry(e: LogEntry, imageurl: string, linkcount: nat, mediacount: nat, fuel: nat)
    : (r: Option<Formatted>)
    requires Valid(e.begin) && Valid(e.end)
    ensures r.Some? <==> RewriteLinks(e.body, linkcount, fuel).Some?
    ensures r.Some? ==> r.value.entry.begin == LongDate(e.begin)
    ensures r.Some? ==> (r.value.entry.end != "" <==> After(e.end, e.begin))
    ensures r.Some? ==> r.value.entry.topic == e.topic && r.value.entry.appendix == e.appendix
    ensures r.Some? ==> var o := RewriteLinks(e.body, linkcount, fuel).value;
      && r.value.entry.body == o.body && r.value.links == o.links && r.value.linkcount == o.next
    ensures r.Some? ==> !Contains(r.value.entry.body, "[[")
    ensures r.Some? ==> NumberedFrom(r.value.links, linkcount)
    ensures r.Some? ==> r.value.linkcount == linkcount + |r.value.links|
    ensures r.Some? ==> |r.value.entry.media| == |e.media| && |r.value.media| == |e.media|
    ensures r.Some? ==> r.value.mediacount == mediacount + |e.media|
    ensures r.Some? ==> forall k :: 0 <= k < |e.media| ==>
      && r.value.entry.media[k] == MediaLabel(mediacount + k)
      && r.value.media[k] == MediaItem(MediaLabel(mediacount + k), imageurl, e.media[k])
  {
    var o := RewriteLinks(e.body, linkcount, fuel);
    if o.None? then None
    else
      var m := ListMedia(e.media, imageurl, mediacount);
      var shown := OutputEntry(LongDate(e.begin), EndLine(e.begin, e.end), e.topic, e.appendix,
                               m.labels, o.value.body);
      Some(Formatted(shown, o.value.links, m.items, o.value.next, m.next))
  }

  /** For a body of plain text and plain links, and enough fuel for one rewrite per link,
      `formatEntry` shows the body and lists the footnotes exactly as the segment-by-
      segment reading says; the media loop leaves both alone. */
  lemma FormatPlainBody(e: LogEntry, segs: seq<Segment>, imageurl: string, linkcount: nat,
                        mediacount: nat, fuel: nat)
    requires Valid(e.begin) && Valid(e.end)
    requires e.body == Render(segs)
    requires forall k :: 0 <= k < |segs| ==> PlainSegment(segs[k])
    requires LinkCount(segs) <= fuel
    ensures FormatEntry(e, imageurl, linkcount, mediacount, fuel).Some?
    ensures FormatEntry(e, imageurl, linkcount, mediacount, fuel).value.entry.body
      == Expected(segs, linkcount).body
    ensures FormatEntry(e, imageurl, linkcount, mediacount, fuel).value.links
      == Expected(segs, linkcount).links
    ensures FormatEntry(e, imageurl, linkcount, mediacount, fuel).value.linkcount
      == linkcount + LinkCount(segs)
  {
    assert "" + Render(segs) == Render(segs);
    assert "" + Expected(segs, linkcount).body == Expected(segs, linkcount).body;
    IsolatedFree("", '[');
    RewritePlain("", segs, linkcount, fuel);
  }
}

=== FILE: grouping.dfy ===
/** The page loop of `generateGopherDir` as its `year/month` output paths suggest it is
    meant: the sorted entries are grouped by the year and the month they begin in, every
    group is written out, and each page is filed under the month and the year of its own
    entries. This is the corrected counterpart of
    the loop in `Pages`, which groups by the month alone, files a page under the year of
    the entry after it, fails on a first entry in January and never writes its last page. */
module Grouping {
  import opened Results
  import opened Text
  import opened Dates
  import opened Entries
  import opened Format
  import opened Pages

  /** Two entries begin in the same month of the same year. */
  predicate SameMonth(a: LogEntry, b: LogEntry) {
    a.begin.year == b.begin.year && a.begin.month == b.begin.month
  }

  /** How many entries from the front begin in the month of the first;
      `RunLengthMonth` says which. */
  function RunLength(entries: seq<LogEntry>): (n: nat)
    requires |entries| > 0
    ensures 1 <= n <= |entries|
    decreases |entries|
  {
    if |entries| == 1 || !SameMonth(entries[1], entries[0]) then 1
    else 1 + RunLength(entries[1..])
  }

  /** The run holds the entries up to the first one of another month. */
  lemma {:induction false} RunLengthMonth(entries: seq<LogEntry>)
    requires |entries| > 0
    ensures forall k :: 0 <= k < RunLength(entries) ==> SameMonth(entries[k], entries[0])
    ensures RunLength(entries) < |entries| ==> !SameMonth(entries[RunLength(entries)], entries[0])
    decreases |entries|
  {
    if |entries| > 1 && SameMonth(entries[1], entries[0]) {
      RunLengthMonth(entries[1..]);
      assert forall k :: 0 <= k < |entries| - 1 ==> entries[1..][k] == entries[k + 1];
    }
  }

  /** The groups one after the other. */
  function Concat(gs: seq<seq<LogEntry>>): seq<LogEntry> {
    if |gs| == 0 then [] else gs[0] + Concat(gs[1..])
  }

  /** The entries cut into runs of one month each: nothing lost, nothing reordered, and
      no run empty; `GroupsOneMonth` says how the runs are cut. */
  function Groups(entries: seq<LogEntry>): (gs: seq<seq<LogEntry>>)
    ensures Concat(gs) == entries
    ensures forall j :: 0 <= j < |gs| ==> |gs[j]| > 0
    decreases |entries|
  {
    if |entries| == 0 then []
    else
      var n := RunLength(entries);
      var rest := Groups(entries[n..]);
      var gs := [entries[..n]] + rest;
      assert gs[1..] == rest;
      assert Concat(gs) == entries[..n] + entries[n..];
      gs
  }

  /** Every run lies in one month of one year, two runs side by side lie in different
      months, and the first run starts with the first entry. */
  lemma {:induction false} GroupsOneMonth(entries: seq<LogEntry>)
    ensures var gs := Groups(entries);
      forall j, k :: 0 <= j < |gs| && 0 <= k < |gs[j]| ==> SameMonth(gs[j][k], gs[j][0])
    ensures var gs := Groups(entries);
      forall j :: 0 < j < |gs| ==> !SameMonth(gs[j][0], gs[j - 1][0])
    ensures |Groups(entries)| > 0 ==> Groups(entries)[0][0] == entries[0]
    decreases |entries|
  {
    if |entries| > 0 {
      var n := RunLength(entries);
      var rest := Groups(entries[n..]);
      var gs := Groups(entries);
      RunLengthMonth(entries);
      GroupsOneMonth(entries[n..]);
      assert gs[0] == entries[..n] && gs[1..] == rest;
      assert forall j :: 0 < j < |gs| ==> gs[j] == rest[j - 1];
      assert |rest| > 0 ==> rest[0][0] == entries[n];
    }
  }

  /** A page for one group: its entries formatted with counters from 1, filed under the
      month key and the year of the group. */
  function GroupPage(group: seq<LogEntry>, format: Formatter): (r: Option<Page>)
    requires |group| > 0
    ensures r.Some? <==> Fill(group, format, 0, |group|).Some?
    ensures r.Some? ==> r.value.month == MonthKey(group[0].begin) && r.value.year == YearLabel(group[0].begin)
  {
    var sh := Fill(group, format, 0, |group|);
    if sh.None? then None
    else Some(sh.value.page.(month := MonthKey(group[0].begin), year := YearLabel(group[0].begin)))
  }

  /** The pages of the groups, in order; `None` when the link loop of an entry does not
      finish. */
  function GroupPages(gs: seq<seq<LogEntry>>, format: Formatter): (r: Option<seq<Page>>)
    requires forall j :: 0 <= j < |gs| ==> |gs[j]| > 0
    ensures r.Some? ==> |r.value| == |gs|
    decreases |gs|
  {
    if |gs| == 0 then Some([])
    else
      var first := GroupPage(gs[0], format);
      var rest := GroupPages(gs[1..], format);
      if first.None? || rest.None? then None else Some([first.value] + rest.value)
  }

  /** Page `j` is the page of group `j`. */
  lemma {:induction false} GroupPagesAt(gs: seq<seq<LogEntry>>, format: Formatter, j: nat)
    requires forall j :: 0 <= j < |gs| ==> |gs[j]| > 0
    requires GroupPages(gs, format).Some? && j < |gs|
    ensures GroupPage(gs[j], format) == Some(GroupPages(gs, format).value[j])
    decreases |gs|
  {
    var first, rest := GroupPage(gs[0], format), GroupPages(gs[1..], format);
    assert first.Some? && rest.Some?;
    var pages := GroupPages(gs, format).value;
    assert pages == [first.value] + rest.value;
    if j > 0 {
      GroupPagesAt(gs[1..], format, j - 1);
      assert gs[1..][j - 1] == gs[j] && pages[j] == rest.value[j - 1];
    }
  }

  /** The month pages as intended: one page per month of a year, for all entries. */
  function FixedPages(entries: seq<LogEntry>, format: Formatter): Option<seq<Page>> {
    GroupPages(Groups(entries), format)
  }

  // ---------------------------------------------------------------------------------
  // What the intended pages hold

  /** A filled page holds one shown entry per entry. */
  lemma GroupPageSize(group: seq<LogEntry>, format: Formatter)
    requires |group| > 0 && GroupPage(group, format).Some?
    ensures |GroupPage(group, format).value.entries| == |group|
  {
    FillPrefix(group, format, 0, |group|, |group|);
  }

  /** Page `j` is the page of group `j`: its entries all begin in one month of one year,
      and it is filed under that month and that year. */
  lemma FixedPagesShape(entries: seq<LogEntry>, format: Formatter, j: nat)
    requires FixedPages(entries, format).Some? && j < |FixedPages(entries, format).value|
    ensures |FixedPages(entries, format).value| == |Groups(entries)|
    ensures var g, p := Groups(entries)[j], FixedPages(entries, format).value[j];
      && |p.entries| == |g|
      && (forall k :: 0 <= k < |g| ==> SameMonth(g[k], g[0]))
      && p.month == MonthKey(g[0].begin) && p.year == YearLabel(g[0].begin)
  {
    var gs := Groups(entries);
    GroupPagesAt(gs, format, j);
    GroupsOneMonth(entries);
    GroupPageSize(gs[j], format);
  }

  /** Pages as long as their groups hold all the entries of the groups. */
  lemma {:induction false} ConcatLength(gs: seq<seq<LogEntry>>, pages: seq<Page>)
    requires |pages| == |gs|
    requires forall j :: 0 <= j < |gs| ==> |pages[j].entries| == |gs[j]|
    ensures EntriesOn(pages, |pages|) == |Concat(gs)|
    decreases |gs|
  {
    if |gs| > 0 {
      var n := |gs| - 1;
      ConcatLength(gs[..n], pages[..n]);
      ConcatSnoc(gs[..n], gs[n]);
      assert gs[..n] + [gs[n]] == gs;
      EntriesOnPrefix(pages, n);
    }
  }

  lemma {:induction false} ConcatSnoc(gs: seq<seq<LogEntry>>, g: seq<LogEntry>)
    ensures Concat(gs + [g]) == Concat(gs) + g
    decreases |gs|
  {
    if |gs| > 0 {
      assert (gs + [g])[1..] == gs[1..] + [g];
      ConcatSnoc(gs[1..], g);
    } else {
      assert gs + [g] == [g];
    }
  }

  /** Counting the first `n` pages of a longer list counts the same pages. */
  lemma {:induction false} EntriesOnPrefix(pages: seq<Page>, n: nat)
    requires n <= |pages|
    ensures EntriesOn(pages[..n], n) == EntriesOn(pages, n)
    decreases n
  {
    if n > 0 {
      assert pages[..n][..n - 1] == pages[..n - 1];
      EntriesOnPrefix(pages[..n], n - 1);
      EntriesOnPrefix(pages, n - 1);
    }
  }

  /** Every entry is on a page, the entries of the last month too, and no page is empty. */
  lemma FixedPagesCover(entries: seq<LogEntry>, format: Formatter)
    requires FixedPages(entries, format).Some?
    ensures EntriesOn(FixedPages(entries, format).value, |FixedPages(entries, format).value|) == |entries|
    ensures forall j :: 0 <= j < |FixedPages(entries, format).value| ==> |FixedPages(entries, format).value[j].entries| > 0
  {
    var gs := Groups(entries);
    var pages := FixedPages(entries, format).value;
    forall j | 0 <= j < |pages|
      ensures |pages[j].entries| == |gs[j]| > 0
    {
      GroupPagesAt(gs, format, j);
      GroupPageSize(gs[j], format);
    }
    ConcatLength(gs, pages);
  }

  lemma {:induction false} FillFinishes(entries: seq<LogEntry>, format: Formatter, lo: nat, hi: nat)
    requires lo <= hi <= |entries| && FormatsAll(entries, format)
    ensures Fill(entries, format, lo, hi).Some?
    decreases hi
  {
    if hi > lo {
      FillFinishes(entries, format, lo, hi - 1);
    }
  }

  /** What `format` finishes on a log it also finishes on the front and the back of it. */
  lemma FormatsAllSplit(entries: seq<LogEntry>, format: Formatter, n: nat)
    requires n <= |entries| && FormatsAll(entries, format)
    ensures FormatsAll(entries[..n], format) && FormatsAll(entries[n..], format)
  {
    forall k, linkcount: nat, mediacount: nat | 0 <= k < n
      ensures format(entries[..n][k], linkcount, mediacount).Some?
    {
      assert entries[..n][k] == entries[k];
    }
    forall k, linkcount: nat, mediacount: nat | 0 <= k < |entries| - n
      ensures format(entries[n..][k], linkcount, mediacount).Some?
    {
      assert entries[n..][k] == entries[n + k];
    }
  }

  /** Only the link loop can stop the intended pages: when every entry of the log
      formats, every month is written, and a first entry in January is filed like any
      other. */
  lemma {:induction false} FixedPagesFinish(entries: seq<LogEntry>, format: Formatter)
    requires FormatsAll(entries, format)
    ensures FixedPages(entries, format).Some?
    decreases |entries|
  {
    if |entries| > 0 {
      var n := RunLength(entries);
      var gs := Groups(entries);
      assert gs[0] == entries[..n] && gs[1..] == Groups(entries[n..]);
      FormatsAllSplit(entries, format, n);
      FillFinishes(entries[..n], format, 0, n);
      FixedPagesFinish(entries[n..], format);
    }
  }

  /** `formatEntry` on real days whose bodies hold no "[[" gives every intended page,
      where the loop of `generateGopherDir` fails on a first entry in January. */
  lemma FixedPagesFormatEntry(entries: seq<LogEntry>, imageurl: string, fuel: nat)
    requires AllValid(entries)
    requires forall k :: 0 <= k < |entries| ==> !Contains(entries[k].body, "[[")
    ensures FixedPages(entries, EntryFormatter(imageurl, fuel)).Some?
    ensures |entries| > 0 && entries[0].begin.month == 1 ==> GopherDir(entries, imageurl, fuel).Err?
  {
    PlainBodiesFormat(entries, imageurl, fuel);
    FixedPagesFinish(entries, EntryFormatter(imageurl, fuel));
    if |entries| > 0 {
      GopherDirFinishes(entries, imageurl, fuel);
    }
  }

  // ---------------------------------------------------------------------------------
  // One page per month of a year

  /** Months counted from year 0, so that later months have larger numbers. */
  function MonthIndex(d: Date): int {
    d.year * 12 + d.month
  }

  /** Sorted valid entries never go back to an earlier month. */
  lemma SortedMonthsAscend(entries: seq<LogEntry>, i: nat, j: nat)
    requires SortedByBegin(entries) && AllValid(entries) && i <= j < |entries|
    ensures MonthIndex(entries[i].begin) <= MonthIndex(entries[j].begin)
  {
    if i < j {
      assert !Less(entries[j], entries[i]);
    }
  }

  /** The groups of sorted entries come in strictly ascending months, each at or after
      the month of the first entry. */
  lemma {:induction false} GroupsAscend(entries: seq<LogEntry>)
    requires SortedByBegin(entries) && AllValid(entries)
    ensures var gs := Groups(entries);
      forall j :: 0 <= j < |gs| ==> MonthIndex(entries[0].begin) <= MonthIndex(gs[j][0].begin)
    ensures var gs := Groups(entries);
      forall j, l :: 0 <= j < l < |gs| ==> MonthIndex(gs[j][0].begin) < MonthIndex(gs[l][0].begin)
    decreases |entries|
  {
    if |entries| > 0 {
      var n := RunLength(entries);
      var rest := entries[n..];
      var gs := Groups(entries);
      assert gs[1..] == Groups(rest);
      GroupsOneMonth(entries);
      if n < |entries| {
        SortedSuffix(entries, n);
        GroupsAscend(rest);
        RunLengthMonth(entries);
        SortedMonthsAscend(entries, 0, n);
        assert rest[0] == entries[n];
        assert forall j :: 0 < j < |gs| ==> gs[j] == Groups(rest)[j - 1];
      }
    }
  }

  /** What is left of sorted valid entries after a prefix is sorted and valid. */
  lemma SortedSuffix(entries: seq<LogEntry>, n: nat)
    requires SortedByBegin(entries) && AllValid(entries) && n <= |entries|
    ensures SortedByBegin(entries[n..]) && AllValid(entries[n..])
  {
    forall i, j | 0 <= i < j < |entries| - n
      ensures !Less(entries[n..][j], entries[n..][i])
    {
      assert entries[n..][j] == entries[n + j] && entries[n..][i] == entries[n + i];
    }
  }

  /** The front and the back of a log of real days are real days. */
  lemma AllValidSplit(entries: seq<LogEntry>, n: nat)
    requires n <= |entries| && AllValid(entries)
    ensures AllValid(entries[..n]) && AllValid(entries[n..])
  {
    assert forall k :: 0 <= k < n ==> entries[..n][k] == entries[k];
    assert forall k :: 0 <= k < |entries| - n ==> entries[n..][k] == entries[n + k];
  }

  /** The runs of real days are real days. */
  lemma {:induction false} GroupsValid(entries: seq<LogEntry>)
    requires AllValid(entries)
    ensures forall j :: 0 <= j < |Groups(entries)| ==> AllValid(Groups(entries)[j])
    decreases |entries|
  {
    if |entries| > 0 {
      var n := RunLength(entries);
      var gs := Groups(entries);
      var rest := Groups(entries[n..]);
      assert gs[0] == entries[..n] && gs[1..] == rest;
      AllValidSplit(entries, n);
      GroupsValid(entries[n..]);
      forall j | 0 < j < |gs|
        ensures AllValid(gs[j])
      {
        assert gs[j] == rest[j - 1];
        assert AllValid(rest[j - 1]);
      }
    }
  }

  /** Sorted entries get one page per month of each year: no two runs share a month and
      a year, so no two pages are filed under the same month and year, and December of
      one year and December of the next are apart. */
  lemma OnePagePerMonth(entries: seq<LogEntry>, format: Formatter, j: nat, l: nat)
    requires SortedByBegin(entries) && AllValid(entries)
    requires FixedPages(entries, format).Some? && j < l < |FixedPages(entries, format).value|
    ensures var gs := Groups(entries); l < |gs| && !SameMonth(gs[j][0], gs[l][0])
    ensures var p := FixedPages(entries, format).value; p[j].month != p[l].month || p[j].year != p[l].year
  {
    GroupsAscend(entries);
    FixedPagesShape(entries, format, j);
    FixedPagesShape(entries, format, l);
    var gs: seq<seq<LogEntry>> := Groups(entries);
    GroupsValid(entries);
    var a := gs[j][0].begin;
    var b := gs[l][0].begin;
    assert Valid(a) && Valid(b) by {
      assert AllValid(gs[j]) && AllValid(gs[l]);
    }
    MonthKeyMatchesMonth(a, b);
    YearLabelMatchesYear(a, b);
  }
}

=== FILE: links.dfy ===
/** The wiki-link rewriting of `formatEntry` in gokl.go: `convertlink` turns one
    `[[...]]` span into an inline reference and a footnote menu item, and a loop keeps
    rewriting the first span of the body until no "[[" is left. */
module Links {
  import opened Results
  import opened Text

  /** The wiki page address every non-web link points into. */
  const WikiBase := "http://www.binary-kitchen.de/wiki/doku.php?id="

  /** The host and port that close every gopher menu item. */
  const GopherSuffix := "|gopher.binary-kitchen.de|70]"

  /** `status` in `convertlink`: 2 for a wiki page, 3 for a web address. */
  datatype LinkKind = Wiki | Web

  /** The text of a link with its markers removed, and what it points to. */
  datatype Classified = Classified(kind: LinkKind, text: string)

  /** The reference left in the body and the footnote item listed under the page. */
  datatype Converted = Converted(inlink: string, listlink: string)

  predicate IsWebAddress(s: string) {
    Contains(s, "http://") || Contains(s, "https://")
  }

  /** Removes the "]]" markers, then either "[[:" (which forces a wiki link) or "[[",
      and decides between wiki page and web address. */
  function Classify(span: string): Classified {
    var enclosed := ReplaceAll(span, "]]", "");
    if Contains(span, "[[:") then Classified(Wiki, ReplaceAll(enclosed, "[[:", ""))
    else
      var text := ReplaceAll(enclosed, "[[", "");
      Classified(if IsWebAddress(text) then Web else Wiki, text)
  }

  /** The end of an inline reference with number `count`. */
  function RefTail(count: nat): string {
    "][LINK:" + Itoa(count) + "]"
  }

  /** The start of the footnote item with number `count`. */
  function FootnoteHead(count: nat): string {
    "[h|[LINK " + Itoa(count) + "]: "
  }

  /** The reference and footnote for a link showing `name` and pointing at `url`. Both
      carry the number `count`, and the footnote repeats the name the reference shows. */
  function Numbered(name: string, url: string, count: nat): (r: Converted)
    ensures r.inlink == "[" + name + RefTail(count)
    ensures StartsWith(r.listlink, FootnoteHead(count) + name + "|URL:")
    ensures StartsWith(r.listlink, FootnoteHead(count))
    ensures EndsWith(r.listlink, GopherSuffix)
  {
    var head := FootnoteHead(count) + name + "|URL:";
    var listlink := head + url + GopherSuffix;
    assert listlink[..|head|] == head;
    assert listlink[..|FootnoteHead(count)|] == FootnoteHead(count);
    assert listlink[|listlink| - |GopherSuffix|..] == GopherSuffix;
    Converted("[" + name + RefTail(count), listlink)
  }

  /** The footnote points at `url`: it can be read back between the name and the host, so
      two footnotes with the same number and name but different addresses differ. */
  lemma NumberedPointsAt(name: string, url: string, count: nat)
    ensures var l, head := Numbered(name, url, count).listlink, FootnoteHead(count) + name + "|URL:";
      && |l| == |head| + |url| + |GopherSuffix|
      && l[|head|..|l| - |GopherSuffix|] == url
  {
    var head := FootnoteHead(count) + name + "|URL:";
    var l := Numbered(name, url, count).listlink;
    assert l == head + url + GopherSuffix;
    assert l[|head|..|l| - |GopherSuffix|] == url;
  }

  /** `convertlink`: the text before the first '|' is the target, the text between the
      first and second '|' the name shown (the target when there is no '|'). */
  function ConvertLink(span: string, count: nat): Converted {
    var c := Classify(span);
    var split := Split(c.text, "|");
    var link := split[0];
    var name := if |split| > 1 then split[1] else link;
    Numbered(name, match c.kind case Wiki => WikiBase + link case Web => link, count)
  }

  // ---------------------------------------------------------------------------------
  // A reference reading of one link

  /** What a link points to: its text up to the first '|'. */
  function Target(x: string): string {
    var f := Find(x, "|");
    if f.None? then x else x[..f.value]
  }

  /** The name a link shows: the text between its first and second '|', or the whole
      text when it has no '|'. */
  function Shown(x: string): string {
    var f := Find(x, "|");
    if f.None? then x
    else
      var rest := x[f.value + 1..];
      var g := Find(rest, "|");
      if g.None? then rest else rest[..g.value]
  }

  /** Where a link with text `x` points: web addresses as they are, everything else as a
      page of the wiki. The whole text decides, name included. */
  function Url(x: string): string {
    if IsWebAddress(x) then Target(x) else WikiBase + Target(x)
  }

  lemma SplitBar(x: string)
    ensures Split(x, "|")[0] == Target(x)
    ensures (if |Split(x, "|")| > 1 then Split(x, "|")[1] else Split(x, "|")[0]) == Shown(x)
  {
    SplitFirstPieces(x, "|");
    match Find(x, "|")
    case None =>
    case Some(i) =>
      assert SplitOnce(x, "|")[1] == x[i + 1..];
  }

  lemma ShownInside(x: string)
    ensures forall c :: c in Shown(x) ==> c in x
  {
    match Find(x, "|")
    case None =>
    case Some(i) =>
      var rest := x[i + 1..];
      forall c | c in rest ensures c in x {
        var k :| 0 <= k < |rest| && rest[k] == c;
        assert x[i + 1 + k] == c;
      }
      match Find(rest, "|")
      case None =>
      case Some(j) =>
        forall c | c in rest[..j] ensures c in rest {
          var k :| 0 <= k < j && rest[..j][k] == c;
          assert rest[k] == c;
        }
  }

  /** Deleting the closing "]]" from a span whose text has no bracket leaves the text. */
  lemma RemoveClose(x: string)
    requires ']' !in x
    ensures ReplaceAll(x + "]]", "]]", "") == x
  {
    HeadAbsent(x, "]]", "");
    assert x + "]]" + "" == x + "]]";
    SplitAt(x, "]]", "");
    assert Split("", "]]") == [""];
    assert Join([x, ""], "") == x;
  }

  /** The span the rewrite loop passes for a link whose text `x` has no brackets: the
      reference shows `Shown(x)`, the footnote points at `Target(x)`, and a leading ':'
      stays part of both. */
  lemma PlainSpan(x: string, count: nat)
    requires '[' !in x && ']' !in x
    ensures ConvertLink(x + "]]", count) == Numbered(Shown(x), Url(x), count)
  {
    RemoveClose(x);
    AbsentFirstChar(x + "]]", "[[:");
    AbsentFirstChar(x, "[[");
    assert Classify(x + "]]") == Classified(if IsWebAddress(x) then Web else Wiki, x);
    SplitBar(x);
  }

  /** Link text without '|' is both the target and the name shown. */
  lemma NoBar(z: string)
    requires '|' !in z
    ensures Shown(z) == z && Target(z) == z
  {
    AbsentFirstChar(z, "|");
  }

  /** A span ":y" keeps its ':' in the reference shown. The strip fires only when the
      span itself holds "[[:" (`ColonSpanIsWiki`); the "[[" that opened the link has
      already been cut off by the loop. */
  lemma LeadingColonKept(y: string, count: nat)
    requires '[' !in y && ']' !in y && '|' !in y
    ensures ConvertLink(":" + y + "]]", count).inlink == "[:" + y + RefTail(count)
  {
    NoBar(":" + y);
    assert "[" + (":" + y) + RefTail(count) == "[:" + y + RefTail(count);
    PlainSpan(":" + y, count);
  }

  lemma ColonClassify(y: string)
    requires '[' !in y && ']' !in y
    ensures Classify("[[:" + y + "]]") == Classified(Wiki, y)
  {
    var span := "[[:" + y + "]]";
    var open := "[[:" + y;
    forall j | 0 <= j < |open|
      ensures !OccursAt(span, "]]", j)
    {
      assert span[j] == open[j];
      assert span[j..j + 2][0] == span[j];
    }
    assert span == open + "]]" + "";
    SplitAt(open, "]]", "");
    assert Split("", "]]") == [""];
    assert Join([open, ""], "") == open;
    assert OccursAt(span, "[[:", 0) by { assert span[0..3] == "[[:"; }
    assert open == "" + "[[:" + y;
    SplitAt("", "[[:", y);
    AbsentFirstChar(y, "[[:");
    assert Join(["", y], "") == y;
  }

  /** A span that itself starts with "[[:" is a wiki link even when it names a web
      address. */
  lemma ColonSpanIsWiki(y: string, count: nat)
    requires '[' !in y && ']' !in y
    ensures ConvertLink("[[:" + y + "]]", count)
      == Numbered(Shown(y), WikiBase + Target(y), count)
  {
    SplitBar(y);
    ColonClassify(y);
  }

  // ---------------------------------------------------------------------------------
  // The rewrite loop

  /** The body after the loop, the footnotes in order, and the next free number. */
  datatype LinkOut = LinkOut(body: string, links: seq<string>, next: nat)

  /** One pass of the loop: no "[[" left, a "[[" with no "]]" after it (where the Go loop
      makes no progress and spins forever), or the first span found: the text before the
      first "[[", the text after it up to and including the first "]]", and the rest. */
  datatype StepResult = Done | Stuck | Found(before: string, span: string, after: string)

  /** The split at the head of the loop, read off the first occurrences directly. */
  function Step(body: string): (r: StepResult)
    ensures r.Done? <==> !Contains(body, "[[")
  {
    var f := Find(body, "[[");
    if f.None? then Done
    else
      var rest := body[f.value + 2..];
      var g := Find(rest, "]]");
      if g.None? then Stuck else Found(body[..f.value], rest[..g.value + 2], rest[g.value + 2..])
  }

  /** `Step` is `strings.SplitN(body, "[[", 2)` followed by `strings.SplitAfterN(sep[1],
      "]]", 2)`: the loop goes on while the second split finds a "]]". */
  lemma StepIsSplitN(body: string)
    ensures !Contains(body, "[[") ==> Step(body) == Done
    ensures Contains(body, "[[") ==>
      var sep := SplitOnce(body, "[[");
      var sep2 := SplitAfterOnce(sep[1], "]]");
      Step(body) == if |sep2| < 2 then Stuck else Found(sep[0], sep2[0], sep2[1])
  {
  }

  /** The loop finds the span `span` when the two splits cut the body there. */
  lemma StepSplits(body: string, before: string, rest: string, span: string, after: string)
    requires SplitOnce(body, "[[") == [before, rest] && SplitAfterOnce(rest, "]]") == [span, after]
    ensures Step(body) == Found(before, span, after)
  {
    StepIsSplitN(body);
  }

  /** Footnotes numbered consecutively from `count`. */
  predicate NumberedFrom(links: seq<string>, count: nat) {
    forall k :: 0 <= k < |links| ==> StartsWith(links[k], FootnoteHead(count + k))
  }

  lemma NumberedCons(first: string, rest: seq<string>, count: nat)
    ensures StartsWith(first, FootnoteHead(count)) && NumberedFrom(rest, count + 1)
      ==> NumberedFrom([first] + rest, count)
  {
    if StartsWith(first, FootnoteHead(count)) && NumberedFrom(rest, count + 1) {
      var links := [first] + rest;
      forall k | 0 <= k < |links|
        ensures StartsWith(links[k], FootnoteHead(count + k))
      {
        if k > 0 {
          assert links[k] == rest[k - 1];
          assert count + k == count + 1 + (k - 1);
        }
      }
    }
  }

  /** A way of turning a span and its number into a reference and a footnote. */
  type Converter = (string, nat) -> Converted

  /** Every footnote the converter writes starts with the head for its number. */
  ghost predicate HeadsFootnotes(convert: Converter) {
    forall span, count :: StartsWith(convert(span, count).listlink, FootnoteHead(count))
  }

  lemma ConvertLinkHeads()
    ensures HeadsFootnotes(ConvertLink)
  {
    forall span, count
      ensures StartsWith(ConvertLink(span, count).listlink, FootnoteHead(count))
    {
    }
  }

  /** The link loop of `formatEntry` with its conversion as a parameter, allowed at most
      `fuel` rewrites; `None` when the fuel runs out or the loop is stuck. When it
      finishes, no "[[" is left and one footnote was listed per rewrite. */
  function RewriteWith(body: string, count: nat, fuel: nat, convert: Converter): (r: Option<LinkOut>)
    ensures !Contains(body, "[[") ==> r == Some(LinkOut(body, [], count))
    ensures r.Some? ==> !Contains(r.value.body, "[[")
    ensures r.Some? ==> r.value.next == count + |r.value.links|
    ensures r.Some? && HeadsFootnotes(convert) ==> NumberedFrom(r.value.links, count)
    decreases fuel, 1
  {
    Resume(body, Step(body), count, fuel, convert)
  }

  /** The loop after the pass that gave `step`: stop, hang, or rewrite the span found and
      go on with the next number. */
  function Resume(body: string, step: StepResult, count: nat, fuel: nat, convert: Converter)
    : (r: Option<LinkOut>)
    requires step.Done? <==> !Contains(body, "[[")
    ensures step.Done? ==> r == Some(LinkOut(body, [], count))
    ensures step.Stuck? ==> r == None
    ensures r.Some? ==> !Contains(r.value.body, "[[")
    ensures r.Some? ==> r.value.next == count + |r.value.links|
    ensures r.Some? && HeadsFootnotes(convert) ==> NumberedFrom(r.value.links, count)
    decreases fuel, 0
  {
    match step
    case Done => Some(LinkOut(body, [], count))
    case Stuck => None
    case Found(before, span, after) =>
      if fuel == 0 then None
      else
        var c := convert(span, count);
        match RewriteWith(before + c.inlink + after, count + 1, fuel - 1, convert)
        case None => None
        case Some(o) =>
          NumberedCons(c.listlink, o.links, count);
          Some(LinkOut(o.body, [c.listlink] + o.links, o.next))
  }

  /** The loop of `formatEntry`: `RewriteWith` using `convertlink`. */
  function RewriteLinks(body: string, count: nat, fuel: nat): (r: Option<LinkOut>)
    ensures !Contains(body, "[[") ==> r == Some(LinkOut(body, [], count))
    ensures r.Some? ==> !Contains(r.value.body, "[[")
    ensures r.Some? ==> r.value.next == count + |r.value.links|
    ensures r.Some? ==> NumberedFrom(r.value.links, count)
  {
    ConvertLinkHeads();
    RewriteWith(body, count, fuel, ConvertLink)
  }

  /** One rewrite, then whatever the loop makes of the rewritten body. */
  lemma ResumeFound(body: string, before: string, span: string, after: string, count: nat,
                    fuel: nat, convert: Converter, c: Converted, n: nat, f: nat,
                    rest: Option<LinkOut>)
    requires Contains(body, "[[") && c == convert(span, count)
    requires n == count + 1 && f == fuel - 1
    requires RewriteWith(before + c.inlink + after, n, f, convert) == rest
    ensures Resume(body, Found(before, span, after), count, fuel, convert)
      == match rest
         case None => None
         case Some(o) => Some(LinkOut(o.body, [c.listlink] + o.links, o.next))
  {
  }

  /** When the first pass finds a span, the loop rewrites it and continues on the
      rewritten body with the next number. */
  lemma RewriteFound(body: string, before: string, span: string, after: string, count: nat,
                     fuel: nat, c: Converted, n: nat, f: nat, rest: Option<LinkOut>)
    requires Step(body) == Found(before, span, after) && c == ConvertLink(span, count)
    requires n == count + 1 && f == fuel - 1
    requires RewriteLinks(before + c.inlink + after, n, f) == rest
    ensures RewriteLinks(body, count, fuel)
      == match rest
         case None => None
         case Some(o) => Some(LinkOut(o.body, [c.listlink] + o.links, o.next))
  {
    assert RewriteWith(body, count, fuel, ConvertLink)
      == Resume(body, Found(before, span, after), count, fuel, ConvertLink);
    ResumeFound(body, before, span, after, count, fuel, ConvertLink, c, n, f, rest);
  }

  /** A "[[" with no "]]" after it stops the loop for good: the Go loop never ends. */
  lemma UnterminatedHangs(before: string, rest: string, count: nat, fuel: nat)
    requires Isolated(before, '[') && !Contains(rest, "]]")
    ensures Step(before + "[[" + rest) == Stuck
    ensures RewriteLinks(before + "[[" + rest, count, fuel) == None
  {
    assert "[[" == ['[', '['];
    IsolatedThenPair(before, '[', rest);
    StepIsSplitN(before + "[[" + rest);
  }

  /** No "]]" appears in link text without brackets followed by a reference tail. */
  lemma NoCloseInTail(y: string, count: nat)
    requires ']' !in y
    ensures !Contains(y + RefTail(count), "]]")
  {
    var digits := Itoa(count);
    var s := y + RefTail(count);
    assert s == y + "][LINK:" + digits + "]";
    forall j | 0 <= j < |s|
      ensures !OccursAt(s, "]]", j)
    {
      if j + 2 <= |s| {
        assert s[j..j + 2][0] == s[j] && s[j..j + 2][1] == s[j + 1];
        if j < |y| {
          assert s[j] == y[j];
        } else if j == |y| {
          assert s[j + 1] == '[';
        } else if j < |y| + 7 {
          assert s[j] == "][LINK:"[j - |y|];
        } else {
          assert s[j] == digits[j - |y| - 7];
        }
      }
    }
  }

  /** `convertlink` on a span whose text is '[' followed by plain text keeps the '['. */
  lemma BracketClassify(y: string)
    requires '[' !in y && ']' !in y
    ensures Classify("[" + y + "]]").text == "[" + y
  {
    var span := "[" + y + "]]";
    var open := "[" + y;
    HeadAbsent(open, "]]", "");
    assert span == open + "]]" + "";
    SplitAt(open, "]]", "");
    assert Split("", "]]") == [""];
    assert Join([open, ""], "") == open;
    IsolatedOpen('[', y + "]]");
    assert span == ['['] + (y + "]]");
    IsolatedNoPair(span, '[');
    NoLongerPattern(span, "[[", ":");
    assert "[[" + ":" == "[[:";
    IsolatedOpen('[', y + "z");
    assert open + "z" == ['['] + (y + "z");
    IsolatedNoPair(open + "z", '[');
    assert !Contains(open, "[[") by {
      forall j | 0 <= j < |open|
        ensures !OccursAt(open, "[[", j)
      {
        assert !OccursAt(open + "z", "[[", j);
        if j + 2 <= |open| {
          assert (open + "z")[j..j + 2] == open[j..j + 2];
        }
      }
    }
  }

  /** The reference for a span whose cleaned text has no '|' shows that text. */
  lemma ConvertNoBar(span: string, count: nat)
    requires '|' !in Classify(span).text
    ensures ConvertLink(span, count).inlink == "[" + Classify(span).text + RefTail(count)
  {
    NoBar(Classify(span).text);
    SplitBar(Classify(span).text);
  }

  lemma BracketSplits(y: string)
    requires ']' !in y
    ensures SplitOnce("[[[" + y + "]]", "[[") == ["", "[" + y + "]]"]
    ensures SplitAfterOnce("[" + y + "]]", "]]") == ["[" + y + "]]", ""]
  {
    var span := "[" + y + "]]";
    assert "[[[" + y + "]]" == "" + ['[', '['] + span;
    IsolatedFree("", '[');
    IsolatedThenPair("", '[', span);
    HeadAbsent("[" + y, "]]", "");
    assert span == ("[" + y) + "]]" + "";
    SplitAfterAt("[" + y, "]]", "");
  }

  /** The first pass over "[[[" + y + "]]" passes the span "[" + y + "]]". */
  lemma BracketStep(y: string)
    requires ']' !in y
    ensures Step("[[[" + y + "]]") == Found("", "[" + y + "]]", "")
  {
    var span := "[" + y + "]]";
    BracketSplits(y);
    StepSplits("[[[" + y + "]]", "", span, span, "");
  }

  /** The reference written for that span starts with "[[" again. */
  lemma BracketReference(y: string, count: nat)
    requires '[' !in y && ']' !in y && '|' !in y
    ensures ConvertLink("[" + y + "]]", count).inlink == "[[" + y + RefTail(count)
  {
    var span := "[" + y + "]]";
    var t := Classify(span).text;
    assert t == "[" + y by { BracketClassify(y); }
    assert ConvertLink(span, count).inlink == "[" + t + RefTail(count) by {
      assert '|' !in t;
      ConvertNoBar(span, count);
    }
    OpenTwice(t, y, RefTail(count));
  }

  lemma OpenTwice(t: string, y: string, tail: string)
    requires t == "[" + y
    ensures "[" + t + tail == "[[" + y + tail
  {
  }

  /** A link whose text starts with '[' makes the loop spin forever: the reference it
      writes starts with "[[" again, and no "]]" follows. `"[[[a]]"` is an instance. */
  lemma BracketedTextHangs(y: string, count: nat, fuel: nat)
    requires '[' !in y && ']' !in y && '|' !in y
    ensures RewriteLinks("[[[" + y + "]]", count, fuel) == None
  {
    var body, span := "[[[" + y + "]]", "[" + y + "]]";
    assert Step(body) == Found("", span, "") by { BracketStep(y); }
    if fuel == 0 {
      assert RewriteWith(body, count, fuel, ConvertLink)
        == Resume(body, Found("", span, ""), count, fuel, ConvertLink);
    } else {
      var c := ConvertLink(span, count);
      var n: nat, f: nat := count + 1, fuel - 1;
      var tail := y + RefTail(count);
      assert "" + c.inlink + "" == "" + "[[" + tail by {
        BracketReference(y, count);
        Unwrapped(c.inlink, y, RefTail(count));
      }
      assert RewriteLinks("" + "[[" + tail, n, f) == None by {
        NoCloseInTail(y, count);
        IsolatedFree("", '[');
        UnterminatedHangs("", tail, n, f);
      }
      RewriteFound(body, "", span, "", count, fuel, c, n, f, None);
    }
  }

  lemma Unwrapped(x: string, y: string, tail: string)
    requires x == "[[" + y + tail
    ensures "" + x + "" == "" + "[[" + (y + tail)
  {
  }

  // ---------------------------------------------------------------------------------
  // Bodies made of plain text and plain links

  /** A piece of an entry body: text, or a link `[[target]]` or `[[target|name]]`. */
  datatype Segment = Chunk(text: string) | Link(target: string, caption: Option<string>)

  /** The text between the markers of a link segment. */
  function Inner(target: string, caption: Option<string>): string {
    match caption
    case None => target
    case Some(name) => target + "|" + name
  }

  /** The name a link segment shows: its caption, or its target when it has none. */
  function Name(target: string, caption: Option<string>): string {
    match caption
    case None => target
    case Some(name) => name
  }

  /** Where a link segment points. A web address anywhere in the link, caption included,
      makes the target a web address; otherwise the target is a wiki page. */
  function Address(target: string, caption: Option<string>): string {
    if IsWebAddress(Inner(target, caption)) then target else WikiBase + target
  }

  /** Text with no bracket and no '|'. */
  predicate Plain(s: string) {
    '[' !in s && ']' !in s && '|' !in s
  }

  /** Text in which every '[' is followed by another character, so that it opens no link
      of its own, and links whose parts are plain: the bodies the loop is meant for. */
  predicate PlainSegment(g: Segment) {
    match g
    case Chunk(t) => Isolated(t, '[')
    case Link(target, caption) => Plain(target) && (caption.Some? ==> Plain(caption.value))
  }

  /** The reference and footnote of a link segment numbered `count`. */
  function Reference(target: string, caption: Option<string>, count: nat): Converted {
    Numbered(Name(target, caption), Address(target, caption), count)
  }

  function Render(segs: seq<Segment>): string
    decreases |segs|
  {
    if |segs| == 0 then ""
    else
      match segs[0]
      case Chunk(t) => t + Render(segs[1..])
      case Link(target, caption) => "[[" + Inner(target, caption) + "]]" + Render(segs[1..])
  }

  function LinkCount(segs: seq<Segment>): nat
    decreases |segs|
  {
    if |segs| == 0 then 0 else (if segs[0].Link? then 1 else 0) + LinkCount(segs[1..])
  }

  /** What rewriting a plain body should give, defined segment by segment: each link
      becomes its reference and adds its footnote, numbered in order from `count`. */
  function Expected(segs: seq<Segment>, count: nat): (r: LinkOut)
    ensures r.next == count + LinkCount(segs)
    decreases |segs|
  {
    if |segs| == 0 then LinkOut("", [], count)
    else
      match segs[0]
      case Chunk(t) =>
        var o := Expected(segs[1..], count);
        LinkOut(t + o.body, o.links, o.next)
      case Link(target, caption) =>
        var c := Reference(target, caption, count);
        var o := Expected(segs[1..], count + 1);
        LinkOut(c.inlink + o.body, [c.listlink] + o.links, o.next)
  }

  /** `convertlink` reads a plain link segment as its target, name and address. */
  lemma SegmentSpan(target: string, caption: Option<string>, count: nat)
    requires PlainSegment(Link(target, caption))
    ensures '[' !in Inner(target, caption) && ']' !in Inner(target, caption)
    ensures ConvertLink(Inner(target, caption) + "]]", count) == Reference(target, caption, count)
  {
    var x := Inner(target, caption);
    match caption {
      case None =>
        NoBar(target);
      case Some(name) =>
        AbsentFirstChar(target, "|");
        AbsentFirstChar(name, "|");
        assert Join([target, name], "|") == x;
        SplitJoin([target, name], "|");
        SplitBar(x);
    }
    PlainSpan(x, count);
  }

  /** The reference for a name without '[' has no doubled '['. */
  lemma ReferenceIsolated(prefix: string, name: string, count: nat)
    requires '[' !in name && Isolated(prefix, '[')
    ensures Isolated(prefix + ("[" + name + RefTail(count)), '[')
  {
    var digits := Itoa(count);
    assert '[' !in name + "]";
    IsolatedOpen('[', name + "]");
    assert forall k :: 0 <= k < |digits| ==> IsDigit(digits[k]);
    assert '[' !in "LINK:" + digits + "]";
    IsolatedOpen('[', "LINK:" + digits + "]");
    IsolatedConcat(['['] + (name + "]"), ['['] + ("LINK:" + digits + "]"), '[');
    assert "[" + name + RefTail(count) == (['['] + (name + "]")) + (['['] + ("LINK:" + digits + "]"));
    IsolatedConcat(prefix, "[" + name + RefTail(count), '[');
  }

  /** The pass of the loop that finds the first "[[" after `before` and the first "]]"
      after that. */
  lemma StepAt(before: string, x: string, rest: string)
    requires Isolated(before, '[') && ']' !in x
    ensures Step(before + ("[[" + x + "]]" + rest)) == Found(before, x + "]]", rest)
  {
    var tail := x + "]]" + rest;
    assert "[[" == ['[', '['];
    assert before + ("[[" + x + "]]" + rest) == before + ['[', '['] + tail;
    IsolatedThenPair(before, '[', tail);
    SplitAt(before, "[[", tail);
    HeadAbsent(x, "]]", rest);
    SplitAfterAt(x, "]]", rest);
    StepSplits(before + ("[[" + x + "]]" + rest), before, tail, x + "]]", rest);
  }

  /** On a plain body, the loop of `formatEntry` gives exactly the segment-by-segment
      reading, as soon as it may rewrite once per link. */
  lemma {:induction false} RewritePlain(prefix: string, segs: seq<Segment>, count: nat, fuel: nat)
    requires Isolated(prefix, '[')
    requires forall k :: 0 <= k < |segs| ==> PlainSegment(segs[k])
    requires LinkCount(segs) <= fuel
    ensures RewriteLinks(prefix + Render(segs), count, fuel)
      == Some(LinkOut(prefix + Expected(segs, count).body, Expected(segs, count).links,
                      Expected(segs, count).next))
    decreases |segs|, 1
  {
    if |segs| == 0 {
      assert "[[" == ['[', '['];
      IsolatedNoPair(prefix, '[');
      assert prefix + Render(segs) == prefix + Expected(segs, count).body == prefix;
    } else if segs[0].Chunk? {
      RewritePlainChunk(prefix, segs, count, fuel);
    } else {
      RewritePlainLink(prefix, segs, count, fuel);
    }
  }

  /** Render, reading and link count of a body that starts with text, one segment in. */
  lemma TextHead(segs: seq<Segment>, count: nat)
    requires |segs| > 0 && segs[0].Chunk?
    ensures Render(segs) == segs[0].text + Render(segs[1..])
    ensures Expected(segs, count).body == segs[0].text + Expected(segs[1..], count).body
    ensures Expected(segs, count).links == Expected(segs[1..], count).links
    ensures Expected(segs, count).next == Expected(segs[1..], count).next
    ensures LinkCount(segs) == LinkCount(segs[1..])
  {
  }

  lemma {:induction false} RewritePlainChunk(prefix: string, segs: seq<Segment>, count: nat, fuel: nat)
    requires Isolated(prefix, '[')
    requires forall k :: 0 <= k < |segs| ==> PlainSegment(segs[k])
    requires LinkCount(segs) <= fuel
    requires |segs| > 0 && segs[0].Chunk?
    ensures RewriteLinks(prefix + Render(segs), count, fuel)
      == Some(LinkOut(prefix + Expected(segs, count).body, Expected(segs, count).links,
                      Expected(segs, count).next))
    decreases |segs|, 0
  {
    var t, rest := segs[0].text, segs[1..];
    assert PlainSegment(segs[0]);
    IsolatedConcat(prefix, t, '[');
    TextHead(segs, count);
    ConcatAssoc(prefix, t, Render(rest));
    ConcatAssoc(prefix, t, Expected(rest, count).body);
    assert forall k :: 0 <= k < |rest| ==> rest[k] == segs[k + 1];
    RewritePlain(prefix + t, rest, count, fuel);
  }

  /** Render, reading and link count of a body that starts with a link, one segment in. */
  lemma LinkHead(segs: seq<Segment>, count: nat)
    requires |segs| > 0 && segs[0].Link?
    ensures Render(segs) == "[[" + Inner(segs[0].target, segs[0].caption) + "]]" + Render(segs[1..])
    ensures Expected(segs, count).body
      == Reference(segs[0].target, segs[0].caption, count).inlink + Expected(segs[1..], count + 1).body
    ensures Expected(segs, count).links
      == [Reference(segs[0].target, segs[0].caption, count).listlink] + Expected(segs[1..], count + 1).links
    ensures Expected(segs, count).next == Expected(segs[1..], count + 1).next
    ensures LinkCount(segs) == 1 + LinkCount(segs[1..])
  {
  }

  /** The reading of a body that starts with a link, as one value. */
  lemma LinkReading(segs: seq<Segment>, count: nat)
    requires |segs| > 0 && segs[0].Link?
    ensures var c, o := Reference(segs[0].target, segs[0].caption, count), Expected(segs[1..], count + 1);
      Expected(segs, count) == LinkOut(c.inlink + o.body, [c.listlink] + o.links, o.next)
  {
  }

  /** The same reading behind a prefix, with the reference joined to the prefix. */
  lemma LinkReadingAfter(prefix: string, segs: seq<Segment>, count: nat, n: nat, p2: string)
    requires |segs| > 0 && segs[0].Link? && n == count + 1
    requires p2 == prefix + Reference(segs[0].target, segs[0].caption, count).inlink
    ensures var c, o := Reference(segs[0].target, segs[0].caption, count), Expected(segs[1..], n);
      var e := Expected(segs, count);
      LinkOut(prefix + e.body, e.links, e.next) == LinkOut(p2 + o.body, [c.listlink] + o.links, o.next)
  {
    var c, o := Reference(segs[0].target, segs[0].caption, count), Expected(segs[1..], n);
    LinkReading(segs, count);
    ConcatAssoc(prefix, c.inlink, o.body);
  }

  /** A rewritten prefix, then a plain link, then a rest the loop finishes with `o`. */
  lemma LinkThenRest(before: string, target: string, caption: Option<string>, after: string,
                     count: nat, fuel: nat, n: nat, f: nat, o: LinkOut)
    requires Isolated(before, '[') && PlainSegment(Link(target, caption))
    requires n == count + 1 && f == fuel - 1
    requires RewriteLinks(before + Reference(target, caption, count).inlink + after, n, f) == Some(o)
    ensures RewriteLinks(before + ("[[" + Inner(target, caption) + "]]" + after), count, fuel)
      == Some(LinkOut(o.body, [Reference(target, caption, count).listlink] + o.links, o.next))
  {
    var c := Reference(target, caption, count);
    SegmentSpan(target, caption, count);
    StepAt(before, Inner(target, caption), after);
    RewriteFound(before + ("[[" + Inner(target, caption) + "]]" + after), before,
      Inner(target, caption) + "]]", after, count, fuel, c, n, f, Some(o));
  }

  /** The facts the induction needs at a plain link: the rest of the body is plain and
      short enough, and the reference the loop writes keeps every '[' single. */
  lemma AtLink(prefix: string, segs: seq<Segment>, count: nat, fuel: nat)
    requires Isolated(prefix, '[')
    requires forall k :: 0 <= k < |segs| ==> PlainSegment(segs[k])
    requires LinkCount(segs) <= fuel
    requires |segs| > 0 && segs[0].Link?
    ensures PlainSegment(Link(segs[0].target, segs[0].caption))
    ensures Isolated(prefix + Reference(segs[0].target, segs[0].caption, count).inlink, '[')
    ensures forall k :: 0 <= k < |segs[1..]| ==> PlainSegment(segs[1..][k])
    ensures fuel > 0 && LinkCount(segs[1..]) <= fuel - 1
  {
    var target, caption := segs[0].target, segs[0].caption;
    assert PlainSegment(segs[0]);
    LinkHead(segs, count);
    ReferenceIsolated(prefix, Name(target, caption), count);
    assert forall k :: 0 <= k < |segs[1..]| ==> segs[1..][k] == segs[k + 1];
  }

  /** One link rewritten in front of a rest the loop finishes as the reading says. */
  lemma AfterLink(prefix: string, segs: seq<Segment>, count: nat, fuel: nat, p2: string, n: nat, f: nat)
    requires Isolated(prefix, '[') && n == count + 1 && f == fuel - 1
    requires |segs| > 0 && segs[0].Link? && PlainSegment(Link(segs[0].target, segs[0].caption))
    requires p2 == prefix + Reference(segs[0].target, segs[0].caption, count).inlink
    requires RewriteLinks(p2 + Render(segs[1..]), n, f)
      == Some(LinkOut(p2 + Expected(segs[1..], n).body, Expected(segs[1..], n).links, Expected(segs[1..], n).next))
    ensures RewriteLinks(prefix + Render(segs), count, fuel)
      == Some(LinkOut(prefix + Expected(segs, count).body, Expected(segs, count).links,
                      Expected(segs, count).next))
  {
    var target, caption, rest := segs[0].target, segs[0].caption, segs[1..];
    var c := Reference(target, caption, count);
    var o := Expected(rest, n);
    assert prefix + Render(segs) == prefix + ("[[" + Inner(target, caption) + "]]" + Render(rest)) by {
      LinkHead(segs, count);
    }
    LinkReadingAfter(prefix, segs, count, n, p2);
    var e := Expected(segs, count);
    var done := LinkOut(p2 + o.body, [c.listlink] + o.links, o.next);
    assert LinkOut(prefix + e.body, e.links, e.next) == done;
    LinkThenRest(prefix, target, caption, Render(rest), count, fuel, n, f, LinkOut(p2 + o.body, o.links, o.next));
    assert RewriteLinks(prefix + ("[[" + Inner(target, caption) + "]]" + Render(rest)), count, fuel) == Some(done);
    SameRewrite(prefix + Render(segs), prefix + ("[[" + Inner(target, caption) + "]]" + Render(rest)),
                count, fuel, LinkOut(prefix + e.body, e.links, e.next), done);
  }

  /** Equal bodies rewrite alike. */
  lemma SameRewrite(body: string, same: string, count: nat, fuel: nat, x: LinkOut, y: LinkOut)
    requires body == same && x == y && RewriteLinks(same, count, fuel) == Some(y)
    ensures RewriteLinks(body, count, fuel) == Some(x)
  {
  }

  lemma {:induction false} RewritePlainLink(prefix: string, segs: seq<Segment>, count: nat, fuel: nat)
    requires Isolated(prefix, '[')
    requires forall k :: 0 <= k < |segs| ==> PlainSegment(segs[k])
    requires LinkCount(segs) <= fuel
    requires |segs| > 0 && segs[0].Link?
    ensures RewriteLinks(prefix + Render(segs), count, fuel)
      == Some(LinkOut(prefix + Expected(segs, count).body, Expected(segs, count).links,
                      Expected(segs, count).next))
    decreases |segs|, 0
  {
    AtLink(prefix, segs, count, fuel);
    var p2 := prefix + Reference(segs[0].target, segs[0].caption, count).inlink;
    var n: nat, f: nat := count + 1, fuel - 1;
    RewritePlain(p2, segs[1..], n, f);
    AfterLink(prefix, segs, count, fuel, p2, n, f);
  }

  // ---------------------------------------------------------------------------------
  // The loop as intended

  /** A span the loop finds is cut out of the body: the text before, "[[", the span
      ending in "]]", and the rest. */
  lemma StepFound(body: string)
    requires Step(body).Found?
    ensures body == Step(body).before + "[[" + Step(body).span + Step(body).after
    ensures EndsWith(Step(body).span, "]]")
  {
    var f := Find(body, "[[").value;
    var rest := body[f + 2..];
    var g := Find(rest, "]]").value;
    assert Step(body) == Found(body[..f], rest[..g + 2], rest[g + 2..]);
    CutAt(body, f, rest, g);
  }

  /** The pieces of a body cut around "[[" at `f` and around "]]" at `g` of the rest. */
  lemma CutAt(body: string, f: nat, rest: string, g: nat)
    requires OccursAt(body, "[[", f) && rest == body[f + 2..] && OccursAt(rest, "]]", g)
    ensures body == body[..f] + "[[" + rest[..g + 2] + rest[g + 2..]
    ensures EndsWith(rest[..g + 2], "]]")
  {
    assert body == body[..f] + body[f..f + 2] + rest;
    assert rest == rest[..g + 2] + rest[g + 2..];
    assert rest[..g + 2][g..] == rest[g..g + 2];
  }

  /** The loop as it is evidently meant to work: every "[[...]]" is turned into a
      reference once, and the scan goes on after the span, so the reference written is
      never read again; a "[[" with no "]]" after it is left as it is. It always ends. */
  function ScanLinks(body: string, count: nat): (r: LinkOut)
    ensures r.next == count + |r.links|
    ensures NumberedFrom(r.links, count)
    ensures !Contains(body, "[[") ==> r == LinkOut(body, [], count)
    decreases |body|
  {
    match Step(body)
    case Done => LinkOut(body, [], count)
    case Stuck => LinkOut(body, [], count)
    case Found(before, span, after) =>
      StepFound(body);
      var c := ConvertLink(span, count);
      var o := ScanLinks(after, count + 1);
      ConvertLinkHeads();
      NumberedCons(c.listlink, o.links, count);
      LinkOut(before + c.inlink + o.body, [c.listlink] + o.links, o.next)
  }

  /** On a plain body the scan gives exactly the segment-by-segment reading. */
  lemma {:induction false} ScanPlain(prefix: string, segs: seq<Segment>, count: nat)
    requires Isolated(prefix, '[')
    requires forall k :: 0 <= k < |segs| ==> PlainSegment(segs[k])
    ensures ScanLinks(prefix + Render(segs), count)
      == LinkOut(prefix + Expected(segs, count).body, Expected(segs, count).links, Expected(segs, count).next)
    decreases |segs|
  {
    if |segs| == 0 {
      assert "[[" == ['[', '['];
      IsolatedNoPair(prefix, '[');
      assert prefix + Render(segs) == prefix + Expected(segs, count).body == prefix;
    } else if segs[0].Chunk? {
      var t, rest := segs[0].text, segs[1..];
      assert forall k :: 0 <= k < |rest| ==> rest[k] == segs[k + 1];
      assert PlainSegment(segs[0]);
      IsolatedConcat(prefix, t, '[');
      TextHead(segs, count);
      ConcatAssoc(prefix, t, Render(rest));
      ConcatAssoc(prefix, t, Expected(rest, count).body);
      ScanPlain(prefix + t, rest, count);
    } else {
      var rest := segs[1..];
      assert forall k :: 0 <= k < |rest| ==> rest[k] == segs[k + 1];
      var e := Expected(rest, count + 1);
      ScanPlain("", rest, count + 1);
      EmptyAround(Render(rest));
      EmptyAround(e.body);
      assert ScanLinks(Render(rest), count + 1) == LinkOut(e.body, e.links, e.next) == e;
      ScanLinkThenRest(prefix, segs, count);
    }
  }

  /** A plain link in front of a rest the scan reads as the segments say. */
  lemma ScanLinkThenRest(prefix: string, segs: seq<Segment>, count: nat)
    requires Isolated(prefix, '[') && |segs| > 0 && segs[0].Link? && PlainSegment(segs[0])
    requires ScanLinks(Render(segs[1..]), count + 1) == Expected(segs[1..], count + 1)
    ensures ScanLinks(prefix + Render(segs), count)
      == LinkOut(prefix + Expected(segs, count).body, Expected(segs, count).links, Expected(segs, count).next)
  {
    var target, caption, rest := segs[0].target, segs[0].caption, segs[1..];
    var x := Inner(target, caption);
    LinkHead(segs, count);
    SegmentSpan(target, caption, count);
    StepAt(prefix, x, Render(rest));
    var c := Reference(target, caption, count);
    ConcatAssoc(prefix, c.inlink, Expected(rest, count + 1).body);
  }

  /** Where the Go loop finishes on a plain body, the scan gives what it gives. */
  lemma ScanAgreesOnPlain(segs: seq<Segment>, count: nat, fuel: nat)
    requires forall k :: 0 <= k < |segs| ==> PlainSegment(segs[k])
    requires LinkCount(segs) <= fuel
    ensures RewriteLinks(Render(segs), count, fuel) == Some(ScanLinks(Render(segs), count))
  {
    IsolatedFree("", '[');
    assert "" + Render(segs) == Render(segs);
    assert "" + Expected(segs, count).body == Expected(segs, count).body;
    ScanPlain("", segs, count);
    RewritePlain("", segs, count, fuel);
  }

  /** A "[[" with no "]]" after it, where the Go loop spins, is left in the body. */
  lemma ScanLeavesUnterminated(before: string, rest: string, count: nat)
    requires Isolated(before, '[') && !Contains(rest, "]]")
    ensures ScanLinks(before + "[[" + rest, count) == LinkOut(before + "[[" + rest, [], count)
  {
    UnterminatedHangs(before, rest, count, 0);
  }

  /** Link text that starts with '[', where the Go loop spins, gets one reference and one
      footnote. */
  lemma ScanBracketed(y: string, count: nat)
    requires '[' !in y && ']' !in y && '|' !in y
    ensures var r := ScanLinks("[[[" + y + "]]", count);
      r == LinkOut(ConvertLink("[" + y + "]]", count).inlink, [ConvertLink("[" + y + "]]", count).listlink], count + 1)
  {
    var body, span := "[[[" + y + "]]", "[" + y + "]]";
    BracketStep(y);
    var c := ConvertLink(span, count);
    assert !Contains("", "[[");
    var o := ScanLinks("", count + 1);
    assert o == LinkOut("", [], count + 1);
    assert ScanLinks(body, count) == LinkOut("" + c.inlink + o.body, [c.listlink] + o.links, o.next);
    EmptyAround(c.inlink);
  }

  lemma EmptyAround(s: string)
    ensures "" + s == s && "" + s + "" == s
  {
  }
}

=== FILE: pages.dfy ===
/** The month pages of `generateGopherDir` in gokl.go, and the order `ByBegin` that
    sorts the entries before them. The loop walks the sorted entries once, keeps the
    month key of the page it is filling, and writes that page out whenever an entry
    with another key arrives. Link and picture numbers run on across the entries of
    one page and start again at 1 on the next. */
module Pages {
  import opened Results
  import opened Text
  import opened Dates
  import opened Entries
  import opened Links
  import opened Format

  // ---------------------------------------------------------------------------------
  // ByBegin

  /** `ByBegin.Less`: an entry sorts before another when it begins on an earlier day. */
  predicate Less(a: LogEntry, b: LogEntry) {
    Before(a.begin, b.begin)
  }

  /** `Less` is a strict weak order, as `sort.Sort` needs: never reflexive, transitive,
      and two entries are unordered exactly when they begin on the same day. */
  lemma LessIsStrictWeak(a: LogEntry, b: LogEntry, c: LogEntry)
    ensures !Less(a, a)
    ensures Less(a, b) && Less(b, c) ==> Less(a, c)
    ensures !Less(a, b) && !Less(b, a) <==> a.begin == b.begin
  {
    BeforeIsStrictTotal(a.begin, b.begin, c.begin);
    BeforeIsStrictTotal(b.begin, a.begin, c.begin);
  }

  /** What `sort.Sort(ByBegin(les))` leaves: no entry begins before one ahead of it. */
  predicate SortedByBegin(entries: seq<LogEntry>) {
    forall i, j :: 0 <= i < j < |entries| ==> !Less(entries[j], entries[i])
  }

  /** In a sorted log the day count of the begin dates never goes down. */
  lemma SortedDaysAscend(entries: seq<LogEntry>, i: nat, j: nat)
    requires SortedByBegin(entries) && i < j < |entries|
    requires Valid(entries[i].begin) && Valid(entries[j].begin)
    ensures DayNumber(entries[i].begin) <= DayNumber(entries[j].begin)
  {
    assert !Less(entries[j], entries[i]);
    BeforeIsDayOrder(entries[j].begin, entries[i].begin);
  }

  // ---------------------------------------------------------------------------------
  // The page loop

  /** Go's `outputpage`. */
  datatype Page = Page(
    entries: seq<OutputEntry>,
    medialinks: seq<string>,
    links: seq<string>,
    month: string,
    year: string)

  const EmptyPage := Page([], [], [], "", "")

  /** The variables of the loop: the key of the page being filled, the two counters, the
      page being filled, and the pages written so far. */
  datatype Pager = Pager(month: string, mediacount: nat, linkcount: nat, current: Page,
                         written: seq<Page>)

  const Start := Pager("", 1, 1, EmptyPage, [])

  datatype PageError =
    /** The first entry is in January: Go reads `entries[-1]`, a run-time panic. */
    | NoPreviousEntry
    /** The link loop of the entry at this index does not finish. */
    | LinkLoopHangs(index: nat)

  /** Dates of the entries are real days, as every Go `time.Time` is. */
  predicate AllValid(entries: seq<LogEntry>) {
    forall k :: 0 <= k < |entries| ==> Valid(entries[k].begin) && Valid(entries[k].end)
  }

  /** The year a page written on reaching entry `index` is filed under: the year of that
      entry, or of the entry before it when the new key is January's. */
  function PageYear(entries: seq<LogEntry>, keys: seq<string>, index: nat): (r: Result<string, PageError>)
    requires index < |entries| == |keys|
    ensures r.Err? <==> index == 0 && keys[0] == "01-January"
    ensures r.Err? ==> r.error == NoPreviousEntry
    ensures r.Ok? ==> r.value == YearLabel(entries[if keys[index] == "01-January" then index - 1 else index].begin)
  {
    if keys[index] == "01-January" then
      if index == 0 then Err(NoPreviousEntry) else Ok(YearLabel(entries[index - 1].begin))
    else Ok(YearLabel(entries[index].begin))
  }

  /** The page being filled is written out under the old key and the year, and the loop
      starts an empty page for the new key with both counters back at 1. */
  function Flush(entries: seq<LogEntry>, keys: seq<string>, index: nat, st: Pager): (r: Result<Pager, PageError>)
    requires index < |entries| == |keys|
    ensures r.Err? <==> PageYear(entries, keys, index).Err?
    ensures r.Ok? ==> r.value.written == st.written + [st.current.(month := st.month,
                                                       year := PageYear(entries, keys, index).value)]
    ensures r.Ok? ==> r.value.current == EmptyPage && r.value.linkcount == 1 && r.value.mediacount == 1
    ensures r.Ok? ==> r.value.month == keys[index]
  {
    var year := PageYear(entries, keys, index);
    if year.Err? then Err(year.error)
    else
      var page := st.current.(month := st.month, year := year.value);
      Ok(Pager(keys[index], 1, 1, EmptyPage, st.written + [page]))
  }

  /** The page with a formatted entry added: its shown entry, its footnotes and its picture
      items go after those already there. */
  function Extend(p: Page, f: Formatted): Page {
    p.(entries := p.entries + [f.entry], links := p.links + f.links, medialinks := p.medialinks + f.media)
  }

  /** The formatted entry goes onto the current page, and the counters take the values
      `formatEntry` hands back. */
  function AddEntry(st: Pager, f: Formatted): Pager {
    st.(linkcount := f.linkcount, mediacount := f.mediacount, current := Extend(st.current, f))
  }

  /** What the loop uses of `formatEntry`: the entry and the two counters in, the shown
      entry, its footnotes, its picture items and the next free numbers out, or `None`
      where the link loop does not finish. */
  type Formatter = (LogEntry, nat, nat) -> Option<Formatted>

  /** `formatEntry` with the image URL and the fuel of its link loop fixed. Every Go
      `time.Time` is a real day, so the `None` for other dates is never reached from
      `GopherDir`, which asks for real days. */
  function EntryFormatter(imageurl: string, fuel: nat): Formatter {
    (e: LogEntry, linkcount: nat, mediacount: nat) =>
      if Valid(e.begin) && Valid(e.end) then FormatEntry(e, imageurl, linkcount, mediacount, fuel) else None
  }

  /** One pass of the loop over the entry at `index`, whose month key is `keys[index]`:
      write the page out on a new key, then format the entry onto the page. */
  function Advance(entries: seq<LogEntry>, keys: seq<string>, index: nat, st: Pager, format: Formatter)
    : Result<Pager, PageError>
    requires index < |entries| == |keys|
  {
    var e := entries[index];
    var flushed := if st.month != keys[index] then Flush(entries, keys, index, st) else Ok(st);
    if flushed.Err? then Err(flushed.error)
    else
      var f := format(e, flushed.value.linkcount, flushed.value.mediacount);
      if f.None? then Err(LinkLoopHangs(index)) else Ok(AddEntry(flushed.value, f.value))
  }

  /** `for index, e := range entries`, from `index` on, stopping at the first pass that
      fails. */
  function Walk(entries: seq<LogEntry>, keys: seq<string>, format: Formatter, index: nat, st: Pager)
    : Result<Pager, PageError>
    requires index <= |entries| == |keys|
    decreases |entries| - index
  {
    if index == |entries| then Ok(st)
    else
      var next := Advance(entries, keys, index, st, format);
      if next.Err? then Err(next.error) else Walk(entries, keys, format, index + 1, next.value)
  }

  /** The loop of `generateGopherDir` without the file system: the pages it writes, in
      order, where `keys` holds the month key of every entry (see `Keys`). The page being
      filled when the entries run out is not among them. */
  function Paginate(entries: seq<LogEntry>, keys: seq<string>, format: Formatter)
    : Result<seq<Page>, PageError>
    requires |keys| == |entries|
  {
    var w := Walk(entries, keys, format, 0, Start);
    if w.Err? then Err(w.error) else Ok(w.value.written)
  }

  /** `generateGopherDir`: the month pages of the sorted entries, each entry keyed by
      `Format("01-January")` of its begin date and formatted by `formatEntry`. */
  function GopherDir(entries: seq<LogEntry>, imageurl: string, fuel: nat): Result<seq<Page>, PageError>
    requires AllValid(entries)
  {
    Paginate(entries, Keys(entries), EntryFormatter(imageurl, fuel))
  }

  // ---------------------------------------------------------------------------------
  // Where pages begin

  /** The month key of every entry, in order. */
  function Keys(entries: seq<LogEntry>): (keys: seq<string>)
    ensures |keys| == |entries|
    ensures Keyed(entries, keys)
  {
    seq(|entries|, i requires 0 <= i < |entries| => MonthKey(entries[i].begin))
  }

  /** Two entries share a month key exactly when they begin in the same month, whatever
      the years, and the key is January's exactly for the entries that begin in January. */
  lemma KeysMatchMonths(entries: seq<LogEntry>, i: nat, j: nat)
    requires AllValid(entries) && i < |entries| && j < |entries|
    ensures Keys(entries)[i] == Keys(entries)[j] <==> entries[i].begin.month == entries[j].begin.month
    ensures Keys(entries)[i] == "01-January" <==> entries[i].begin.month == 1
  {
    var keys := Keys(entries);
    assert keys[i] == MonthKey(entries[i].begin) && keys[j] == MonthKey(entries[j].begin);
    MonthKeyMatchesMonth(entries[i].begin, entries[j].begin);
    JanuaryKey(entries[i].begin);
  }

  /** `keys` holds the month key of every entry. The facts are drawn only where a key of
      an entry is computed, which keeps the keys apart from how they are spelled. */
  predicate Keyed(entries: seq<LogEntry>, keys: seq<string>) {
    && |keys| == |entries|
    && forall i {:trigger MonthKey(entries[i].begin)} :: 0 <= i < |entries| ==> keys[i] == MonthKey(entries[i].begin)
  }

  /** Entry `i` opens a page: it is the first entry, or its month key differs from the
      key of the entry before it. */
  predicate IsStart(keys: seq<string>, i: nat)
    requires i < |keys|
  {
    i == 0 || keys[i] != keys[i - 1]
  }

  /** Which entries open a page. */
  function Opens(keys: seq<string>): (o: seq<bool>)
    ensures |o| == |keys|
    ensures forall i :: 0 <= i < |keys| ==> o[i] == IsStart(keys, i)
  {
    seq(|keys|, i requires 0 <= i < |keys| => IsStart(keys, i))
  }

  /** The indices below `n` whose flag is set, in ascending order. */
  function Starts(opens: seq<bool>, n: nat): (s: seq<nat>)
    requires n <= |opens|
    ensures |s| <= n
    decreases n
  {
    if n == 0 then []
    else Starts(opens, n - 1) + (if opens[n - 1] then [n - 1] else [])
  }

  /** The indices ascend, and all lie below `n`. */
  lemma {:induction false} StartsAscend(opens: seq<bool>, n: nat)
    requires n <= |opens|
    ensures forall k :: 0 <= k < |Starts(opens, n)| ==> Starts(opens, n)[k] < n
    ensures forall k, l :: 0 <= k < l < |Starts(opens, n)| ==> Starts(opens, n)[k] < Starts(opens, n)[l]
    decreases n
  {
    if n > 0 {
      StartsAscend(opens, n - 1);
    }
  }

  /** With the first flag set, the list is empty only below 1, and it begins with 0. */
  lemma {:induction false} StartsFirst(opens: seq<bool>, n: nat)
    requires n <= |opens| && (n > 0 ==> opens[0])
    ensures |Starts(opens, n)| == 0 <==> n == 0
    ensures n > 0 ==> Starts(opens, n)[0] == 0
    decreases n
  {
    if n > 1 {
      StartsFirst(opens, n - 1);
    }
  }

  /** `Starts` lists exactly the flagged indices. */
  lemma {:induction false} StartsExactly(opens: seq<bool>, n: nat, i: nat)
    requires i < n <= |opens|
    ensures i in Starts(opens, n) <==> opens[i]
    decreases n
  {
    StartsAscend(opens, n - 1);
    if i < n - 1 {
      StartsExactly(opens, n - 1, i);
    }
  }

  /** Where the page being filled began: the last opening below `n`, or 0. */
  function LastStart(keys: seq<string>, n: nat): (r: nat)
    requires n <= |keys|
    ensures r <= n && (n > 0 ==> r < n)
    decreases n
  {
    if n == 0 then 0 else if IsStart(keys, n - 1) then n - 1 else LastStart(keys, n - 1)
  }

  /** The entries that open a page, in order. */
  function Openings(keys: seq<string>): seq<nat> {
    Starts(Opens(keys), |keys|)
  }

  /** The opening before the `j`-th, or 0 for the first. */
  function Prev(s: seq<nat>, j: nat): nat
    requires j < |s|
  {
    if j == 0 then 0 else s[j - 1]
  }

  // ---------------------------------------------------------------------------------
  // What a page holds

  /** A page being filled and the two counters. */
  datatype Sheet = Sheet(page: Page, linkcount: nat, mediacount: nat)

  /** The page filled with the entries from `lo` up to `hi`: each is formatted with the
      counters the one before it handed back, starting from 1, and added to the page in
      order. `None` when the link loop of one of them does not finish. */
  function Fill(entries: seq<LogEntry>, format: Formatter, lo: nat, hi: nat): Option<Sheet>
    requires lo <= hi <= |entries|
    decreases hi
  {
    if hi == lo then Some(Sheet(EmptyPage, 1, 1))
    else
      var before := Fill(entries, format, lo, hi - 1);
      if before.None? then None
      else
        var f := format(entries[hi - 1], before.value.linkcount, before.value.mediacount);
        if f.None? then None
        else Some(Sheet(Extend(before.value.page, f.value), f.value.linkcount, f.value.mediacount))
  }

  function SheetOf(st: Pager): Sheet {
    Sheet(st.current, st.linkcount, st.mediacount)
  }

  // ---------------------------------------------------------------------------------
  // Numbering on a page

  /** The picture labels of a run of entries, in order. */
  function Labels(outs: seq<OutputEntry>): seq<string>
    decreases |outs|
  {
    if |outs| == 0 then [] else Labels(outs[..|outs| - 1]) + outs[|outs| - 1].media
  }

  predicate LabelsFrom(labels: seq<string>, count: nat) {
    forall k :: 0 <= k < |labels| ==> labels[k] == MediaLabel(count + k)
  }

  predicate PicturesFrom(items: seq<string>, count: nat) {
    forall k :: 0 <= k < |items| ==> StartsWith(items[k], "[h|" + MediaLabel(count + k) + "|URL:")
  }

  /** A formatted entry numbers its footnotes on from `linkcount` and its pictures on
      from `mediacount`, and hands back the next free numbers. */
  predicate NumbersOn(linkcount: nat, mediacount: nat, f: Formatted) {
    && NumberedFrom(f.links, linkcount) && f.linkcount == linkcount + |f.links|
    && LabelsFrom(f.entry.media, mediacount) && PicturesFrom(f.media, mediacount)
    && |f.entry.media| == |f.media| && f.mediacount == mediacount + |f.media|
  }

  /** Every entry the formatter finishes is numbered on from the counters it is given. */
  ghost predicate Numbering(format: Formatter) {
    forall e: LogEntry, linkcount: nat, mediacount: nat :: format(e, linkcount, mediacount).Some? ==>
      NumbersOn(linkcount, mediacount, format(e, linkcount, mediacount).value)
  }

  /** A page numbers its footnotes 1, 2, 3, ..., and its pictures likewise, with one
      picture item for each label its entries show. */
  predicate PageNumbered(p: Page) {
    && NumberedFrom(p.links, 1)
    && PicturesFrom(p.medialinks, 1)
    && LabelsFrom(Labels(p.entries), 1)
    && |Labels(p.entries)| == |p.medialinks|
  }

  /** The counters are one past the footnotes and pictures of the page. */
  predicate Counted(sh: Sheet) {
    && PageNumbered(sh.page)
    && sh.linkcount == 1 + |sh.page.links|
    && sh.mediacount == 1 + |sh.page.medialinks|
  }

  /** The page written on reaching the opening `start`, when the opening before it was
      `prev`: the entries in between filled in, under the key of the entry before
      `start` and the year `PageYear` gives. */
  predicate PageOk(entries: seq<LogEntry>, keys: seq<string>, format: Formatter, start: nat, prev: nat,
                   p: Page) {
    && prev <= start < |entries| == |keys|
    && Fill(entries, format, prev, start).Some?
    && PageYear(entries, keys, start).Ok?
    && p == Fill(entries, format, prev, start).value.page.(month := if start == 0 then "" else keys[start - 1],
                                                           year := PageYear(entries, keys, start).value)
  }

  /** The `j`-th written page is the one for the `j`-th opening. */
  predicate PageAt(entries: seq<LogEntry>, keys: seq<string>, format: Formatter, s: seq<nat>, ws: seq<Page>,
                   j: nat) {
    j < |s| && j < |ws| && PageOk(entries, keys, format, s[j], Prev(s, j), ws[j])
  }

  /** One page is written for each opening in `s`, in order. */
  predicate WrittenOk(entries: seq<LogEntry>, keys: seq<string>, format: Formatter, s: seq<nat>, ws: seq<Page>) {
    && |ws| == |s|
    && forall j: nat :: j < |s| ==> PageAt(entries, keys, format, s, ws, j)
  }

  /** The state of the loop before entry `index`: the key of the entry before, the page
      filled since the last opening, and the pages of the openings so far. */
  predicate Inv(entries: seq<LogEntry>, keys: seq<string>, format: Formatter, index: nat, st: Pager)
    requires index <= |entries| == |keys|
  {
    && st.month == (if index == 0 then "" else keys[index - 1])
    && Fill(entries, format, LastStart(keys, index), index) == Some(SheetOf(st))
    && WrittenOk(entries, keys, format, Starts(Opens(keys), index), st.written)
  }

  /** The state of the loop at entry `index` once the page for its key is open. */
  predicate Mid(entries: seq<LogEntry>, keys: seq<string>, format: Formatter, index: nat, st: Pager)
    requires index < |entries| == |keys|
  {
    && st.month == keys[index]
    && Fill(entries, format, LastStart(keys, index + 1), index) == Some(SheetOf(st))
    && WrittenOk(entries, keys, format, Starts(Opens(keys), index + 1), st.written)
  }

  // ---------------------------------------------------------------------------------
  // The invariant of the loop

  lemma StartsSnoc(opens: seq<bool>, n: nat)
    requires n < |opens|
    ensures Starts(opens, n + 1) == Starts(opens, n) + (if opens[n] then [n] else [])
  {
  }

  /** A month key is never the empty key the loop starts with. */
  lemma MonthKeyNotEmpty(d: Date)
    ensures MonthKey(d) != ""
  {
    assert |MonthKey(d)| >= 1;
  }

  lemma WrittenSnoc(entries: seq<LogEntry>, keys: seq<string>, format: Formatter, s: seq<nat>, ws: seq<Page>,
                    start: nat, p: Page)
    requires WrittenOk(entries, keys, format, s, ws)
    requires PageOk(entries, keys, format, start, if |s| == 0 then 0 else s[|s| - 1], p)
    ensures WrittenOk(entries, keys, format, s + [start], ws + [p])
  {
    var s2, ws2 := s + [start], ws + [p];
    forall j: nat | j < |s2|
      ensures PageAt(entries, keys, format, s2, ws2, j)
    {
      if j < |s| {
        assert PageAt(entries, keys, format, s, ws, j);
        assert s2[j] == s[j] && ws2[j] == ws[j] && Prev(s2, j) == Prev(s, j);
      } else {
        assert s2[j] == start && ws2[j] == p && Prev(s2, j) == (if |s| == 0 then 0 else s[|s| - 1]);
      }
    }
  }

  /** The page written for the `j`-th opening. */
  lemma WrittenAt(entries: seq<LogEntry>, keys: seq<string>, format: Formatter, s: seq<nat>, ws: seq<Page>,
                  j: nat)
    requires WrittenOk(entries, keys, format, s, ws) && j < |s|
    ensures PageOk(entries, keys, format, s[j], Prev(s, j), ws[j])
  {
    assert PageAt(entries, keys, format, s, ws, j);
  }

  /** An entry with the key of the page being filled goes onto that page. */
  lemma KeepMid(entries: seq<LogEntry>, keys: seq<string>, format: Formatter, index: nat, st: Pager)
    requires 0 < index < |entries| == |keys| && Inv(entries, keys, format, index, st)
    requires st.month == keys[index]
    ensures Mid(entries, keys, format, index, st)
  {
    var opens := Opens(keys);
    assert !opens[index];
    StartsSnoc(opens, index);
    assert Starts(opens, index + 1) == Starts(opens, index);
  }

  /** The page being filled began at the last opening `Starts` lists, or at 0. */
  lemma LastOpening(keys: seq<string>, n: nat)
    requires n <= |keys|
    ensures var s := Starts(Opens(keys), n); LastStart(keys, n) == if |s| == 0 then 0 else s[|s| - 1]
  {
    if n > 0 {
      LastStartIsLast(keys, n);
    }
  }

  /** The page written out on a new key is the one for that opening. */
  lemma FlushedPage(entries: seq<LogEntry>, keys: seq<string>, format: Formatter, index: nat, st: Pager)
    requires index < |entries| == |keys| && Inv(entries, keys, format, index, st)
    requires PageYear(entries, keys, index).Ok?
    ensures PageOk(entries, keys, format, index, LastStart(keys, index),
                   st.current.(month := st.month, year := PageYear(entries, keys, index).value))
  {
  }

  /** An entry with a new key has the page being filled written out first. */
  lemma FlushMid(entries: seq<LogEntry>, keys: seq<string>, format: Formatter, index: nat, st: Pager)
    requires index < |entries| == |keys| && Inv(entries, keys, format, index, st)
    requires st.month != keys[index]
    requires Flush(entries, keys, index, st).Ok?
    ensures Mid(entries, keys, format, index, Flush(entries, keys, index, st).value)
  {
    var opens := Opens(keys);
    assert opens[index];
    StartsSnoc(opens, index);
    LastOpening(keys, index);
    FlushedPage(entries, keys, format, index, st);
    WrittenSnoc(entries, keys, format, Starts(opens, index), st.written, index,
                st.current.(month := st.month, year := PageYear(entries, keys, index).value));
  }

  /** Formatting the entry onto the open page restores the invariant one entry on. */
  lemma AddInv(entries: seq<LogEntry>, keys: seq<string>, format: Formatter, index: nat, st: Pager)
    requires index < |entries| == |keys| && Mid(entries, keys, format, index, st)
    requires format(entries[index], st.linkcount, st.mediacount).Some?
    ensures Inv(entries, keys, format, index + 1,
                AddEntry(st, format(entries[index], st.linkcount, st.mediacount).value))
  {
  }

  /** One pass of the loop keeps the invariant. */
  lemma AdvanceInv(entries: seq<LogEntry>, keys: seq<string>, format: Formatter, index: nat, st: Pager)
    requires index < |entries| && Keyed(entries, keys) && Inv(entries, keys, format, index, st)
    requires Advance(entries, keys, index, st, format).Ok?
    ensures Inv(entries, keys, format, index + 1, Advance(entries, keys, index, st, format).value)
  {
    MonthKeyNotEmpty(entries[index].begin);
    if st.month != keys[index] {
      FlushMid(entries, keys, format, index, st);
      AddInv(entries, keys, format, index, Flush(entries, keys, index, st).value);
    } else {
      KeepMid(entries, keys, format, index, st);
      AddInv(entries, keys, format, index, st);
    }
  }

  /** The loop keeps the invariant to the end. */
  lemma {:induction false} WalkInv(entries: seq<LogEntry>, keys: seq<string>, format: Formatter, index: nat,
                                   st: Pager)
    requires Keyed(entries, keys) && index <= |entries| && Inv(entries, keys, format, index, st)
    requires Walk(entries, keys, format, index, st).Ok?
    ensures Inv(entries, keys, format, |entries|, Walk(entries, keys, format, index, st).value)
    decreases |entries| - index
  {
    if index < |entries| {
      AdvanceInv(entries, keys, format, index, st);
      WalkInv(entries, keys, format, index + 1, Advance(entries, keys, index, st, format).value);
    }
  }

  lemma StartInv(entries: seq<LogEntry>, keys: seq<string>, format: Formatter)
    requires |keys| == |entries|
    ensures Inv(entries, keys, format, 0, Start)
  {
  }

  /** The pages written are one for each opening entry, the `j`-th holding the entries
      since the opening before, under the key of the entry before its opening and the
      year `PageYear` gives. */
  lemma PaginateShape(entries: seq<LogEntry>, keys: seq<string>, format: Formatter)
    requires Keyed(entries, keys) && Paginate(entries, keys, format).Ok?
    ensures WrittenOk(entries, keys, format, Openings(keys), Paginate(entries, keys, format).value)
  {
    StartInv(entries, keys, format);
    WalkInv(entries, keys, format, 0, Start);
  }

  lemma LabelsSnoc(outs: seq<OutputEntry>, o: OutputEntry)
    ensures Labels(outs + [o]) == Labels(outs) + o.media
  {
    assert (outs + [o])[..|outs|] == outs;
  }

  lemma NumberedAppend(a: seq<string>, b: seq<string>, count: nat)
    requires NumberedFrom(a, count) && NumberedFrom(b, count + |a|)
    ensures NumberedFrom(a + b, count)
  {
    forall k | 0 <= k < |a + b|
      ensures StartsWith((a + b)[k], FootnoteHead(count + k))
    {
      if k >= |a| {
        assert (a + b)[k] == b[k - |a|];
        assert count + k == count + |a| + (k - |a|);
      }
    }
  }

  lemma LabelsAppend(a: seq<string>, b: seq<string>, count: nat)
    requires LabelsFrom(a, count) && LabelsFrom(b, count + |a|)
    ensures LabelsFrom(a + b, count)
  {
    forall k | 0 <= k < |a + b|
      ensures (a + b)[k] == MediaLabel(count + k)
    {
      if k >= |a| {
        assert (a + b)[k] == b[k - |a|];
        assert count + k == count + |a| + (k - |a|);
      }
    }
  }

  lemma PicturesAppend(a: seq<string>, b: seq<string>, count: nat)
    requires PicturesFrom(a, count) && PicturesFrom(b, count + |a|)
    ensures PicturesFrom(a + b, count)
  {
    forall k | 0 <= k < |a + b|
      ensures StartsWith((a + b)[k], "[h|" + MediaLabel(count + k) + "|URL:")
    {
      if k >= |a| {
        assert (a + b)[k] == b[k - |a|];
        assert count + k == count + |a| + (k - |a|);
      }
    }
  }

  /** A picture item starts with the label it links. */
  lemma MediaItemHead(picture: string, imageurl: string, file: string)
    ensures StartsWith(MediaItem(picture, imageurl, file), "[h|" + picture + "|URL:")
  {
    var head := "[h|" + picture + "|URL:";
    assert MediaItem(picture, imageurl, file) == head + (imageurl + file + GopherSuffix);
  }

  /** The pictures of one formatted entry, numbered on from `count`. */
  lemma EntryPictures(f: Formatted, names: seq<string>, imageurl: string, count: nat)
    requires |f.entry.media| == |names| && |f.media| == |names|
    requires forall k :: 0 <= k < |names| ==>
      && f.entry.media[k] == MediaLabel(count + k)
      && f.media[k] == MediaItem(MediaLabel(count + k), imageurl, names[k])
    ensures LabelsFrom(f.entry.media, count) && PicturesFrom(f.media, count)
  {
    forall k | 0 <= k < |names|
      ensures StartsWith(f.media[k], "[h|" + MediaLabel(count + k) + "|URL:")
    {
      MediaItemHead(MediaLabel(count + k), imageurl, names[k]);
    }
  }


  /** `formatEntry` numbers on from the counters it is given. */
  lemma FormatNumbers(e: LogEntry, imageurl: string, linkcount: nat, mediacount: nat, fuel: nat)
    requires Valid(e.begin) && Valid(e.end)
    requires FormatEntry(e, imageurl, linkcount, mediacount, fuel).Some?
    ensures NumbersOn(linkcount, mediacount, FormatEntry(e, imageurl, linkcount, mediacount, fuel).value)
  {
    EntryPictures(FormatEntry(e, imageurl, linkcount, mediacount, fuel).value, e.media, imageurl, mediacount);
  }

  lemma EntryFormatterNumbers(imageurl: string, fuel: nat)
    ensures Numbering(EntryFormatter(imageurl, fuel))
  {
    var format := EntryFormatter(imageurl, fuel);
    forall e: LogEntry, linkcount: nat, mediacount: nat | format(e, linkcount, mediacount).Some?
      ensures NumbersOn(linkcount, mediacount, format(e, linkcount, mediacount).value)
    {
      FormatNumbers(e, imageurl, linkcount, mediacount, fuel);
    }
  }

  /** Adding an entry numbered on from the counters keeps the page numbered. */
  lemma ExtendCounted(sh: Sheet, f: Formatted)
    requires Counted(sh) && NumbersOn(sh.linkcount, sh.mediacount, f)
    ensures Counted(Sheet(Extend(sh.page, f), f.linkcount, f.mediacount))
  {
    var p := sh.page;
    NumberedAppend(p.links, f.links, 1);
    PicturesAppend(p.medialinks, f.media, 1);
    LabelsSnoc(p.entries, f.entry);
    LabelsAppend(Labels(p.entries), f.entry.media, 1);
  }

  // ---------------------------------------------------------------------------------
  // What a filled page holds

  /** A filled page holds one shown entry per entry, and the counters stand one past its
      footnotes and pictures, which are numbered from 1 in order. */
  lemma {:induction false} FillCounted(entries: seq<LogEntry>, format: Formatter, lo: nat, hi: nat)
    requires lo <= hi <= |entries| && Numbering(format) && Fill(entries, format, lo, hi).Some?
    ensures Counted(Fill(entries, format, lo, hi).value)
    decreases hi
  {
    if hi > lo {
      FillCounted(entries, format, lo, hi - 1);
      var before := Fill(entries, format, lo, hi - 1).value;
      ExtendCounted(before, format(entries[hi - 1], before.linkcount, before.mediacount).value);
    }
  }

  /** Filling a page up to `hi` fills it up to every `mid` on the way: the entries, the
      footnotes and the pictures of the shorter run come first, in the same order. The
      page has one shown entry per entry, and no month or year yet. */
  lemma {:induction false} FillPrefix(entries: seq<LogEntry>, format: Formatter, lo: nat, mid: nat, hi: nat)
    requires lo <= mid <= hi <= |entries| && Fill(entries, format, lo, hi).Some?
    ensures Fill(entries, format, lo, mid).Some?
    ensures var a, b := Fill(entries, format, lo, mid).value.page, Fill(entries, format, lo, hi).value.page;
      && a.entries <= b.entries && a.links <= b.links && a.medialinks <= b.medialinks
      && |b.entries| == hi - lo && b.month == "" && b.year == ""
    decreases hi
  {
    if hi > lo {
      FillPrefix(entries, format, lo, if mid == hi then mid - 1 else mid, hi - 1);
    }
  }

  /** The `k`-th entry of a filled page is entry `lo + k`, formatted with the counters the
      entries before it on the page handed back; its footnotes and pictures follow
      theirs on the page. */
  lemma FillEntryAt(entries: seq<LogEntry>, format: Formatter, lo: nat, k: nat, hi: nat)
    requires lo <= k < hi <= |entries| && Fill(entries, format, lo, hi).Some?
    ensures |Fill(entries, format, lo, hi).value.page.entries| == hi - lo
    ensures Fill(entries, format, lo, k).Some?
    ensures var before := Fill(entries, format, lo, k).value;
      var f := format(entries[k], before.linkcount, before.mediacount);
      var p := Fill(entries, format, lo, hi).value.page;
      && f.Some?
      && p.entries[k - lo] == f.value.entry
      && before.page.links + f.value.links <= p.links
      && before.page.medialinks + f.value.media <= p.medialinks
  {
    FillPrefix(entries, format, lo, k + 1, hi);
    FillPrefix(entries, format, lo, k, k + 1);
  }


  // ---------------------------------------------------------------------------------
  // What the loop writes

  /** Page `j` holds the entries from the opening before up to its own. */
  lemma PageSize(entries: seq<LogEntry>, keys: seq<string>, format: Formatter, j: nat)
    requires Keyed(entries, keys)
    requires Paginate(entries, keys, format).Ok? && j < |Paginate(entries, keys, format).value|
    ensures |Paginate(entries, keys, format).value| == |Openings(keys)|
    ensures Prev(Openings(keys), j) <= Openings(keys)[j] < |entries|
    ensures |Paginate(entries, keys, format).value[j].entries| == Openings(keys)[j] - Prev(Openings(keys), j)
  {
    PaginateShape(entries, keys, format);
    WrittenAt(entries, keys, format, Openings(keys), Paginate(entries, keys, format).value, j);
    FillPrefix(entries, format, Prev(Openings(keys), j), Openings(keys)[j], Openings(keys)[j]);
  }

  /** The pages the loop writes: one for each entry whose month key differs from the key
      of the entry before it, and one for the first entry. Page `j` holds the entries from
      the opening before up to its own opening, formatted with counters starting at 1, and
      is filed under the key of the entry before its opening. Its year is that of the
      opening entry, or of the entry before when the opening entry's key is January's. */
  lemma PageContents(entries: seq<LogEntry>, keys: seq<string>, format: Formatter, j: nat)
    requires Keyed(entries, keys)
    requires Paginate(entries, keys, format).Ok? && j < |Paginate(entries, keys, format).value|
    ensures |Paginate(entries, keys, format).value| == |Openings(keys)|
    ensures var s, p := Openings(keys), Paginate(entries, keys, format).value[j];
      && Prev(s, j) <= s[j] < |entries|
      && (s[j] == 0 || keys[s[j]] != keys[s[j] - 1])
      && Fill(entries, format, Prev(s, j), s[j]).Some?
      && var sh := Fill(entries, format, Prev(s, j), s[j]).value;
      && |p.entries| == s[j] - Prev(s, j)
      && p.entries == sh.page.entries && p.links == sh.page.links && p.medialinks == sh.page.medialinks
      && p.month == (if s[j] == 0 then "" else keys[s[j] - 1])
      && (keys[s[j]] == "01-January" ==> s[j] > 0 && p.year == YearLabel(entries[s[j] - 1].begin))
      && (keys[s[j]] != "01-January" ==> p.year == YearLabel(entries[s[j]].begin))
  {
    var s := Openings(keys);
    PaginateShape(entries, keys, format);
    WrittenAt(entries, keys, format, s, Paginate(entries, keys, format).value, j);
    StartsExactly(Opens(keys), |keys|, s[j]);
    FillPrefix(entries, format, Prev(s, j), s[j], s[j]);
  }

  /** Every page the loop writes numbers its footnotes and its pictures from 1. */
  lemma PagesNumbered(entries: seq<LogEntry>, keys: seq<string>, format: Formatter, j: nat)
    requires Keyed(entries, keys) && Numbering(format)
    requires Paginate(entries, keys, format).Ok? && j < |Paginate(entries, keys, format).value|
    ensures PageNumbered(Paginate(entries, keys, format).value[j])
  {
    PageContents(entries, keys, format, j);
    FillCounted(entries, format, Prev(Openings(keys), j), Openings(keys)[j]);
  }

  /** `generateGopherDir` numbers the footnotes and pictures of every page from 1. */
  lemma GopherDirNumbered(entries: seq<LogEntry>, imageurl: string, fuel: nat, j: nat)
    requires AllValid(entries)
    requires GopherDir(entries, imageurl, fuel).Ok? && j < |GopherDir(entries, imageurl, fuel).value|
    ensures PageNumbered(GopherDir(entries, imageurl, fuel).value[j])
  {
    EntryFormatterNumbers(imageurl, fuel);
    PagesNumbered(entries, Keys(entries), EntryFormatter(imageurl, fuel), j);
  }

  /** The first page written is an empty page without a month: the first entry has a new
      key, and nothing was filled before it. */
  lemma FirstPageEmpty(entries: seq<LogEntry>, keys: seq<string>, format: Formatter)
    requires Keyed(entries, keys) && Paginate(entries, keys, format).Ok? && |entries| > 0
    ensures |Paginate(entries, keys, format).value| > 0
    ensures Paginate(entries, keys, format).value[0] == Page([], [], [], "", YearLabel(entries[0].begin))
  {
    StartsFirst(Opens(keys), |keys|);
    PaginateShape(entries, keys, format);
    PageContents(entries, keys, format, 0);
  }

  /** Within a run without openings every entry has the key of the last one. */
  lemma {:induction false} RunKeys(keys: seq<string>, lo: nat, hi: nat)
    requires lo < hi <= |keys|
    requires forall k :: lo < k < hi ==> !IsStart(keys, k)
    ensures forall k :: lo <= k < hi ==> keys[k] == keys[hi - 1]
    decreases hi - lo
  {
    if lo + 1 < hi {
      RunKeys(keys, lo + 1, hi);
      assert !IsStart(keys, lo + 1);
    }
  }

  /** No entry strictly between two consecutive openings opens a page. */
  lemma NoOpeningBetween(keys: seq<string>, j: nat, k: nat)
    requires j < |Openings(keys)| && Prev(Openings(keys), j) < k < Openings(keys)[j]
    ensures k < |keys| && !IsStart(keys, k)
  {
    var opens := Opens(keys);
    var s := Starts(opens, |keys|);
    StartsAscend(opens, |keys|);
    StartsFirst(opens, |keys|);
    forall m | 0 <= m < |s|
      ensures s[m] != k
    {
      if m < j {
        assert s[m] <= Prev(s, j);
      } else {
        assert s[j] <= s[m];
      }
    }
    StartsExactly(opens, |keys|, k);
  }

  /** The entries from one opening up to the next share one key. */
  lemma PageRunKeys(keys: seq<string>, j: nat)
    requires j < |Openings(keys)|
    ensures Openings(keys)[j] < |keys|
    ensures var s := Openings(keys);
      forall k :: Prev(s, j) <= k < s[j] ==> k < |keys| && keys[k] == keys[s[j] - 1]
  {
    var s := Openings(keys);
    StartsAscend(Opens(keys), |keys|);
    if Prev(s, j) < s[j] {
      forall k | Prev(s, j) < k < s[j]
        ensures !IsStart(keys, k)
      {
        NoOpeningBetween(keys, j, k);
      }
      RunKeys(keys, Prev(s, j), s[j]);
    }
  }

  /** Every entry on a page has the month key the page is filed under. */
  lemma PageHoldsOneMonth(entries: seq<LogEntry>, keys: seq<string>, format: Formatter, j: nat)
    requires Keyed(entries, keys)
    requires Paginate(entries, keys, format).Ok? && j < |Paginate(entries, keys, format).value|
    ensures j < |Openings(keys)| && Openings(keys)[j] <= |entries|
    ensures var s := Openings(keys);
      forall k :: Prev(s, j) <= k < s[j] ==> MonthKey(entries[k].begin) == Paginate(entries, keys, format).value[j].month
  {
    PaginateShape(entries, keys, format);
    WrittenAt(entries, keys, format, Openings(keys), Paginate(entries, keys, format).value, j);
    PageRunKeys(keys, j);
  }

  /** The entries on the first `n` pages, counted. */
  function EntriesOn(pages: seq<Page>, n: nat): nat
    requires n <= |pages|
  {
    if n == 0 then 0 else EntriesOn(pages, n - 1) + |pages[n - 1].entries|
  }

  /** The first `n` pages hold exactly the entries before the `n`-th opening. */
  lemma {:induction false} TotalUpTo(entries: seq<LogEntry>, keys: seq<string>, format: Formatter, n: nat)
    requires Keyed(entries, keys)
    requires Paginate(entries, keys, format).Ok? && 0 < n <= |Paginate(entries, keys, format).value|
    ensures n <= |Openings(keys)|
    ensures EntriesOn(Paginate(entries, keys, format).value, n) == Openings(keys)[n - 1]
    decreases n
  {
    var pages := Paginate(entries, keys, format).value;
    var s := Openings(keys);
    PageSize(entries, keys, format, n - 1);
    if n > 1 {
      TotalUpTo(entries, keys, format, n - 1);
      assert EntriesOn(pages, n - 1) == s[n - 2];
    } else {
      StartsFirst(Opens(keys), |keys|);
    }
  }

  /** `LastStart` is the last of the openings `Starts` lists. */
  lemma {:induction false} LastStartIsLast(keys: seq<string>, n: nat)
    requires 0 < n <= |keys|
    ensures |Starts(Opens(keys), n)| > 0
    ensures LastStart(keys, n) == Starts(Opens(keys), n)[|Starts(Opens(keys), n)| - 1]
    decreases n
  {
    if !IsStart(keys, n - 1) {
      LastStartIsLast(keys, n - 1);
    }
  }

  /** No entry after the last opening below `n` opens a page. */
  lemma {:induction false} NoOpeningAfter(keys: seq<string>, n: nat, k: nat)
    requires n <= |keys| && LastStart(keys, n) < k < n
    ensures !IsStart(keys, k)
    decreases n
  {
    if k < n - 1 {
      NoOpeningAfter(keys, n - 1, k);
    }
  }

  /** The entries from the last opening on share the key of the last entry. */
  lemma LastRunKeys(keys: seq<string>)
    requires |keys| > 0
    ensures forall k :: LastStart(keys, |keys|) <= k < |keys| ==> keys[k] == keys[|keys| - 1]
  {
    forall k | LastStart(keys, |keys|) < k < |keys|
      ensures !IsStart(keys, k)
    {
      NoOpeningAfter(keys, |keys|, k);
    }
    RunKeys(keys, LastStart(keys, |keys|), |keys|);
  }

  /** The page being filled when the entries run out is never written: the pages hold
      the entries before the last opening and no more, so the entries of the last month
      key are on none of them. */
  lemma LastMonthDropped(entries: seq<LogEntry>, keys: seq<string>, format: Formatter)
    requires Keyed(entries, keys) && Paginate(entries, keys, format).Ok?
    ensures EntriesOn(Paginate(entries, keys, format).value, |Paginate(entries, keys, format).value|)
      == LastStart(keys, |keys|)
    ensures |entries| > 0 ==>
      EntriesOn(Paginate(entries, keys, format).value, |Paginate(entries, keys, format).value|) < |entries|
    ensures forall k ::
      EntriesOn(Paginate(entries, keys, format).value, |Paginate(entries, keys, format).value|) <= k < |entries| ==>
        keys[k] == keys[|keys| - 1]
  {
    var pages := Paginate(entries, keys, format).value;
    PaginateShape(entries, keys, format);
    if |entries| > 0 {
      LastStartIsLast(keys, |keys|);
      TotalUpTo(entries, keys, format, |pages|);
      LastRunKeys(keys);
    }
  }

  /** From the second entry on the loop can only fail in the link loop. */
  lemma {:induction false} LaterPassesNeverPanic(entries: seq<LogEntry>, keys: seq<string>, format: Formatter,
                                                index: nat, st: Pager)
    requires 1 <= index <= |entries| == |keys|
    requires Walk(entries, keys, format, index, st).Err?
    ensures Walk(entries, keys, format, index, st).error.LinkLoopHangs?
    decreases |entries| - index
  {
    if index < |entries| && Advance(entries, keys, index, st, format).Ok? {
      LaterPassesNeverPanic(entries, keys, format, index + 1, Advance(entries, keys, index, st, format).value);
    }
  }

  /** The loop fails on reading an entry before the first exactly when the first key is
      January's. */
  lemma FirstKeyPanics(entries: seq<LogEntry>, keys: seq<string>, format: Formatter)
    requires 0 < |entries| == |keys| && keys[0] != ""
    ensures Paginate(entries, keys, format) == Err(NoPreviousEntry) <==> keys[0] == "01-January"
  {
    var next := Advance(entries, keys, 0, Start, format);
    if next.Ok? && Walk(entries, keys, format, 1, next.value).Err? {
      LaterPassesNeverPanic(entries, keys, format, 1, next.value);
    }
  }

  /** The loop fails on reading an entry before the first exactly when the first entry
      is in January. */
  lemma JanuaryFirstFails(entries: seq<LogEntry>, keys: seq<string>, format: Formatter)
    requires Keyed(entries, keys) && |entries| > 0 && Valid(entries[0].begin)
    ensures Paginate(entries, keys, format) == Err(NoPreviousEntry) <==> entries[0].begin.month == 1
  {
    JanuaryKey(entries[0].begin);
    MonthKeyNotEmpty(entries[0].begin);
    FirstKeyPanics(entries, keys, format);
  }

  /** The year rule in months: a page is filed under the year of the entry that opens the
      next one, unless that entry is in January; then under the year of the entry before. */
  lemma PageYearRule(entries: seq<LogEntry>, keys: seq<string>, format: Formatter, j: nat)
    requires Keyed(entries, keys) && AllValid(entries)
    requires Paginate(entries, keys, format).Ok? && j < |Paginate(entries, keys, format).value|
    ensures j < |Openings(keys)| && Openings(keys)[j] < |entries|
    ensures var i, p := Openings(keys)[j], Paginate(entries, keys, format).value[j];
      && (entries[i].begin.month == 1 ==> i > 0 && p.year == YearLabel(entries[i - 1].begin))
      && (entries[i].begin.month != 1 ==> p.year == YearLabel(entries[i].begin))
  {
    PageContents(entries, keys, format, j);
    JanuaryKey(entries[Openings(keys)[j]].begin);
  }

  // ---------------------------------------------------------------------------------
  // Two Decembers on one page

  /** Three entries whose first two share a month key and whose third has another: the
      loop writes the empty first page and one page for the first two entries, filed under
      their key and the year of the third entry. */
  lemma TwoRunsPages(entries: seq<LogEntry>, keys: seq<string>, format: Formatter)
    requires Keyed(entries, keys) && |keys| == 3
    requires keys[0] == keys[1] && keys[1] != keys[2]
    requires keys[0] != "" && keys[0] != "01-January" && keys[2] != "01-January"
    ensures Paginate(entries, keys, format).Err? ==> Paginate(entries, keys, format).error.LinkLoopHangs?
    ensures Paginate(entries, keys, format).Ok? ==>
      var pages := Paginate(entries, keys, format).value;
      && |pages| == 2 && |pages[1].entries| == 2
      && pages[1].month == keys[1] && pages[1].year == YearLabel(entries[2].begin)
  {
    FirstKeyPanics(entries, keys, format);
    TwoRunsOpenings(keys);
    if Paginate(entries, keys, format).Ok? {
      PaginateShape(entries, keys, format);
      PageContents(entries, keys, format, 1);
    }
  }

  /** Keys that change once, after the second of three entries, open pages at 0 and 2. */
  lemma TwoRunsOpenings(keys: seq<string>)
    requires |keys| == 3 && keys[0] == keys[1] && keys[1] != keys[2]
    ensures Openings(keys) == [0, 2]
  {
    var opens := Opens(keys);
    assert opens == [true, false, true];
    assert Starts(opens, 1) == [0];
    assert Starts(opens, 2) == [0];
  }

  /** A sorted log of three days: December 2023, December 2024 and February 2025, with
      nothing to show but the dates. */
  function DecemberLog(): (log: seq<LogEntry>)
    ensures |log| == 3 && SortedByBegin(log) && AllValid(log)
    ensures log[0].begin.month == log[1].begin.month == 12 && log[2].begin.month == 2
    ensures log[0].begin.year == 2023 && log[1].begin.year == 2024 && log[2].begin.year == 2025
    ensures forall k :: 0 <= k < |log| ==> log[k].body == ""
  {
    var log := [Dated(Date(2023, 12, 10)), Dated(Date(2024, 12, 3)), Dated(Date(2025, 2, 1))];
    assert !Less(log[1], log[0]) && !Less(log[2], log[0]) && !Less(log[2], log[1]);
    log
  }

  /** Entries from December 2023 and December 2024 land on one page of `generateGopherDir`,
      filed under December of 2025, the year of the February entry that follows them. */
  lemma DecembersShareAPage(imageurl: string, fuel: nat)
    ensures var log := DecemberLog();
      var r := GopherDir(log, imageurl, fuel);
      && r.Ok? && |r.value| == 2 && |r.value[1].entries| == 2
      && r.value[1].month == MonthKey(log[0].begin) == MonthKey(log[1].begin)
      && r.value[1].year == YearLabel(log[2].begin)
      && r.value[1].year != YearLabel(log[0].begin) && r.value[1].year != YearLabel(log[1].begin)
  {
    var log := DecemberLog();
    var keys := Keys(log);
    var format := EntryFormatter(imageurl, fuel);
    var a, b, c := log[0].begin, log[1].begin, log[2].begin;
    assert keys[0] == MonthKey(a) && keys[1] == MonthKey(b) && keys[2] == MonthKey(c);
    MonthKeyMatchesMonth(a, b);
    MonthKeyMatchesMonth(b, c);
    JanuaryKey(a);
    JanuaryKey(c);
    MonthKeyNotEmpty(a);
    assert !Contains("", "[[");
    PlainBodiesFormat(log, imageurl, fuel);
    PaginateFinishes(log, keys, format);
    TwoRunsPages(log, keys, format);
    YearLabelMatchesYear(c, a);
    YearLabelMatchesYear(c, b);
  }

  // ---------------------------------------------------------------------------------
  // When the loop finishes

  /** `format` succeeds on every entry of the log, whatever counters it is handed. */
  ghost predicate FormatsAll(entries: seq<LogEntry>, format: Formatter) {
    forall k, linkcount: nat, mediacount: nat :: 0 <= k < |entries| ==> format(entries[k], linkcount, mediacount).Some?
  }

  /** Only the two failures can stop the loop: the read before the first entry, and an
      entry whose link loop does not finish. */
  lemma {:induction false} WalkFinishes(entries: seq<LogEntry>, keys: seq<string>, format: Formatter,
                                        index: nat, st: Pager)
    requires index <= |entries| == |keys| && FormatsAll(entries, format)
    requires index == 0 && index < |entries| ==> keys[0] != "01-January"
    ensures Walk(entries, keys, format, index, st).Ok?
    decreases |entries| - index
  {
    if index < |entries| {
      var next := Advance(entries, keys, index, st, format);
      assert next.Ok?;
      WalkFinishes(entries, keys, format, index + 1, next.value);
    }
  }

  /** A log whose first key is not January's and whose every entry formats is paged. */
  lemma PaginateFinishes(entries: seq<LogEntry>, keys: seq<string>, format: Formatter)
    requires |keys| == |entries| && FormatsAll(entries, format)
    requires |entries| > 0 ==> keys[0] != "01-January"
    ensures Paginate(entries, keys, format).Ok?
  {
    WalkFinishes(entries, keys, format, 0, Start);
  }

  /** `formatEntry` succeeds on every entry whose body holds no "[[". */
  lemma PlainBodiesFormat(entries: seq<LogEntry>, imageurl: string, fuel: nat)
    requires AllValid(entries)
    requires forall k :: 0 <= k < |entries| ==> !Contains(entries[k].body, "[[")
    ensures FormatsAll(entries, EntryFormatter(imageurl, fuel))
  {
  }

  /** `generateGopherDir` fails on a log of real days whose bodies hold no "[["
      exactly when the first entry begins in January. */
  lemma GopherDirFinishes(entries: seq<LogEntry>, imageurl: string, fuel: nat)
    requires AllValid(entries) && |entries| > 0
    requires forall k :: 0 <= k < |entries| ==> !Contains(entries[k].body, "[[")
    ensures GopherDir(entries, imageurl, fuel).Ok? <==> entries[0].begin.month != 1
  {
    var keys := Keys(entries);
    JanuaryFirstFails(entries, keys, EntryFormatter(imageurl, fuel));
    KeysMatchMonths(entries, 0, 0);
    if entries[0].begin.month != 1 {
      PlainBodiesFormat(entries, imageurl, fuel);
      PaginateFinishes(entries, keys, EntryFormatter(imageurl, fuel));
    }
  }

  /** An entry that begins on `d`, with nothing else to show. */
  function Dated(d: Date): LogEntry {
    LogEntry(d, d, "", "", [], "")
  }
}

=== FILE: results.dfy ===
/** Failure-carrying values shared by the modules of the gokl model. */
module Results {

  /** A value that may be absent. */
  datatype Option<T> = None | Some(value: T)

  /** The outcome of an operation that can fail with an error of type `E`. */
  datatype Result<T, E> = Ok(value: T) | Err(error: E)
}

=== FILE: text.dfy ===
/** The part of Go's `strings` and `strconv` packages that gokl relies on,
    written as pure functions on character sequences. Every separator the program passes
    is a non-empty literal, so Go's special behaviour for an empty separator is not part
    of this model. */
module Text {
  import opened Results

  /** `p` occurs in `s` starting at index `i`. */
  predicate OccursAt(s: string, p: string, i: int) {
    0 <= i && i + |p| <= |s| && s[i..i + |p|] == p
  }

  /** Go's `strings.HasPrefix`. */
  predicate StartsWith(s: string, p: string) {
    |p| <= |s| && s[..|p|] == p
  }

  /** Go's `strings.Index`: where the first occurrence of `p` in `s` starts, if any. */
  function Find(s: string, p: string): (r: Option<nat>)
    ensures r.Some? ==> OccursAt(s, p, r.value)
    ensures r.Some? ==> forall j :: 0 <= j < r.value ==> !OccursAt(s, p, j)
    ensures r.None? ==> forall j :: !OccursAt(s, p, j)
  {
    FindFrom(s, p, 0)
  }

  /** The first occurrence of `p` in `s` at or after index `from`. */
  function FindFrom(s: string, p: string, from: nat): (r: Option<nat>)
    requires from <= |s|
    ensures r.Some? ==> from <= r.value && OccursAt(s, p, r.value)
    ensures r.Some? ==> forall j :: from <= j < r.value ==> !OccursAt(s, p, j)
    ensures r.None? ==> forall j :: from <= j ==> !OccursAt(s, p, j)
    decreases |s| - from
  {
    if OccursAt(s, p, from) then Some(from)
    else if |s| <= from + |p| then None
    else FindFrom(s, p, from + 1)
  }

  /** Go's `strings.HasSuffix`. */
  predicate EndsWith(s: string, p: string) {
    |p| <= |s| && s[|s| - |p|..] == p
  }

  /** Go's `strings.Contains`. */
  predicate Contains(s: string, p: string) {
    Find(s, p).Some?
  }

  /** Text that does not contain `p` does not contain any extension `p + q` of it. */
  lemma NoLongerPattern(s: string, p: string, q: string)
    requires !Contains(s, p)
    ensures !Contains(s, p + q)
  {
    forall j | 0 <= j < |s|
      ensures !OccursAt(s, p + q, j)
    {
      if j + |p + q| <= |s| {
        assert s[j..j + |p + q|][..|p|] == s[j..j + |p|];
        assert (p + q)[..|p|] == p;
        assert !OccursAt(s, p, j);
      }
    }
  }

  /** An occurrence that no earlier occurrence precedes is the one `Find` reports. */
  lemma FindFirst(s: string, p: string, i: nat)
    requires OccursAt(s, p, i)
    requires forall j :: 0 <= j < i ==> !OccursAt(s, p, j)
    ensures Find(s, p) == Some(i)
  {
  }

  /** An occurrence inside a prefix is an occurrence in the whole string. */
  lemma OccursInPrefix(s: string, n: nat, p: string, j: int)
    requires n <= |s|
    requires OccursAt(s[..n], p, j)
    ensures OccursAt(s, p, j)
  {
    assert s[..n][j..j + |p|] == s[j..j + |p|];
  }

  /** An occurrence inside a suffix is an occurrence in the whole string, shifted. */
  lemma OccursInSuffix(s: string, n: nat, p: string, j: int)
    requires n <= |s|
    requires OccursAt(s[n..], p, j)
    ensures OccursAt(s, p, n + j)
  {
    assert s[n..][j..j + |p|] == s[n + j..n + j + |p|];
  }

  /** Nothing occurs in the part of `s` in front of its first occurrence of `p`. */
  lemma NothingBeforeFirst(s: string, p: string, i: nat)
    requires |p| > 0 && i <= |s|
    requires forall j :: 0 <= j < i ==> !OccursAt(s, p, j)
    ensures !Contains(s[..i], p)
  {
    if Contains(s[..i], p) {
      var j := Find(s[..i], p).value;
      OccursInPrefix(s, i, p, j);
    }
  }

  /** A one-character pattern occurs in `a + b` only where it occurs in `a` or in `b`. */
  lemma OccursInConcat(a: string, b: string, p: string, j: int)
    requires |p| == 1
    requires OccursAt(a + b, p, j)
    ensures j < |a| ==> OccursAt(a, p, j)
    ensures |a| <= j ==> OccursAt(b, p, j - |a|)
  {
    assert (a + b)[j] == p[0];
    if j < |a| {
      assert a[j..j + 1] == [a[j]];
    } else {
      assert b[j - |a|..j - |a| + 1] == [b[j - |a|]];
    }
  }

  /** A pattern of one character that `s` lacks does not occur in `s`. */
  lemma AbsentChar(s: string, p: string)
    requires |p| == 1 && p[0] !in s
    ensures !Contains(s, p)
  {
    forall j | 0 <= j && j + 1 <= |s|
      ensures !OccursAt(s, p, j)
    {
      assert s[j..j + 1][0] == s[j];
    }
  }

  /** Text without the first character of a pattern does not contain the pattern. */
  lemma AbsentFirstChar(s: string, p: string)
    requires |p| > 0 && p[0] !in s
    ensures !Contains(s, p)
  {
    forall j | 0 <= j < |s|
      ensures !OccursAt(s, p, j)
    {
      if j + |p| <= |s| {
        assert s[j..j + |p|][0] == s[j];
      }
    }
  }

  /** Text without the first character of `sep` holds no occurrence of `sep` that starts
      inside it, whatever follows it. */
  lemma HeadAbsent(a: string, sep: string, b: string)
    requires |sep| > 0 && sep[0] !in a
    ensures forall j :: 0 <= j < |a| ==> !OccursAt(a + sep + b, sep, j)
  {
    var s := a + sep + b;
    forall j | 0 <= j < |a|
      ensures !OccursAt(s, sep, j)
    {
      assert s[j] == a[j];
      if j + |sep| <= |s| {
        assert s[j..j + |sep|][0] == s[j];
      }
    }
  }

  /** Every `c` in `s` is directly followed, inside `s`, by a character other than `c`:
      `s` holds no doubled `c` and does not end in `c`. */
  predicate Isolated(s: string, c: char) {
    forall j :: 0 <= j < |s| ==> SingleAt(s, c, j)
  }

  /** A `c` at index `j` of `s` is followed, inside `s`, by something else. */
  predicate SingleAt(s: string, c: char, j: int)
    requires 0 <= j < |s|
  {
    s[j] == c ==> j + 1 < |s| && s[j + 1] != c
  }

  lemma IsolatedConcat(a: string, b: string, c: char)
    requires Isolated(a, c) && Isolated(b, c)
    ensures Isolated(a + b, c)
  {
    var s := a + b;
    forall j | 0 <= j < |s|
      ensures SingleAt(s, c, j)
    {
      if j < |a| {
        assert SingleAt(a, c, j);
        assert s[j] == a[j];
        if j + 1 < |a| { assert s[j + 1] == a[j + 1]; }
      } else {
        assert SingleAt(b, c, j - |a|);
        assert s[j] == b[j - |a|];
        if j + 1 < |s| { assert s[j + 1] == b[j + 1 - |a|]; }
      }
    }
  }

  /** Isolated occurrences never form a doubled pair. */
  lemma IsolatedNoPair(s: string, c: char)
    requires Isolated(s, c)
    ensures !Contains(s, [c, c])
  {
    forall j | 0 <= j < |s|
      ensures !OccursAt(s, [c, c], j)
    {
      assert SingleAt(s, c, j);
      if j + 2 <= |s| {
        assert s[j..j + 2][0] == s[j] && s[j..j + 2][1] == s[j + 1];
      }
    }
  }

  /** One `c` in front of non-empty text free of `c` is isolated. */
  lemma IsolatedOpen(c: char, u: string)
    requires |u| > 0 && c !in u
    ensures Isolated([c] + u, c)
  {
    var s := [c] + u;
    forall j | 1 <= j < |s|
      ensures s[j] != c
    {
      assert s[j] == u[j - 1];
    }
    assert s[1] == u[0];
    forall j | 0 <= j < |s|
      ensures SingleAt(s, c, j)
    {
    }
  }

  /** Text free of `c` is isolated. */
  lemma IsolatedFree(s: string, c: char)
    requires c !in s
    ensures Isolated(s, c)
  {
    forall j | 0 <= j < |s|
      ensures SingleAt(s, c, j)
    {
    }
  }

  /** A joined list of non-empty pieces without `c`, joined by `c`, has no doubled `c`
      and does not end in `c`. */
  lemma {:induction false} IsolatedJoin(parts: seq<string>, c: char)
    requires forall k :: 0 <= k < |parts| ==> |parts[k]| > 0 && c !in parts[k]
    ensures Isolated(Join(parts, [c]), c)
    ensures |parts| > 0 ==> |Join(parts, [c])| > 0 && Join(parts, [c])[0] == parts[0][0]
    decreases |parts|
  {
    if |parts| > 1 {
      var rest := Join(parts[1..], [c]);
      IsolatedJoin(parts[1..], c);
      assert Isolated([c] + rest, c) by {
        forall j | 0 <= j < |[c] + rest|
          ensures SingleAt([c] + rest, c, j)
        {
          if j > 0 {
            assert SingleAt(rest, c, j - 1);
            assert ([c] + rest)[j] == rest[j - 1];
            if j < |rest| { assert ([c] + rest)[j + 1] == rest[j]; }
          }
        }
      }
      assert Isolated(parts[0], c);
      IsolatedConcat(parts[0], [c] + rest, c);
      assert Join(parts, [c]) == parts[0] + ([c] + rest);
    }
  }

  /** In `a + [c, c] + b` with `a` free of doubled `c`s, the first `[c, c]` is the one
      after `a`. */
  lemma IsolatedThenPair(a: string, c: char, b: string)
    requires Isolated(a, c)
    ensures forall j :: 0 <= j < |a| ==> !OccursAt(a + [c, c] + b, [c, c], j)
    ensures Split(a + [c, c] + b, [c, c]) == [a] + Split(b, [c, c])
    ensures SplitOnce(a + [c, c] + b, [c, c]) == [a, b]
  {
    var s := a + [c, c] + b;
    forall j | 0 <= j < |a|
      ensures !OccursAt(s, [c, c], j)
    {
      assert SingleAt(a, c, j);
      if a[j] == c {
        assert s[j + 1] == a[j + 1];
      }
      assert s[j..j + 2][0] == s[j];
      assert s[j..j + 2][1] == s[j + 1];
    }
    SplitAt(a, [c, c], b);
  }

  /** Go's `strings.SplitN(s, sep, 2)`: the text before and after the first `sep`,
      or `[s]` when `sep` does not occur. */
  function SplitOnce(s: string, sep: string): (parts: seq<string>)
    requires |sep| > 0
    ensures 1 <= |parts| <= 2
    ensures |parts| == 2 <==> Contains(s, sep)
    ensures |parts| == 1 ==> parts[0] == s
    ensures |parts| == 2 ==> s == parts[0] + sep + parts[1]
    ensures |parts| == 2 ==> forall j :: OccursAt(s, sep, j) ==> |parts[0]| <= j
  {
    var f := Find(s, sep);
    if f.None? then [s]
    else
      var i := f.value;
      assert s == s[..i] + sep + s[i + |sep|..];
      [s[..i], s[i + |sep|..]]
  }

  /** Go's `strings.SplitAfterN(s, sep, 2)`: like `SplitOnce`, but the first part keeps
      the separator. */
  function SplitAfterOnce(s: string, sep: string): (parts: seq<string>)
    requires |sep| > 0
    ensures 1 <= |parts| <= 2
    ensures |parts| == 2 <==> Contains(s, sep)
    ensures |parts| == 1 ==> parts[0] == s
    ensures |parts| == 2 ==> s == parts[0] + parts[1] && |sep| <= |parts[0]|
    ensures |parts| == 2 ==> OccursAt(s, sep, |parts[0]| - |sep|)
    ensures |parts| == 2 ==> forall j :: OccursAt(s, sep, j) ==> |parts[0]| - |sep| <= j
  {
    var f := Find(s, sep);
    if f.None? then [s]
    else
      var i := f.value;
      assert s == s[..i + |sep|] + s[i + |sep|..];
      [s[..i + |sep|], s[i + |sep|..]]
  }

  /** `SplitAfterOnce` on text whose first separator follows `a` keeps `a` with the separator. */
  lemma SplitAfterAt(a: string, sep: string, b: string)
    requires |sep| > 0
    requires forall j :: 0 <= j < |a| ==> !OccursAt(a + sep + b, sep, j)
    ensures SplitAfterOnce(a + sep + b, sep) == [a + sep, b]
  {
    var s := a + sep + b;
    assert s[|a|..|a| + |sep|] == sep;
    FindFirst(s, sep, |a|);
    assert s[..|a| + |sep|] == a + sep;
    assert s[|a| + |sep|..] == b;
  }

  /** Go's `strings.Join`. */
  function Join(parts: seq<string>, sep: string): string
    decreases |parts|
  {
    if |parts| == 0 then ""
    else if |parts| == 1 then parts[0]
    else parts[0] + sep + Join(parts[1..], sep)
  }

  lemma JoinCons(a: string, tail: seq<string>, sep: string)
    requires |tail| >= 1
    ensures Join([a] + tail, sep) == a + sep + Join(tail, sep)
  {
    assert ([a] + tail)[1..] == tail;
  }

  lemma ConcatAssoc<T>(a: seq<T>, b: seq<T>, c: seq<T>)
    ensures a + (b + c) == (a + b) + c
  {
  }

  /** Go's `strings.Split(s, sep)`: the pieces between the non-overlapping occurrences of
      `sep`, found from left to right. Every cut is at the first occurrence in what is
      left, which matters for a separator that overlaps itself: "\n\n\n" splits at
      "\n\n" into "" and "\n", not into "\n" and "". */
  function Split(s: string, sep: string): (parts: seq<string>)
    requires |sep| > 0
    ensures |parts| >= 1
    ensures |parts| == 1 <==> !Contains(s, sep)
    ensures |parts| >= 2 ==> var i := |parts[0]|;
      && Find(s, sep) == Some(i) && i + |sep| <= |s| && parts[1..] == Split(s[i + |sep|..], sep)
    decreases |s|
  {
    var f := Find(s, sep);
    if f.None? then [s] else [s[..f.value]] + Split(s[f.value + |sep|..], sep)
  }

  /** A text is its prefix, the `n` characters at `i`, and the rest. */
  lemma Recombine(s: string, i: nat, n: nat)
    requires i + n <= |s|
    ensures s == s[..i] + s[i..i + n] + s[i + n..]
  {
  }

  /** Joining the pieces of `Split` with the separator gives the text back. */
  lemma {:induction false} SplitJoinsBack(s: string, sep: string)
    requires |sep| > 0
    ensures Join(Split(s, sep), sep) == s
    decreases |s|
  {
    match Find(s, sep)
    case None =>
    case Some(i) =>
      var rest := s[i + |sep|..];
      var tail := Split(rest, sep);
      SplitJoinsBack(rest, sep);
      JoinCons(s[..i], tail, sep);
      Recombine(s, i, |sep|);
  }

  /** No piece of `Split` contains the separator. */
  lemma {:induction false} SplitPiecesFree(s: string, sep: string)
    requires |sep| > 0
    ensures forall k :: 0 <= k < |Split(s, sep)| ==> !Contains(Split(s, sep)[k], sep)
    decreases |s|
  {
    var f := Find(s, sep);
    if f.Some? {
      var i := f.value;
      var rest := s[i + |sep|..];
      FirstPiece(s, sep, i);
      SplitPiecesFree(rest, sep);
      PiecesFreeCons(s[..i], Split(rest, sep), sep);
    }
  }

  /** `Split` cuts off, at the first separator, a piece without the separator. */
  lemma FirstPiece(s: string, sep: string, i: nat)
    requires |sep| > 0 && Find(s, sep) == Some(i)
    ensures i + |sep| <= |s|
    ensures Split(s, sep) == [s[..i]] + Split(s[i + |sep|..], sep)
    ensures !Contains(s[..i], sep)
  {
    var a, b := s[..i], s[i + |sep|..];
    assert s == a + sep + b by { Recombine(s, i, |sep|); }
    assert !Contains(a, sep) by { NothingBeforeFirst(s, sep, i); }
    SplitAt(a, sep, b);
  }

  lemma PiecesFreeCons(head: string, tail: seq<string>, sep: string)
    requires !Contains(head, sep) && forall k :: 0 <= k < |tail| ==> !Contains(tail[k], sep)
    ensures forall k :: 0 <= k < |[head] + tail| ==> !Contains(([head] + tail)[k], sep)
  {
    forall k | 0 <= k < |[head] + tail|
      ensures !Contains(([head] + tail)[k], sep)
    {
      if k > 0 {
        assert ([head] + tail)[k] == tail[k - 1];
      }
    }
  }


  /** `Split` and `SplitOnce` agree on the first piece, and the second piece of `Split`
      is the text after the first separator up to the next one. */
  lemma SplitFirstPieces(s: string, sep: string)
    requires |sep| > 0
    ensures Split(s, sep)[0] == SplitOnce(s, sep)[0]
    ensures |Split(s, sep)| > 1 ==> Split(s, sep)[1] == SplitOnce(SplitOnce(s, sep)[1], sep)[0]
  {
    match Find(s, sep)
    case None =>
    case Some(i) =>
      var rest := s[i + |sep|..];
      assert SplitOnce(s, sep)[1] == rest;
      assert Split(s, sep) == [s[..i]] + Split(rest, sep);
      match Find(rest, sep)
      case None =>
      case Some(k) =>
  }

  /** Splitting text that starts with `a + sep`, where nothing occurs in front of that
      separator, peels off `a`. */
  lemma SplitAt(a: string, sep: string, b: string)
    requires |sep| > 0
    requires forall j :: 0 <= j < |a| ==> !OccursAt(a + sep + b, sep, j)
    ensures Split(a + sep + b, sep) == [a] + Split(b, sep)
    ensures SplitOnce(a + sep + b, sep) == [a, b]
  {
    var s := a + sep + b;
    assert s[|a|..|a| + |sep|] == sep;
    FindFirst(s, sep, |a|);
    assert s[..|a|] == a;
    assert s[|a| + |sep|..] == b;
  }

  /** Splitting a joined list on a one-character separator that no piece contains gives
      the list back: the inverse direction of the `Join` property of `Split`. */
  lemma {:induction false} SplitJoin(parts: seq<string>, sep: string)
    requires |sep| == 1 && |parts| >= 1
    requires forall k :: 0 <= k < |parts| ==> !Contains(parts[k], sep)
    ensures Split(Join(parts, sep), sep) == parts
    decreases |parts|
  {
    if |parts| == 1 {
      assert !Contains(parts[0], sep);
    } else {
      var a, tail := parts[0], parts[1..];
      var b := Join(tail, sep);
      SplitAtChar(a, sep, b);
      assert Split(b, sep) == tail by {
        assert forall k :: 0 <= k < |tail| ==> tail[k] == parts[k + 1];
        SplitJoin(tail, sep);
      }
      assert Join(parts, sep) == a + sep + b;
      assert [a] + tail == parts;
    }
  }

  /** A text free of a one-character separator is the first piece of itself, the
      separator and more. */
  lemma SplitAtChar(a: string, sep: string, b: string)
    requires |sep| == 1 && !Contains(a, sep)
    ensures Split(a + sep + b, sep) == [a] + Split(b, sep)
  {
    CharAbsent(a, sep);
    HeadAbsent(a, sep, b);
    SplitAt(a, sep, b);
  }

  /** A one-character pattern the text does not contain is a character it lacks. */
  lemma CharAbsent(s: string, p: string)
    requires |p| == 1 && !Contains(s, p)
    ensures p[0] !in s
  {
    if p[0] in s {
      var j :| 0 <= j < |s| && s[j] == p[0];
      assert s[j..j + 1] == p;
      assert OccursAt(s, p, j);
    }
  }

  /** Go's `strings.Replace(s, pat, rep, -1)`: every non-overlapping occurrence of `pat`,
      found from left to right, replaced by `rep` — the pieces `strings.Split` cuts at
      `pat`, joined again with `rep`. */
  function ReplaceAll(s: string, pat: string, rep: string): (r: string)
    requires |pat| > 0
    ensures !Contains(s, pat) ==> r == s
    ensures Find(s, pat).Some? ==>
      var i := Find(s, pat).value;
      i + |pat| <= |s| && r == s[..i] + rep + ReplaceAll(s[i + |pat|..], pat, rep)
    decreases |s|
  {
    var f := Find(s, pat);
    if f.None? then Join(Split(s, pat), rep)
    else
      var i := f.value;
      FirstPiece(s, pat, i);
      JoinCons(s[..i], Split(s[i + |pat|..], pat), rep);
      Join(Split(s, pat), rep)
  }

  predicate IsDigit(c: char) {
    '0' <= c <= '9'
  }

  predicate AllDigits(s: string) {
    forall k :: 0 <= k < |s| ==> IsDigit(s[k])
  }

  function DigitChar(d: nat): (c: char)
    requires d < 10
    ensures IsDigit(c)
  {
    ('0' as int + d) as char
  }

  function DigitValue(c: char): (d: nat)
    requires IsDigit(c)
    ensures d < 10 && DigitChar(d) == c
  {
    c as int - '0' as int
  }

  /** The number a string of decimal digits denotes (most significant digit first). */
  function DecimalValue(s: string): nat
    requires AllDigits(s)
  {
    if |s| == 0 then 0 else 10 * DecimalValue(s[..|s| - 1]) + DigitValue(s[|s| - 1])
  }

  /** Go's `strconv.Itoa` for the non-negative values the program formats: the shortest
      decimal numeral of `n`. */
  function Itoa(n: nat): (s: string)
    ensures |s| >= 1 && AllDigits(s)
    ensures |s| > 1 ==> s[0] != '0'
    decreases n
  {
    if n < 10 then [DigitChar(n)] else Itoa(n / 10) + [DigitChar(n % 10)]
  }

  /** `Itoa` writes `n` in decimal: reading its digits back gives `n`. */
  lemma {:induction false} ItoaValue(n: nat)
    ensures DecimalValue(Itoa(n)) == n
    decreases n
  {
    if n >= 10 {
      var s := Itoa(n);
      ItoaValue(n / 10);
      assert s[..|s| - 1] == Itoa(n / 10);
    }
  }

  /** Two digit strings of the same length denote the same number only if they are equal. */
  lemma {:induction false} DecimalInjective(a: string, b: string)
    requires AllDigits(a) && AllDigits(b) && |a| == |b|
    requires DecimalValue(a) == DecimalValue(b)
    ensures a == b
    decreases |a|
  {
    if |a| > 0 {
      var n := |a| - 1;
      assert DigitValue(a[n]) == DecimalValue(a) % 10;
      assert DigitValue(b[n]) == DecimalValue(b) % 10;
      assert a[n] == DigitChar(DigitValue(a[n]));
      assert DecimalValue(a[..n]) == DecimalValue(a) / 10;
      assert DecimalValue(b[..n]) == DecimalValue(b) / 10;
      DecimalInjective(a[..n], b[..n]);
      assert a == a[..n] + [a[n]];
      assert b == b[..n] + [b[n]];
    }
  }

  function Pow10(k: nat): (r: nat)
    ensures r >= 1
  {
    if k == 0 then 1 else 10 * Pow10(k - 1)
  }

  /** A number below `10^k` has a numeral of at most `k` digits. */
  lemma {:induction false} ItoaShort(n: nat, k: nat)
    requires 1 <= k && n < Pow10(k)
    ensures |Itoa(n)| <= k
    decreases n
  {
    if n >= 10 {
      assert k >= 2;
      ItoaShort(n / 10, k - 1);
    }
  }

  /** A number below `10^k` is written in exactly `k` digits once padded to `k`. */
  lemma PadWidth(n: nat, k: nat)
    requires 1 <= k && n < Pow10(k)
    ensures |PadDecimal(n, k)| == k
  {
    ItoaShort(n, k);
  }

  /** Digit strings joined are digit strings. */
  lemma AllDigitsConcat(a: string, t: string)
    requires AllDigits(a) && AllDigits(t)
    ensures AllDigits(a + t)
  {
    var at := a + t;
    forall k | 0 <= k < |at| ensures IsDigit(at[k]) {
      if k < |a| { assert at[k] == a[k]; } else { assert at[k] == t[k - |a|]; }
    }
  }

  /** The arithmetic of appending one digit `d` to a numeral worth `p * da + dp`. */
  lemma ShiftDigit(p: int, da: int, dp: int, d: int)
    ensures 10 * (p * da + dp) + d == (10 * p) * da + (10 * dp + d)
  {
    assert 10 * (p * da) == (10 * p) * da;
  }

  /** Leading digits scale by the length of what follows them. */
  lemma {:induction false} DecimalValueConcat(a: string, t: string)
    requires AllDigits(a) && AllDigits(t)
    ensures AllDigits(a + t)
    ensures DecimalValue(a + t) == Pow10(|t|) * DecimalValue(a) + DecimalValue(t)
    decreases |t|
  {
    AllDigitsConcat(a, t);
    if |t| > 0 {
      var n := |t| - 1;
      var at := a + t;
      assert at[..|at| - 1] == a + t[..n];
      assert at[|at| - 1] == t[n];
      DecimalValueConcat(a, t[..n]);
      ShiftDigit(Pow10(n), DecimalValue(a), DecimalValue(t[..n]), DigitValue(t[n]));
    } else {
      assert a + t == a;
    }
  }

  function Zeros(k: nat): (s: string)
    ensures |s| == k && AllDigits(s)
    ensures DecimalValue(s) == 0
  {
    if k == 0 then ""
    else
      var s := Zeros(k - 1) + ['0'];
      assert s[..|s| - 1] == Zeros(k - 1);
      s
  }

  /** `n` in decimal, left-padded with zeros to at least `width` digits: how Go's time
      formatting writes the year (layout "2006") and the month (layout "01"). */
  function PadDecimal(n: nat, width: nat): (s: string)
    ensures |s| == if |Itoa(n)| < width then width else |Itoa(n)|
    ensures AllDigits(s)
    ensures DecimalValue(s) == n
  {
    var digits := Itoa(n);
    var pad := if |digits| < width then width - |digits| else 0;
    ItoaValue(n);
    LeadingZeros(pad, digits);
    Zeros(pad) + digits
  }

  /** Leading zeros do not change the number a string of digits denotes. */
  lemma LeadingZeros(k: nat, digits: string)
    requires AllDigits(digits)
    ensures AllDigits(Zeros(k) + digits)
    ensures DecimalValue(Zeros(k) + digits) == DecimalValue(digits)
  {
    DecimalValueConcat(Zeros(k), digits);
    assert Pow10(|digits|) * DecimalValue(Zeros(k)) == 0;
  }

  /** A string of `k` digits denotes a number below `10^k`. */
  lemma {:induction false} DecimalValueBound(s: string)
    requires AllDigits(s)
    ensures DecimalValue(s) < Pow10(|s|)
    decreases |s|
  {
    if |s| > 0 {
      DecimalValueBound(s[..|s| - 1]);
    }
  }

  /** A fixed-width field of digits is the padded numeral of its own value. */
  lemma PadDecimalOfDigits(s: string)
    requires AllDigits(s) && |s| >= 1
    ensures PadDecimal(DecimalValue(s), |s|) == s
  {
    DecimalValueBound(s);
    ItoaShort(DecimalValue(s), |s|);
    DecimalInjective(PadDecimal(DecimalValue(s), |s|), s);
  }
}
